=== FILE: README.md ===
# rPGE core, modelled in Dafny

This project models the sequential core of the PR00F's Game Engine (PGE)
and its renderer (PRRE), and proves properties of that model:

- **Packet framing** (`Packet`, `Packing`): the fixed-layout `PgePacket`
  (4-byte kind, 4-byte server-side connection handle, a 257-byte union
  body), the user-connected / user-disconnected notices, and the
  application-message area. The area is a count byte, a length byte and 255
  bytes of packed `MsgApp`s. Each `MsgApp` is a 4-byte id, a size byte and at
  most 240 data bytes. `addPktMsgApp`, `preparePktMsgAppFill` and
  `fillMsgApp` are modelled byte for byte, as written. Corrected appenders
  carry the round-trip proofs.
- **Client session** (`Client`): `PgeGsnClient` connect, disconnect and
  destroy; the connection-status callback; and `sendToServer`, which trims
  the packet to the bytes its messages use and keeps tx counters.
- **Server routing** (`Server`): `PgeServerImpl::send`, `sendToAll`,
  `sendToAllClientsExcept`, `Update` and the constructor's allow-list.
- **Engine network subsystem** (`SysNet`, `Registry`): the `PGESysNET`
  registry of connected clients (an ordered map from handle to nick), the
  server and client connection callbacks, nick generation, broadcasting and
  polling one incoming message.
- **OpenGL helpers** (`GLSnippets`): error texts and the saved last
  error, typed index-array access, and the blend-factor translations.
- **3D objects** (`PureObject`, `Containers`): `PureObject3D` property
  setters, the occluder role, and the object's membership in the five shared
  occluder/occludee lists. Also the occlusion-query start/finish bookkeeping.
- **Fixed-pipeline renderer** (`Renderer`): `initialize` guards, which
  objects each render path draws and in what order, the frame counters that
  pace occluder updates and statistics, the statistics pass, and the
  render-hint switch that force-finishes pending queries.
- **Profiles and configuration variables** (`SysCfg`): `PGESysCFG`
  profile selection, profile creation and deletion, `getVar` (both
  overloads) and `DeleteVar`.

Foreign calls are handled the same way throughout. GameNetworkingSockets,
OpenGL and the Win32 file system become parameters: the library's answers,
GPU query results, directory scans and file outcomes. Requests to the
library become returned lists of requests, and drawing becomes a trace of
draw calls.

Little-endian byte order is assumed for the in-memory layout (`Bytes`).

Some behaviour of the code, as modelled:

- The message area is not appended to. `addPktMsgApp` always copies to
  offset 0, and `preparePktMsgAppFill` sets the count to 1 (see Findings).
- The server's `PollIncomingMessages` releases a message from a registered
  client unread and reports false. It does not decode it or queue it.

## Model

| member | source | states |
|---|---|---|
| Bytes.DecodeEncode | PGE/Network/PgePacket.h:69-95 | a multi-byte field stored little-endian reads back as the stored value |
| Bytes.EncodeDecode | PGE/Network/PgePacket.h:69-95 | any byte string is the little-endian image of the value it reads as |
| Bytes.U32RoundTrip | PGE/Network/PgePacket.h:85-94 | the 4-byte message id field and its value determine each other, in both directions |
| Bytes.U32BytesIsLE | PGE/Network/PgePacket.h:85-94 | the explicit 4-byte id layout is the general little-endian encoding at width 4 |
| Packet.PktIdCode | PGE/Network/PgePacket.h:33-38 | packet kinds are stored as 0, 1, 2 and the stored code decodes back to the same kind |
| Packet.PktIdOfCode | PGE/Network/PgePacket.h:33-38 | a stored kind word denotes a packet kind exactly when it is below 3 |
| Packet.PktIdCodeInjective | PGE/Network/PgePacket.h:33-38 | distinct packet kinds never share a stored code |
| Packet.InitPktBasic | PGE/Network/PgePacket.cpp:79-91 | kind and handle are set; ZERO clears every body byte, NONE leaves the body untouched |
| Packet.InitPktUserConnected | PGE/Network/PgePacket.cpp:93-122 | refused with the packet untouched iff the address has 48 or more characters; otherwise a notice of that kind carrying the handle, a flag byte of 1 or 0 and the address up to its first NUL, with every body byte after the address text zero |
| Packet.CStringOfTerminated | PGE/Network/PgePacket.h:44-55 | a NUL-free text followed by a NUL in the 48-byte buffer reads back as that text |
| Packet.CStringOfNulFree | PGE/Network/PgePacket.h:44-55 | a buffer without NUL reads back whole |
| Packet.InitPktUserDisconnected | PGE/Network/PgePacket.cpp:130-135 | a zero-filled packet of the disconnected kind for the given handle |
| Packet.UserDisconnectedDeterminedByHandle | PGE/Network/PgePacket.cpp:130-135 | two disconnected notices are equal exactly when their handles are, whatever the packets held before |
| Packet.InitPktMsgApp | PGE/Network/PgePacket.cpp:137-147 | an application packet with count 0 and length 0 in either fill mode; NONE keeps the old area bytes, ZERO clears them |
| Packet.FullAreaAdmitsNothing | PGE/Network/PgePacket.cpp:125-128 | once the length reaches 255 no message of any size can be added |
| Packet.MsgAppBytesPrefix | PGE/Network/PgePacket.h:85-94 | the first 5 + size bytes of a MsgApp struct are exactly the packed id, size and payload |
| Packet.FillMsgApp | PGE/Network/PgePacket.cpp:280-294 | refused with nothing changed iff the size exceeds 240; otherwise id, size and the first size data bytes read back as given and the rest of the buffer is kept |
| Packet.MsgAppTotalActualSize | PGE/Network/PgePacket.cpp:264-267 | 5 + size for every size up to 250, which for a valid size is the length of the message's packed bytes; a corrupt size above 250 wraps modulo 256 in the byte result |
| Packet.AddPktMsgApp | PGE/Network/PgePacket.cpp:149-195 | succeeds iff application kind, size ≤ 240, room in the area and fewer than 255 messages, and changes nothing otherwise; on success count +1, length +5+size, and the message reads back from offset 0 with the bytes after it untouched |
| Packet.PreparePktMsgAppFill | PGE/Network/PgePacket.cpp:197-246 | the same four refusals with the packet untouched; on success the count is 1, the length grows by 5+size, id and size sit at offset 0 and the payload slot is offset 5 |
| Packet.WriteAtSlot | PGE/Network/PgePacket.cpp:246 | a write through the returned slot pointer changes only those area bytes, never count or length |
| Packet.PrepareThenWriteMatchesAdd | PGE/Network/PgePacket.cpp:149-246 | on an empty application packet, prepare followed by writing the payload builds the same packet as add |
| Packet.ReadMsgAtBytes | PGE/Network/PgePacket.h:85-94 | a message read from the area is exactly what its packed bytes there say |
| Packet.ReadMessageBytes | PGE/Network/PgePacket.h:85-94 | a message's packed bytes, placed in the area, read back as that message |
| Packet.EncodeAllAppend | PGE/Network/PgePacket.h:101-115 | packing one more message appends exactly its packed bytes |
| Packet.DecodeEncodeAll | PGE/Network/PgePacket.h:101-115 | messages packed back to back decode back to the same list |
| Packet.WalkSizeOfDecoded | PGE/Network/PgeGsnClient.cpp:151-175 | over well-formed messages, the size walk ends right after the last message, at the offset the packed list occupies |
| Packing.HoldsDecodes | PGE/Network/PgePacket.h:101-115 | a packet holding a list decodes to it, and the send-size walk ends at its stored length |
| Packing.InitHoldsNothing | PGE/Network/PgePacket.cpp:137-147 | a freshly initialised application packet holds the empty list |
| Packing.AppendPktMsgApp | PGE/Network/PgePacket.cpp:149-195 | corrected add: the same refusals, and the message goes after the used bytes, which are kept |
| Packing.AppendKeepsMessages | PGE/Network/PgePacket.cpp:149-195 | corrected add on a packet holding a list yields a packet holding that list plus the new message |
| Packing.PreparePktMsgAppAppend | PGE/Network/PgePacket.cpp:197-246 | corrected prepare: the slot follows the used bytes, the count grows by one and earlier bytes are kept |
| Packing.PrepareAppendThenWrite | PGE/Network/PgePacket.cpp:197-246 | corrected prepare followed by the caller's write gives the corrected add's packet |
| Packing.AddTwiceLosesFirstMessage | PGE/Network/PgePacket.cpp:190 | as written: after two adds the packet counts two messages but the first was overwritten |
| Packing.AppendTwiceKeepsBoth | PGE/Network/PgePacket.cpp:190 | corrected: any two messages that fit are both held, in order |
| Packing.PrepareTwiceCountsOne | PGE/Network/PgePacket.cpp:236 | as written: two reservations leave count 1 with the length of two messages |
| Packing.PrepareAppendTwiceCountsTwo | PGE/Network/PgePacket.cpp:236 | corrected: two reservations are both counted |
| Client.NewClient | PGE/Network/PgeGsnClient.cpp:241-248 | a new client is not initialised |
| Client.ConnectToServer | PGE/Network/PgeGsnClient.cpp:62-105 | refused when already connected (no change), on a parse failure (address cleared) or an invalid handle (still not initialised, address and text set, one connect request issued); on success connected with the parsed host, port 0 replaced by 27020, and exactly one connect request |
| Client.DisconnectClient | PGE/Network/PgeGsnClient.cpp:107-126 | always true; not connected changes nothing; otherwise one close request, both handles invalid, address cleared, the address text kept (the zero-length memset) and counters kept |
| Client.DisconnectClientCleared | PGE/Network/PgeGsnClient.cpp:122 | corrected disconnect: the address text is emptied as well, everything else as written |
| Client.DisconnectKeepsAddressText | PGE/Network/PgeGsnClient.cpp:122 | as written, after connect then disconnect the old address text is still reported |
| Client.ConnectDisconnectRestores | PGE/Network/PgeGsnClient.cpp:62-126 | corrected: connect then disconnect leaves handles and both address fields as a never-connected client has them |
| Client.Destroy | PGE/Network/PgeGsnClient.cpp:44-55 | not connected succeeds with no change; otherwise the client is left exactly as disconnectClient leaves it, with its close request, and the call succeeds iff the wrapper tear-down does; never initialised afterwards |
| Client.DestroyThenReconnect | PGE/Network/PgeGsnClient.cpp:44-105 | after destroy a second destroy is a successful no-op and a connect the library grants a handle for succeeds |
| Client.OnStatusChanged | PGE/Network/PgeGsnClient.cpp:278-350 | closed-by-peer and locally-detected problems close the connection and invalidate the handle; other states change nothing |
| Client.TxSize | PGE/Network/PgeGsnClient.cpp:151-175 | a non-application packet is sent whole (268 bytes) |
| Client.TxSizeCanExceedPacket | PGE/Network/PgeGsnClient.cpp:151-175 | a packet whose one message's size byte reads 255 passes the size walk, yet 270 bytes would be sent from the 268-byte packet |
| Client.TxSizeOfHeldMessages | PGE/Network/PgeGsnClient.cpp:151-175 | an application packet holding messages is sent as the 10 header bytes plus exactly the bytes its messages occupy, less than the whole packet |
| Client.SendToServer | PGE/Network/PgeGsnClient.cpp:143-193 | not connected sends nothing; otherwise one send of the trimmed size, packet count +1 (wrapping), byte count + size, and the first message id's counter raised once per message |
| Client.NoSendAfterClose | PGE/Network/PgeGsnClient.cpp:143-149 | once the connection is reported closed, sending makes no request |
| Client.TallyIds | PGE/Network/PgeGsnClient.cpp:183-191 | corrected counting: each id's counter grows by its number of occurrences |
| Client.SendToServerTallied | PGE/Network/PgeGsnClient.cpp:143-193 | corrected send: the same trimmed send, with every message counted under its own id |
| Client.SendCountsFirstIdTwice | PGE/Network/PgeGsnClient.cpp:183-191 | as written, two messages with different ids both count under the first id and the second id's counter stays put |
| Server.NewServerImpl | PGE/Network/PgeServer.cpp:262-267 | construction adds the application kind to the allow-list and nothing else |
| Server.Update | PGE/Network/PgeServer.cpp:128-132 | a frame polls incoming messages first, then connection state changes |
| Server.Send | PGE/Network/PgeServer.cpp:164-174 | handle 0 injects into the server's own queue; any other handle is one transmission to that client |
| Server.SendToAllClientsExceptCall | PGE/Network/PgeServer.cpp:244-247 | the broadcast is forwarded with the same packet and exception |
| Server.SendToAll | PGE/Network/PgeServer.cpp:249-253 | exactly two calls: the packet injected into the server's own queue, then broadcast to every client except handle 0 |
| Server.CountToEach | PGE/PGESysNET.cpp:306-313 | sending to a strictly increasing handle list reaches each listed handle exactly once |
| Server.SendToAllReachesEachOnce | PGE/Network/PgeServer.cpp:249-253 | for any registry, including its entry for the server itself under handle 0, sendToAll delivers once to the server's own queue, once to every other registered handle and nowhere else |
| Server.SendToClientOnly | PGE/Network/PgeServer.cpp:170-173 | a packet for a client handle is never injected and reaches that client only |
| Server.BroadcastSkipsException | PGE/PGESysNET.cpp:306-313 | a broadcast never reaches the excepted client or the server itself |
| Registry.Lookup | PGE/PGESysNET.cpp:213-214 | a handle is found iff it is registered, and then with a registered nick |
| Registry.Assign | PGE/PGESysNET.cpp:609-616 | setting a client's nick creates or updates that one entry and leaves every other lookup as before |
| Registry.Erase | PGE/PGESysNET.cpp:376-411 | erasing a handle removes exactly its entry |
| Registry.EraseAssignNew | PGE/PGESysNET.cpp:376-616 | registering a new handle and then erasing it gives back the same registry |
| Registry.Recipients | PGE/PGESysNET.cpp:306-313 | the broadcast loop visits exactly the registered handles other than the exception, in increasing order |
| Registry.RecipientsExactlyOnce | PGE/PGESysNET.cpp:306-313 | each handle occurs in the broadcast list at most once |
| Registry.AssignFreshKeepsNicksUnique | PGE/PGESysNET.cpp:469-510 | registering under a nick nobody has keeps all nicks distinct |
| Registry.EraseKeepsNicksUnique | PGE/PGESysNET.cpp:376-411 | erasing never makes two nicks equal |
| SysNet.FirstFreshDraw | PGE/PGESysNET.cpp:469-482 | the nick loop stops at the first draw whose nick no client has, after draws that were all taken |
| SysNet.SendToEach | PGE/PGESysNET.cpp:306-313 | one send per listed handle, in order |
| SysNet.OnServerStatusChanged | PGE/PGESysNET.cpp:350-516 | closing states close the connection and erase the client only if it was Connected; a refused accept or poll-group assignment closes it with nothing registered or queued; success registers a fresh nick, queues one notice for self and broadcasts it to every client including the newcomer; other states do nothing |
| SysNet.StatusChangeKeepsNicksUnique | PGE/PGESysNET.cpp:350-516 | no callback ever gives two clients the same nick |
| SysNet.ConnectThenDropRestoresRegistry | PGE/PGESysNET.cpp:376-516 | a client that connects and then drops leaves the registry as it was, with its notice still queued |
| SysNet.ReceiveVerdict | PGE/PGESysNET.cpp:189-211 | a receive passes the checks iff exactly one non-null message came back |
| SysNet.ServerPoll | PGE/PGESysNET.cpp:184-231 | the server always reports false and leaves the packet alone; a message is discarded iff its sender is registered and refused iff not |
| SysNet.ClientPoll | PGE/PGESysNET.cpp:232-277 | without a connection nothing is read; a single received message is copied over the start of the packet and reported (an oversized one truncated to the packet), anything else leaves the packet unchanged |
| SysNet.ServerPollFollowsRegistry | PGE/PGESysNET.cpp:184-231 | after a client is accepted its messages are discarded unread; after it drops they are refused as from an unknown sender |
| SysNet.ServerPollMatchesClient | PGE/PGESysNET.cpp:184-277 | server and client agree on every failed receive; a message the client would deliver is one the server discards or refuses |
| SysNet.OnClientStatusChanged | PGE/PGESysNET.cpp:543-574 | closing states invalidate the connection and close it; others change nothing |
| SysNet.NoDeliveryAfterClose | PGE/PGESysNET.cpp:234-237 | after the client side sees its connection close, polling reads nothing |
| GLSnippets.ErrorText | PGE/PRRE/source/PRREGLsnippets.cpp:45-58 | total: "Unknown Error" exactly for unknown codes, "No Error" exactly for GL_NO_ERROR |
| GLSnippets.ErrorTextDistinguishes | PGE/PRRE/source/PRREGLsnippets.cpp:45-58 | distinct known error codes have distinct texts |
| GLSnippets.IsGLErrorPresent | PGE/PRRE/source/PRREGLsnippets.cpp:68-72 | true iff an error was pending; the fetched code is saved and removed from the pending ones |
| GLSnippets.LastSavedGLError | PGE/PRRE/source/PRREGLsnippets.cpp:81-84 | returns the saved code |
| GLSnippets.PresentThenSaved | PGE/PRRE/source/PRREGLsnippets.cpp:68-84 | after the check, the saved error is the one fetched, and it is not GL_NO_ERROR iff the check said true |
| GLSnippets.ClearGLError | PGE/PRRE/source/PRREGLsnippets.cpp:91-95 | drains every pending error and leaves the saved one alone |
| GLSnippets.SizeofIndexType | PGE/PRRE/source/PRREGLsnippets.cpp:103-111 | 1 exactly for unsigned byte, 2 exactly for unsigned short, 4 for anything else |
| GLSnippets.GetVertexIndex | PGE/PRRE/source/PRREGLsnippets.cpp:121-129 | an element read is within the range of its index type |
| GLSnippets.SetVertexIndex | PGE/PRRE/source/PRREGLsnippets.cpp:138-162 | refused with the array untouched iff the value does not fit the element type; otherwise the element reads back as the value and bytes of other elements are unchanged |
| GLSnippets.SetVertexIndexKeepsOthers | PGE/PRRE/source/PRREGLsnippets.cpp:121-162 | setting one element leaves every other element's value as read before |
| GLSnippets.BlendFromGL | PGE/PRRE/source/PRREGLsnippets.cpp:231-248 | every result has an OpenGL counterpart; unknown enumerants become ZERO |
| GLSnippets.GLFromBlend | PGE/PRRE/source/PRREGLsnippets.cpp:257-274 | every result is a known OpenGL blend enumerant; factors without a counterpart become GL_ZERO |
| GLSnippets.BlendRoundTrip | PGE/PRRE/source/PRREGLsnippets.cpp:231-274 | renderer factor → OpenGL → renderer factor is the identity exactly on the factors with a counterpart |
| GLSnippets.GLBlendRoundTrip | PGE/PRRE/source/PRREGLsnippets.cpp:231-274 | OpenGL → renderer factor → OpenGL is the identity exactly on the eleven listed enumerants |
| Containers.Without | PGE/PURE/source/Object3D/PureObject3D.cpp:114-130 | erasing an object removes every occurrence and keeps every other element |
| Containers.EraseEvery | PGE/PURE/source/Object3D/PureObject3D.cpp:114-130 | the find-erase-repeat loop ends with the object erased everywhere in the list, others kept in order |
| Containers.Place | PGE/PURE/source/Object3D/PureObject3D.cpp:525-597 | the object is in the target list, in none of the evicted ones, other lists untouched, other objects' entries unchanged, and no duplicates introduced |
| Containers.PlaceSlots | PGE/PURE/source/Object3D/PureObject3D.cpp:525-597 | after placing, the object's lists are its old ones minus the evicted plus the target |
| Containers.EraseEverywhere | PGE/PURE/source/Object3D/PureObject3D.cpp:78-137 | the object is in no list afterwards and no other object's entries change |
| PureObject.NewObject | PGE/PURE/source/Object3D/PureObject3D.cpp:871-911 | defaults: visible, lit, z-writing, z-testing; not double-sided, wireframed, sticked, occluder or occluded; scaling 1 and rotation order YXZ; no query |
| PureObject.SetLit | PGE/PURE/source/Object3D/PureObject3D.cpp:328-338 | sets the flag on level-1 objects only, nothing else changes |
| PureObject.SetDoubleSided | PGE/PURE/source/Object3D/PureObject3D.cpp:346-356 | sets the flag on level-1 objects only, nothing else changes |
| PureObject.SetWireframedCulled | PGE/PURE/source/Object3D/PureObject3D.cpp:390-400 | sets the flag on level-1 objects only, nothing else changes |
| PureObject.SetTestingAgainstZBuffer | PGE/PURE/source/Object3D/PureObject3D.cpp:434-444 | sets the flag on level-1 objects only, nothing else changes |
| PureObject.SetRotationOrder | PGE/PURE/source/Object3D/PureObject3D.cpp:310-320 | sets the order on level-1 objects only, nothing else changes |
| PureObject.SetScaling | PGE/PURE/source/Object3D/PureObject3D.cpp:205-220 | sets the scaling on level-1 objects only, nothing else changes |
| PureObject.Scale | PGE/PURE/source/Object3D/PureObject3D.cpp:239-254 | multiplies the scaling component-wise on level-1 objects only |
| PureObject.ScaleTwice | PGE/PURE/source/Object3D/PureObject3D.cpp:239-254 | scaling twice equals scaling once by the product |
| PureObject.ScaleNewObject | PGE/PURE/source/Object3D/PureObject3D.cpp:239-254 | a new level-1 object scaled by v has scaling v |
| PureObject.ForceFinishOcclusionTest | PGE/PURE/source/Object3D/PureObject3D.cpp:715-748 | the internal routine: a running query of a level-1 object is finished with the GPU's answer as the occluded state; otherwise nothing changes |
| PureObject.ForceFinishAndReset | PGE/PURE/source/Object3D/PureObject3D.cpp:2483-2487 | the public ForceFinishOcclusionTest: the internal finish, then the object is not occluded, whatever the GPU said and whatever its level or query state |
| PureObject.ForceFinishAndResetThenFinish | PGE/PURE/source/Object3D/PureObject3D.cpp:2483-2487 | after the public forced finish, the next finish in either mode reports the object as not occluded |
| PureObject.SetOccluder | PGE/PURE/source/Object3D/PureObject3D.cpp:488-599 | refused with no change on level-2 objects, without a manager, or, turning on, when hidden, sticked, not z-writing, wireframed or blended; otherwise the object is filed once in the list chosen by role, blending and stickiness, erased from that branch's other lists, and no other object moves |
| PureObject.SetOccluderOff | PGE/PURE/source/Object3D/PureObject3D.cpp:488-599 | turning the role off on a managed level-1 object leaves it in exactly its occludee list |
| PureObject.OffSlots | PGE/PURE/source/Object3D/PureObject3D.cpp:525-597 | SetOccluder(false) leaves a managed level-1 object in exactly its occludee list |
| PureObject.SetRenderingAllowed | PGE/PURE/source/Object3D/PureObject3D.cpp:268-290 | the visibility is set; hiding an occluder drops the role; showing changes no list |
| PureObject.SetWireframed | PGE/PURE/source/Object3D/PureObject3D.cpp:364-382 | level-1 only; turning wireframe on drops the occluder role |
| PureObject.SetAffectingZBuffer | PGE/PURE/source/Object3D/PureObject3D.cpp:408-426 | level-1 only; turning depth writes off drops the occluder role |
| PureObject.SetStickedToScreen | PGE/PURE/source/Object3D/PureObject3D.cpp:452-480 | level-1 only; the object becomes an occludee filed by its new stickiness, double-sided, unlit and not depth-tested |
| PureObject.Destroy | PGE/PURE/source/Object3D/PureObject3D.cpp:78-137 | the destructor leaves the object in none of the five lists and no other object's entries change |
| PureObject.SetOcclusionTested | PGE/PURE/source/Object3D/PureObject3D.cpp:613-707 | no effect without query support; turning on fails without a manager, is ignored on level-2 objects and otherwise takes the generated query name; turning off drops the query and the occluded state |
| PureObject.QueryStart | PGE/PURE/source/Object3D/PureObject3D.cpp:1314-1370 | no query or one already running: nothing; an async start is deferred while the frame counter is below its limit; a start marks the query running with no waited frames and reports the box's vertices |
| PureObject.AsyncStartWithinLimit | PGE/PURE/source/Object3D/PureObject3D.cpp:1330-1369 | an idle, visible, tested object's async query starts once the remaining deferrals are used up |
| PureObject.NewObjectStartsAtOnce | PGE/PURE/source/Object3D/PureObject3D.cpp:871-911 | a new object given a query starts it on its first frame, even in async mode |
| PureObject.QueryFinish | PGE/PURE/source/Object3D/PureObject3D.cpp:1386-1488 | no query: draw; never started: last result in async, draw in sync; async pending: exactly one more waited frame and nothing else changed, reporting draw or the last result by the pending-render hint; an available result ends the query and becomes the occluded state, and in async mode resets the waited count after folding it into the min/max |
| PureObject.SyncStartThenFinish | PGE/PURE/source/Object3D/PureObject3D.cpp:1314-1488 | a sync start followed by a finish reports the GPU's answer and leaves no query running |
| PureObject.ForceFinishThenFinish | PGE/PURE/source/Object3D/PureObject3D.cpp:715-748 | after a forced finish, the next async finish reports the forced result |
| PureObject.UntestedIsDrawn | PGE/PURE/source/Object3D/PureObject3D.cpp:613-707 | an object no longer tested is never reported occluded and sends no bounding box |
| PureObject.NewObjectConsistent | PGE/PURE/source/Object3D/PureObject3D.cpp:871-911 | a new, unlisted object satisfies the membership invariant |
| PureObject.SetOccluderConsistent | PGE/PURE/source/Object3D/PureObject3D.cpp:488-599 | SetOccluder preserves the invariant: at most one list, at most once, occluder iff in the occluder list, occluders visible, solid, depth-writing and not sticked |
| PureObject.SetOccluderOffConsistent | PGE/PURE/source/Object3D/PureObject3D.cpp:488-599 | turning the role off preserves the invariant |
| PureObject.SetRenderingAllowedConsistent | PGE/PURE/source/Object3D/PureObject3D.cpp:268-290 | showing or hiding preserves the invariant |
| PureObject.SetWireframedConsistent | PGE/PURE/source/Object3D/PureObject3D.cpp:364-382 | the wireframe setter preserves the invariant |
| PureObject.SetAffectingZBufferConsistent | PGE/PURE/source/Object3D/PureObject3D.cpp:408-426 | the depth-write setter preserves the invariant |
| PureObject.SetStickedToScreenConsistent | PGE/PURE/source/Object3D/PureObject3D.cpp:452-480 | the stickiness setter preserves the invariant |
| Renderer.Initialize | PGE/PRRE/source/Render/PRRERendererHWfixedPipe.cpp:140-268 | an initialised renderer answers 1 unchanged; otherwise one or two set-up rounds (two only when multisampling is asked for and advanced formats exist), 0 iff every round succeeds iff initialised, stencil normalised to 0 or 8 |
| Renderer.InitializeTwice | PGE/PRRE/source/Render/PRRERendererHWfixedPipe.cpp:140-268 | after a successful initialisation a second call answers 1 and the renderer stays initialised with the same stencil and hints |
| Renderer.PickCount | PGE/PRRE/source/Render/PRRERendererHWfixedPipe.cpp:845-873 | with unique ids, a sweep lists an entry once if it qualifies and never otherwise |
| Renderer.LegacySweep | PGE/PRRE/source/Render/PRRERendererHWfixedPipe.cpp:853-870 | one sweep draws the visible, non-sticked objects of one blending, in manager order |
| Renderer.Draw3DLegacy | PGE/PRRE/source/Render/PRRERendererHWfixedPipe.cpp:845-873 | the legacy pass is the non-blended sweep followed by the blended sweep |
| Renderer.LegacyDrawsEachOnce | PGE/PRRE/source/Render/PRRERendererHWfixedPipe.cpp:845-873 | each visible, non-sticked object is drawn exactly once; others never |
| Renderer.LegacyOpaqueFirst | PGE/PRRE/source/Render/PRRERendererHWfixedPipe.cpp:845-873 | every non-blended object is drawn before every blended one |
| Renderer.Draw2D | PGE/PRRE/source/Render/PRRERendererHWfixedPipe.cpp:1083-1107 | the 2D pass draws the visible sticked objects in manager order |
| Renderer.Draw2DEachOnce | PGE/PRRE/source/Render/PRRERendererHWfixedPipe.cpp:1083-1107 | each visible sticked object is drawn exactly once; others never |
| Renderer.OrderedPass | PGE/PRRE/source/Render/PRRERendererHWfixedPipe.cpp:882-907 | occluders, then opaque occludees, then blended occludees, each in list order |
| Renderer.OrderedPassDrawsEachOnce | PGE/PRRE/source/Render/PRRERendererHWfixedPipe.cpp:882-907 | under the membership invariant, the distance-ordered pass draws an occluder or 3D occludee exactly once and any other object never |
| Renderer.OrderedPassCount | PGE/PRRE/source/Render/PRRERendererHWfixedPipe.cpp:882-907 | an id filed once in at most one list is drawn once by the ordered pass iff that list is a 3D one |
| Renderer.OcclusionPass | PGE/PRRE/source/Render/PRRERendererHWfixedPipe.cpp:930-985 | occluders drawn, then every occludee's query started, then every occludee drawn, then optionally the boxes |
| Renderer.QueryStartedBeforeDrawn | PGE/PRRE/source/Render/PRRERendererHWfixedPipe.cpp:966-985 | every occludee's query start comes before its normal draw |
| Renderer.OrderedFrame | PGE/PRRE/source/Render/PRRERendererHWfixedPipe.cpp:909-917 | the counter wraps at 2^32 and occluders are updated exactly when it hits a multiple of 100 |
| Renderer.OQFrame | PGE/PRRE/source/Render/PRRERendererHWfixedPipe.cpp:982-995 | the counter stays below 1000; occluders update on multiples of 100; statistics recount exactly when it reaches 1000 |
| Renderer.OQFramesBounded | PGE/PRRE/source/Render/PRRERendererHWfixedPipe.cpp:982-995 | over any number of frames the counter stays below 1000 |
| Renderer.OQFramesUpdates | PGE/PRRE/source/Render/PRRERendererHWfixedPipe.cpp:982-995 | k frames update occluders once per multiple of 100 passed, however often the counter restarts |
| Renderer.OQUpdatesFromZero | PGE/PRRE/source/Render/PRRERendererHWfixedPipe.cpp:982-995 | from a fresh counter, k frames give exactly k / 100 updates |
| Renderer.OrderedFramesUpdates | PGE/PRRE/source/Render/PRRERendererHWfixedPipe.cpp:909-917 | without wrap, k distance-ordered frames update occluders once per multiple of 100 passed |
| Renderer.CountStats | PGE/PRRE/source/Render/PRRERendererHWfixedPipe.cpp:992-1032 | each counter counts its category; occluded + not occluded = tested ≤ visible ≤ total, and occluders ≤ visible |
| Renderer.RenderScene | PGE/PRRE/source/Render/PRRERendererHWfixedPipe.cpp:319-371 | nothing before initialisation; otherwise the selected path's 3D pass followed by the 2D pass; on the occlusion path's 1000th frame the stats are recounted to the CountIf totals; unknown path or query method codes draw only the 2D pass and change nothing |
| Renderer.LegacyFrame | PGE/PRRE/source/Render/PRRERendererHWfixedPipe.cpp:319-371 | a frame on the legacy path draws each visible object exactly once, across the 3D and 2D passes, and no hidden object |
| Renderer.SetRenderHints | PGE/PRRE/source/Render/PRRERendererHWfixedPipe.cpp:379-486 | iff the change leaves the occlusion-culled path or async queries, every object gets the public forced finish: no level-1 query left running and no object occluded; then the hints are stored |
| Renderer.SetRenderHintsTwice | PGE/PRRE/source/Render/PRRERendererHWfixedPipe.cpp:379-486 | applying the same hints a second time finishes no further query: the objects are as the first application left them |
| SysCfg.NewCfg | PGE/PGESysCFG.cpp:22-76 | no active profile and no variables after construction |
| SysCfg.LoadProfiles | PGE/PGESysCFG.cpp:666-792 | the list becomes the scan and the active profile follows its user to its new index |
| SysCfg.SetProfile | PGE/PGESysCFG.cpp:397-432 | past the list, the current index or below -1: no change; -1 deselects and clears the variables; a valid new index becomes active, or -1 when reading its file fails |
| SysCfg.SetProfileSettles | PGE/PGESysCFG.cpp:405-409 | once a profile is selected, selecting it again changes nothing |
| SysCfg.DeselectHidesVars | PGE/PGESysCFG.cpp:419-425 | after deselecting, every variable reads as the fallback |
| SysCfg.GetVar | PGE/PGESysCFG.cpp:443-453 | no active profile: the shared fallback and nothing changes; otherwise the named entry, created empty if missing, with every other entry kept |
| SysCfg.GetVarConst | PGE/PGESysCFG.cpp:460-468 | never creates; with a profile active an existing entry is returned, and a non-default result is always the stored entry |
| SysCfg.GettersAgree | PGE/PGESysCFG.cpp:443-468 | after the mutable getter, the const getter sees the very variable it returned and every other name as before |
| SysCfg.DeleteVar | PGE/PGESysCFG.cpp:476-485 | no-op for a null name, without an active profile, or for the player-name variable; otherwise exactly that name is erased |
| SysCfg.DeleteVarEffect | PGE/PGESysCFG.cpp:476-485 | a deleted name reads as the fallback, other names as before, and the player-name variable survives |
| SysCfg.DeleteThenGetIsEmpty | PGE/PGESysCFG.cpp:443-485 | asking the mutable getter for a deleted name brings it back empty |
| SysCfg.AddProfile | PGE/PGESysCFG.cpp:268-329 | -2 for null arguments and -1 for an existing user, both without change; -2 if the directory or file cannot be made; otherwise the new user's first index in the rescan; active profile and variables kept |
| SysCfg.AddTwiceRejected | PGE/PGESysCFG.cpp:279-291 | a user added once is refused the second time |
| SysCfg.DeleteProfile | PGE/PGESysCFG.cpp:341-384 | -1 with no change out of range; the active profile is deselected first; -2 when the file cannot be removed; otherwise rescanned, 0 or -3 when the directory stays |
| SysCfg.DeleteProfileVisibility | PGE/PGESysCFG.cpp:341-384 | deleting the active profile leaves no variable visible; deleting another keeps every variable readable |

## Left out

- GameNetworkingSockets itself is not modelled: address parsing, accept, poll groups, connection names, send/receive, callbacks and real-time status. Its answers are parameters and its requests are returned lists.
- Admission filtering, the pending queue, `popFrontPacket`, `inject` and the rx/inject counters are not modelled. Their bodies are not part of this model; routing only records an injection.
- `PollIncomingMessages` server branch: the message body is never parsed, since the code releases it unread.
- OpenGL state, projection set-up, the ZPASS-for-occluders pass (a constant switched off in the source), feedback buffers and the UI manager render are not modelled. Hardware capability queries are also out.
- Timing, console logging and the global occlusion statistics printout are not modelled.
- `OrderObjectContainersByZdistance` (floating-point distance sort): the ordered and occlusion passes draw lists in whatever order they hold.
- Renderer.RenderScene: for unknown render-path or query-method codes the source hits `assert(false)` in a debug build. The model draws no 3D objects there.
- Render-hint bit layout (`PRRE_RH_*`): hints are taken already split into fields, because the bit constants are not part of this model. No header in the model defines the code values either: render path 0 legacy, 1 distance-ordered and 2 occlusion-culled, and query method 0 sync and 1 async, are inferred from the logging switch in `SetRenderHints`.
- PureObject.Scale: `Vec3` uses exact real arithmetic, not single-precision floats.
- Bounding-box objects, referrers/referred objects, vertex transfer modes and memory accounting are not modelled.
- SysNet.ClientPoll: a received message longer than the packet is truncated to the packet's size. The source only debug-asserts that the sizes match and then copies the message's full size, which overruns the packet in a release build.
- Server.SendToAllReachesEachOnce: the transport server's `sendToAllClientsExcept`, which `PgeServerImpl` forwards to, is not part of this model. Who receives a broadcast is stated by assuming it walks the client map the way `PGESysNET::SendPacketToAllClients` does (`PGESysNET.cpp:306-313`), skipping the exception.
- Client.TxSize: `sendToServer` compares the packet kind with `PgePktId::APP`, which the packet header does not declare (it declares `Application`). The model reads `APP` as `Application`.
- Client.SendToServer: requires the stored message sizes to keep every size byte the walk reads inside the area; beyond it the source reads memory the packet does not own. The walk's end is not bounded, so the size sent can still exceed the packet (Client.TxSizeCanExceedPacket), and the model then sends that size.
- Client.SendToServer: the byte counter and the per-id message counters are unbounded naturals. Only the packet counter is given the source's 32-bit wrap-around, because only its width is fixed by the fields the model sees.
- Renderer.OcclusionPass: the occludee loop over render passes, from `PRRE_RPASS_START_OCCLUSION_QUERY` to `PRRE_RPASS_NORMAL`, is taken to be exactly those two passes in that order. The enumeration that defines the range is not part of this model.
- PureObject.QueryFinish: the debug `assert(false)` for an occludee whose async query should already have started is not modelled; the model returns the last result there, as a release build does.
- PureObject.SetOccluder: the source's comment says turning the role on also resets the occluded state, but the internal `ForceFinishOcclusionTest` it calls does not. The model follows the code and keeps the query's answer as the occluded state.
- SysNet.OnServerStatusChanged: the endless rand() loop becomes a finite list of draws. A connection that is accepted requires one of them to give a free nick. `RAND_MAX` is not modelled.
- SysNet: `PGESysNET.cpp` uses packet members its headers do not declare (`sUserName`, `queuePackets`, `m_sNick`), so the user-connected notice is modelled abstractly.
- SysCfg.LoadProfiles: the Win32 directory scan is a parameter, including its early-return failure path and its fixed-size copy of file names. When the active user is missing from a rescan the index is left as it was, and `Valid` is not promised then.
- SysCfg.DeleteProfile: when file removal fails after the active profile was deselected, the -2 answer keeps the deselection. The rescan is promised to keep `Valid` only when the active user survives it.
- SysCfg.GetVar: the shared fallback variable is returned by reference in the source and can be written through. The model keeps it as the constant empty variable.
- `PGEcfgFile::load` and `readConfiguration`'s parsing are not modelled. Loading is a parameter saying whether it succeeded and which variables it left.
- `PGE_SYS_CFG_PLAYER_NAME_CVAR`'s value is not part of this model, so it is a parameter of `DeleteVar`.
- A null `varName` passed to `getVar` is undefined behaviour in the source and is not modelled.
- GLSnippets: the renderer's constant-colour and constant-alpha blend factors are taken from its enumeration header, which is not part of this model. They map to `GL_ZERO` through the default branch.

## Findings

| source | as written | input that shows it | evidently intended | confidence | as-written member | corrected member |
|---|---|---|---|---|---|---|
| PGE/Network/PgePacket.cpp:190 | `addPktMsgApp` copies every message to offset 0 of the area | two one-byte messages added to an empty application packet: count 2, length 12, only the second message readable | the message is copied to offset `m_nActualMessagesAreaLength` | high (not executed) | Packing.AddTwiceLosesFirstMessage | Packing.AppendTwiceKeepsBoth |
| PGE/Network/PgePacket.cpp:236 | `preparePktMsgAppFill` sets the count to 1 | two reservations on an empty packet: count 1, length of two messages | the count is incremented and the slot follows the used bytes | high (not executed) | Packing.PrepareTwiceCountsOne | Packing.PrepareAppendTwiceCountsTwo |
| PGE/Network/PgeGsnClient.cpp:122 | `memset(m_szAddr, sizeof(m_szAddr), 0)` fills zero bytes | connect to any address, then disconnect: the old address text is still reported | `memset(m_szAddr, 0, sizeof(m_szAddr))` empties the buffer | high (not executed) | Client.DisconnectKeepsAddressText | Client.ConnectDisconnectRestores |
| PGE/Network/PgeGsnClient.cpp:183-191 | the per-id tx loop never advances past the first message | a packet holding messages with ids a ≠ b: a's counter grows by 2, b's by 0 | each message counted under its own id | high (not executed) | Client.SendCountsFirstIdTwice | Client.SendToServerTallied |

=== FILE: bytes.dfy ===
/**
 * Fixed-width integers, the byte-level little-endian codec shared by the
 * packet layout and the index-buffer helpers, and the Option wrapper.
 *
 * The engine stores multi-byte integers in native byte order; the target
 * platform is x86, so native order is modelled as little-endian.
 */
module Bytes {

  type u8 = x: int | 0 <= x < 0x100
  type u16 = x: int | 0 <= x < 0x1_0000
  type u32 = x: int | 0 <= x < 0x1_0000_0000

  const U32Modulus: nat := 0x1_0000_0000

  datatype Option<+T> = None | Some(value: T)

  /** 256 to the power `n`: one past the largest value `n` bytes can hold. */
  function Pow256(n: nat): (r: nat)
    ensures r >= 1
    ensures n >= 1 ==> r >= 256
  {
    if n == 0 then 1 else 256 * Pow256(n - 1)
  }

  /** Little-endian encoding of `x` into exactly `width` bytes. */
  function EncodeLE(x: nat, width: nat): (r: seq<u8>)
    requires x < Pow256(width)
    ensures |r| == width
    ensures width > 0 ==> r[0] == x % 256
    decreases width
  {
    if width == 0 then []
    else
      assert x / 256 < Pow256(width - 1);
      [x % 256] + EncodeLE(x / 256, width - 1)
  }

  /** Little-endian decoding of a byte string of any length. */
  function DecodeLE(s: seq<u8>): (r: nat)
    ensures r < Pow256(|s|)
    decreases |s|
  {
    if |s| == 0 then 0
    else
      var rest := DecodeLE(s[1..]);
      assert rest <= Pow256(|s| - 1) - 1;
      assert 256 * rest <= 256 * Pow256(|s| - 1) - 256;
      s[0] + 256 * rest
  }

  /** Decoding an encoding gives the number back. */
  lemma {:induction false} DecodeEncode(x: nat, width: nat)
    requires x < Pow256(width)
    ensures DecodeLE(EncodeLE(x, width)) == x
    decreases width
  {
    if width > 0 {
      var e := EncodeLE(x, width);
      assert e[1..] == EncodeLE(x / 256, width - 1);
      DecodeEncode(x / 256, width - 1);
    }
  }

  /** Encoding a decoded byte string gives the same bytes back. */
  lemma {:induction false} EncodeDecode(s: seq<u8>)
    ensures EncodeLE(DecodeLE(s), |s|) == s
    decreases |s|
  {
    if |s| > 0 {
      var rest := DecodeLE(s[1..]);
      var x := s[0] + 256 * rest;
      assert x % 256 == s[0];
      assert x / 256 == rest;
      EncodeDecode(s[1..]);
    }
  }

  /** Two byte strings of one width encode the same number only if equal. */
  lemma EncodeInjective(x: nat, y: nat, width: nat)
    requires x < Pow256(width) && y < Pow256(width)
    requires EncodeLE(x, width) == EncodeLE(y, width)
    ensures x == y
  {
    DecodeEncode(x, width);
    DecodeEncode(y, width);
  }

  /** The four native bytes of a 32-bit value, least significant first. */
  function U32Bytes(x: u32): (r: seq<u8>)
    ensures |r| == 4
  {
    var v: int := x;
    [v % 0x100, (v / 0x100) % 0x100, (v / 0x1_0000) % 0x100, v / 0x100_0000]
  }

  /** Reads a 32-bit value from its four native bytes. */
  function U32Of(s: seq<u8>): (r: u32)
    requires |s| == 4
  {
    var b0: int, b1: int, b2: int, b3: int := s[0], s[1], s[2], s[3];
    b0 + 0x100 * b1 + 0x1_0000 * b2 + 0x100_0000 * b3
  }

  /** Reading four bytes and writing the value back gives the same bytes, and the other way round. */
  lemma U32RoundTrip(s: seq<u8>, x: u32)
    requires |s| == 4
    ensures U32Bytes(U32Of(s)) == s
    ensures U32Of(U32Bytes(x)) == x
  {
    var v: int := U32Of(s);
    var b0: int, b1: int, b2: int, b3: int := s[0], s[1], s[2], s[3];
    assert v / 0x100 == b1 + 0x100 * b2 + 0x1_0000 * b3;
    assert v / 0x1_0000 == b2 + 0x100 * b3;
    assert v / 0x100_0000 == b3;
    var y: int := x;
    assert y == y % 0x100 + 0x100 * (y / 0x100);
    assert y / 0x100 == (y / 0x100) % 0x100 + 0x100 * (y / 0x1_0000);
    assert y / 0x1_0000 == (y / 0x1_0000) % 0x100 + 0x100 * (y / 0x100_0000);
  }

  /** The four native bytes are the four-byte little-endian encoding. */
  lemma U32BytesIsLE(x: u32)
    ensures U32Bytes(x) == EncodeLE(x, 4)
  {
    assert Pow256(4) == U32Modulus;
    var e := EncodeLE(x, 4);
    assert e == [x % 256] + EncodeLE(x / 256, 3);
    assert EncodeLE(x / 256, 3) == [(x / 256) % 256] + EncodeLE(x / 256 / 256, 2);
    assert EncodeLE(x / 256 / 256, 2) == [(x / 256 / 256) % 256] + EncodeLE(x / 256 / 256 / 256, 1);
    var y: int := x;
    assert y / 256 / 256 == y / 0x1_0000;
    assert y / 0x1_0000 / 256 == y / 0x100_0000;
  }

  /** Replaces `|bytes|` bytes of `s` starting at `off`, keeping the length. */
  function Overwrite(s: seq<u8>, off: nat, bytes: seq<u8>): (r: seq<u8>)
    requires off + |bytes| <= |s|
    ensures |r| == |s|
    ensures r[off..off + |bytes|] == bytes
    ensures r[..off] == s[..off]
    ensures r[off + |bytes|..] == s[off + |bytes|..]
    ensures forall i :: 0 <= i < |s| && !(off <= i < off + |bytes|) ==> r[i] == s[i]
  {
    s[..off] + bytes + s[off + |bytes|..]
  }

  /** Unsigned 32-bit increment with wrap-around, as `uint32_t` does. */
  function IncU32(x: u32): (r: u32)
    ensures x < U32Modulus - 1 ==> r == x + 1
    ensures x == U32Modulus - 1 ==> r == 0
  {
    (x + 1) % U32Modulus
  }

  /** Unsigned 8-bit addition with wrap-around, as `uint8_t` does. */
  function AddU8(x: u8, y: nat): (r: u8)
    ensures x + y < 0x100 ==> r == x + y
    ensures (r - (x + y)) % 0x100 == 0
  {
    (x + y) % 0x100
  }
}

=== FILE: client.dfy ===
/**
 * The client end of a connection (PgeGsnClient): connecting to a server,
 * disconnecting, reacting to connection-state callbacks, and sending a
 * packet trimmed to the bytes its messages actually use.
 *
 * Transport calls are returned as a list of requests; the handle the
 * library hands back for a new connection is a parameter.
 */
module Client {
  import opened Bytes
  import opened Transport
  import Packet
  import Packing

  datatype Request =
    | ConnectByIPAddress(addr: IpAddr)
    | CloseConnection(conn: ConnHandle)
    | SendMessage(conn: ConnHandle, size: nat)

  datatype Client = Client(
    connection: ConnHandle,
    connectionServerSide: ConnHandle,
    serverAddr: IpAddr,
    /** The text buffer getServerAddress returns, as the address it renders (None: empty). */
    addrText: Option<IpAddr>,
    txPktCount: u32,
    txByteCount: nat,
    txMsgCount: map<u32, nat>)

  datatype Step = Step(ok: bool, client: Client, requests: seq<Request>)

  /** A freshly constructed client: both handles invalid, address cleared. */
  function NewClient(): (c: Client)
    ensures !IsInitialized(c)
  {
    Client(InvalidConnection, InvalidConnection, ClearedAddr, None, 0, 0, map[])
  }

  /** The client is initialised exactly while it holds a connection. */
  predicate IsInitialized(c: Client)
  {
    c.connection != InvalidConnection
  }

  /**
   * connectToServer. `parsed` is the library's parse of the address text
   * (None: unparsable) and `newConn` the handle it returns for the new
   * connection. Already connected: refused, nothing changes. Otherwise the
   * stored address is cleared first, so even a parse failure changes it.
   */
  function ConnectToServer(c: Client, parsed: Option<IpAddr>, newConn: ConnHandle): (r: Step)
    ensures r.ok <==> !IsInitialized(c) && parsed.Some? && newConn != InvalidConnection
    ensures IsInitialized(c) ==> r.client == c && r.requests == []
    ensures !IsInitialized(c) && parsed.None? ==> r.client == c.(serverAddr := ClearedAddr) && r.requests == []
    ensures r.ok ==> IsInitialized(r.client) && r.client.connection == newConn
    ensures r.ok ==> r.client.serverAddr.host == parsed.value.host
    ensures r.ok ==> r.client.serverAddr.port != 0
    ensures r.ok && parsed.value.port != 0 ==> r.client.serverAddr == parsed.value
    ensures r.ok && parsed.value.port == 0 ==> r.client.serverAddr.port == DefaultServerPort
    ensures r.ok ==> r.client.addrText == Some(r.client.serverAddr)
    ensures r.ok ==> r.requests == [ConnectByIPAddress(r.client.serverAddr)]
    ensures !IsInitialized(c) && parsed.Some? && newConn == InvalidConnection ==>
              !IsInitialized(r.client) && r.client.addrText == Some(r.client.serverAddr)
              && r.requests == [ConnectByIPAddress(r.client.serverAddr)]
  {
    if IsInitialized(c) then Step(false, c, [])
    else
      var cleared := c.(serverAddr := ClearedAddr);
      if parsed.None? then Step(false, cleared, [])
      else
        var addr := if parsed.value.port == 0 then parsed.value.(port := DefaultServerPort) else parsed.value;
        var next := cleared.(serverAddr := addr, addrText := Some(addr), connection := newConn);
        Step(newConn != InvalidConnection, next, [ConnectByIPAddress(addr)])
  }

  /**
   * disconnectClient, as written: closes the connection and invalidates
   * both handles and the address, but the text buffer is cleared with the
   * size and fill arguments swapped, a zero-byte fill, so the old address
   * text survives. Not connected: nothing to do. Always succeeds.
   */
  function DisconnectClient(c: Client): (r: Step)
    ensures r.ok
    ensures !IsInitialized(r.client)
    ensures !IsInitialized(c) ==> r.client == c && r.requests == []
    ensures IsInitialized(c) ==> r.requests == [CloseConnection(c.connection)]
    ensures IsInitialized(c) ==> r.client.connectionServerSide == InvalidConnection
    ensures IsInitialized(c) ==> r.client.serverAddr == ClearedAddr
    ensures r.client.addrText == c.addrText
    ensures r.client.txPktCount == c.txPktCount && r.client.txByteCount == c.txByteCount
    ensures r.client.txMsgCount == c.txMsgCount
  {
    if !IsInitialized(c) then Step(true, c, [])
    else
      Step(true,
           c.(connection := InvalidConnection, connectionServerSide := InvalidConnection, serverAddr := ClearedAddr),
           [CloseConnection(c.connection)])
  }

  /** Corrected disconnectClient: the address text is emptied as well. */
  function DisconnectClientCleared(c: Client): (r: Step)
    ensures r.ok && !IsInitialized(r.client)
    ensures IsInitialized(c) ==> r.client.addrText.None?
    ensures IsInitialized(c) ==> r.client == DisconnectClient(c).client.(addrText := None)
    ensures !IsInitialized(c) ==> r == DisconnectClient(c)
  {
    if !IsInitialized(c) then Step(true, c, [])
    else
      var d := DisconnectClient(c);
      Step(true, d.client.(addrText := None), d.requests)
  }

  /** As written: after connect then disconnect, the old address is still reported. */
  lemma DisconnectKeepsAddressText(c: Client, parsed: IpAddr, newConn: ConnHandle)
    requires !IsInitialized(c) && newConn != InvalidConnection
    ensures var up := ConnectToServer(c, Some(parsed), newConn);
            var down := DisconnectClient(up.client);
            up.ok && !IsInitialized(down.client) && down.client.addrText == Some(up.client.serverAddr)
  {
  }

  /**
   * Corrected: connect then disconnect leaves the connection, handles and
   * both address fields as a never-connected client has them.
   */
  lemma ConnectDisconnectRestores(c: Client, parsed: IpAddr, newConn: ConnHandle)
    requires !IsInitialized(c) && newConn != InvalidConnection
    ensures var down := DisconnectClientCleared(ConnectToServer(c, Some(parsed), newConn).client).client;
            down.connection == NewClient().connection
            && down.connectionServerSide == NewClient().connectionServerSide
            && down.serverAddr == NewClient().serverAddr
            && down.addrText == NewClient().addrText
  {
  }

  /**
   * destroy: not connected is already done; otherwise disconnect and then
   * tear down the library wrapper, whose success is `wrapperOk`.
   */
  function Destroy(c: Client, wrapperOk: bool): (r: Step)
    ensures !IsInitialized(r.client)
    ensures !IsInitialized(c) ==> r.ok && r.client == c && r.requests == []
    ensures IsInitialized(c) ==> (r.ok <==> wrapperOk)
    ensures IsInitialized(c) ==> r.requests == [CloseConnection(c.connection)]
    ensures IsInitialized(c) ==> r.client == DisconnectClient(c).client
  {
    if !IsInitialized(c) then Step(true, c, [])
    else
      var d := DisconnectClient(c);
      Step(d.ok && wrapperOk, d.client, d.requests)
  }

  /**
   * After destroy the client can be used again: a second destroy is a
   * successful no-op, and a connect the library grants a handle for succeeds.
   */
  lemma DestroyThenReconnect(c: Client, wrapperOk: bool, wrapperOk2: bool, parsed: IpAddr, newConn: ConnHandle)
    requires newConn != InvalidConnection
    ensures var gone := Destroy(c, wrapperOk).client;
            Destroy(gone, wrapperOk2) == Step(true, gone, [])
            && ConnectToServer(gone, Some(parsed), newConn).ok
  {
  }

  /**
   * onSteamNetConnectionStatusChanged: a closed or failed connection is
   * closed on this end too and the client becomes uninitialised; every
   * other state only logs.
   */
  function OnStatusChanged(c: Client, conn: ConnHandle, state: ConnState): (r: Step)
    ensures IsClosing(state) ==> !IsInitialized(r.client) && r.requests == [CloseConnection(conn)]
    ensures IsClosing(state) ==> r.client == c.(connection := InvalidConnection)
    ensures !IsClosing(state) ==> r.client == c && r.requests == []
  {
    if IsClosing(state) then Step(true, c.(connection := InvalidConnection), [CloseConnection(conn)])
    else Step(true, c, [])
  }

  // ---------------------------------------------------------------------
  // Sending

  /**
   * What sendToServer may be given: a non-application packet, or one whose
   * stored message sizes keep every size byte the walk reads inside the
   * message area. The walk's end may still lie past the area, and then the
   * size sent exceeds the packet (see TxSizeCanExceedPacket).
   */
  predicate Sendable(p: Packet.PgePacket)
  {
    p.kind != Packet.PktIdCode(Packet.Application)
    || Packet.WalkSize(Packet.AppArea(p), 0, Packet.AppCount(p)).Some?
  }

  /**
   * The number of bytes sent: for an application packet, up to the end of
   * its last message; otherwise the whole packet.
   */
  function TxSize(p: Packet.PgePacket): (r: nat)
    requires Sendable(p)
    ensures p.kind != Packet.PktIdCode(Packet.Application) ==> r == Packet.PacketSize
  {
    if p.kind == Packet.PktIdCode(Packet.Application) then
      Packet.AppAreaOffset + Packet.WalkSize(Packet.AppArea(p), 0, Packet.AppCount(p)).value
    else Packet.PacketSize
  }

  /**
   * Sendable does not bound the size sent: one message whose size byte
   * reads 255 makes the walk end 260 bytes in, and 270 bytes would be sent
   * from a 268-byte packet.
   */
  lemma TxSizeCanExceedPacket()
    ensures var p: Packet.PgePacket :=
              Packet.RawPacket(Packet.PktIdCode(Packet.Application), 0,
                               seq(Packet.BodySize, i => if i == 0 then 1 else if i == 6 then 255 else 0));
            Sendable(p) && TxSize(p) == 270 > Packet.PacketSize
  {
    var p: Packet.PgePacket :=
      Packet.RawPacket(Packet.PktIdCode(Packet.Application), 0,
                       seq(Packet.BodySize, i => if i == 0 then 1 else if i == 6 then 255 else 0));
    assert Packet.AppArea(p)[4] == 255;
    assert Packet.WalkSize(Packet.AppArea(p), 0, 1) == Packet.WalkSize(Packet.AppArea(p), 260, 0);
  }

  /**
   * A packet holding a list of messages is sent trimmed: header, count and
   * length bytes, then exactly the bytes its messages occupy, never more
   * than the packet itself.
   */
  lemma TxSizeOfHeldMessages(p: Packet.PgePacket, ms: seq<Packet.AppMessage>)
    requires Packing.Holds(p, ms)
    ensures Sendable(p)
    ensures TxSize(p) == Packet.AppAreaOffset + Packet.TotalSize(ms)
    ensures TxSize(p) < Packet.PacketSize
  {
    Packing.HoldsDecodes(p, ms);
  }

  /** The id of the message at the start of the area. */
  function FirstMsgId(p: Packet.PgePacket): u32
  {
    U32Of(Packet.AppArea(p)[..4])
  }

  function Get(m: map<u32, nat>, k: u32): nat
  {
    if k in m then m[k] else 0
  }

  /**
   * sendToServer, as written. Not connected: nothing happens. Otherwise
   * the trimmed packet is sent, the packet and byte counters grow, and for
   * an application packet the counter of the FIRST message's id is bumped
   * once per message, since the loop never advances to the next message.
   */
  function SendToServer(c: Client, p: Packet.PgePacket): (r: Step)
    requires Sendable(p)
    ensures !IsInitialized(c) ==> r.client == c && r.requests == []
    ensures IsInitialized(c) ==> r.requests == [SendMessage(c.connection, TxSize(p))]
    ensures IsInitialized(c) ==> r.client.txPktCount == IncU32(c.txPktCount)
    ensures IsInitialized(c) ==> r.client.txByteCount == c.txByteCount + TxSize(p)
    ensures IsInitialized(c) ==> r.client.connection == c.connection
    ensures IsInitialized(c) && p.kind == Packet.PktIdCode(Packet.Application) && Packet.AppCount(p) > 0 ==>
              r.client.txMsgCount == c.txMsgCount[FirstMsgId(p) := Get(c.txMsgCount, FirstMsgId(p)) + Packet.AppCount(p)]
    ensures (p.kind != Packet.PktIdCode(Packet.Application) || Packet.AppCount(p) == 0) ==>
              r.client.txMsgCount == c.txMsgCount
  {
    if !IsInitialized(c) then Step(true, c, [])
    else
      var size := TxSize(p);
      var counts :=
        if p.kind == Packet.PktIdCode(Packet.Application) && Packet.AppCount(p) > 0
        then c.txMsgCount[FirstMsgId(p) := Get(c.txMsgCount, FirstMsgId(p)) + Packet.AppCount(p)]
        else c.txMsgCount;
      Step(true,
           c.(txPktCount := IncU32(c.txPktCount), txByteCount := c.txByteCount + size, txMsgCount := counts),
           [SendMessage(c.connection, size)])
  }

  /** After the connection is reported closed, sending does nothing. */
  lemma NoSendAfterClose(c: Client, conn: ConnHandle, state: ConnState, p: Packet.PgePacket)
    requires IsClosing(state) && Sendable(p)
    ensures SendToServer(OnStatusChanged(c, conn, state).client, p).requests == []
  {
  }

  // ---------------------------------------------------------------------
  // Per-message-id counting

  /** How many of `ms` carry `id`. */
  function Occurrences(ms: seq<Packet.AppMessage>, id: u32): nat
  {
    if |ms| == 0 then 0 else (if ms[0].id == id then 1 else 0) + Occurrences(ms[1..], id)
  }

  /** Corrected counting: each message's own id is bumped once. */
  function TallyIds(counts: map<u32, nat>, ms: seq<Packet.AppMessage>): (r: map<u32, nat>)
    ensures forall id :: Get(r, id) == Get(counts, id) + Occurrences(ms, id)
    decreases |ms|
  {
    if |ms| == 0 then counts
    else
      var first := ms[0].id;
      TallyIds(counts[first := Get(counts, first) + 1], ms[1..])
  }

  /**
   * Corrected sendToServer for a packet holding `ms`: identical except that
   * every message is counted under its own id.
   */
  function SendToServerTallied(c: Client, p: Packet.PgePacket, ms: seq<Packet.AppMessage>): (r: Step)
    requires Packing.Holds(p, ms)
    ensures !IsInitialized(c) ==> r.client == c && r.requests == []
    ensures IsInitialized(c) ==> forall id :: Get(r.client.txMsgCount, id) == Get(c.txMsgCount, id) + Occurrences(ms, id)
    ensures IsInitialized(c) ==> r.requests == [SendMessage(c.connection, Packet.AppAreaOffset + Packet.TotalSize(ms))]
  {
    TxSizeOfHeldMessages(p, ms);
    var sent := SendToServer(c, p);
    if !IsInitialized(c) then sent
    else Step(sent.ok, sent.client.(txMsgCount := TallyIds(c.txMsgCount, ms)), sent.requests)
  }

  /**
   * As written: two messages with different ids are both counted under the
   * first id, and the second id's counter does not move.
   */
  lemma SendCountsFirstIdTwice(c: Client, p: Packet.PgePacket, a: Packet.AppMessage, b: Packet.AppMessage)
    requires IsInitialized(c)
    requires Packing.Holds(p, [a, b]) && a.id != b.id
    ensures Sendable(p)
    ensures Get(SendToServer(c, p).client.txMsgCount, a.id) == Get(c.txMsgCount, a.id) + 2
    ensures Get(SendToServer(c, p).client.txMsgCount, b.id) == Get(c.txMsgCount, b.id)
    ensures Get(SendToServerTallied(c, p, [a, b]).client.txMsgCount, b.id) == Get(c.txMsgCount, b.id) + 1
  {
    TxSizeOfHeldMessages(p, [a, b]);
    var area := Packet.AppArea(p);
    var enc := Packet.EncodeAll([a, b]);
    assert enc == Packet.MessageBytes(a) + Packet.EncodeAll([a, b][1..]);
    assert enc[..4] == Packet.MessageBytes(a)[..4] == U32Bytes(a.id);
    assert area[..4] == enc[..4];
    U32RoundTrip(area[..4], a.id);
    assert FirstMsgId(p) == a.id;
    assert Occurrences([a, b], b.id) == 1 by {
      assert [a, b][1..] == [b];
      assert Occurrences([b], b.id) == 1 + Occurrences([b][1..], b.id);
      assert Occurrences([a, b], b.id) == 0 + Occurrences([b], b.id);
    }
  }
}

=== FILE: containers.dfy ===
/**
 * The five shared object lists the occlusion-culling renderer works from:
 * occluders, and occludees split by opaque/blended and 3D/screen-sticked.
 * Each is an ordered list of object identities (a deque of pointers in
 * the engine); only insertion at the back and erasure of an object are
 * ever done to them.
 */
module Containers {
  type ObjId = nat

  datatype Slot = Occluders | Opaque | Blended | Opaque2D | Blended2D

  const AllSlots: set<Slot> := {Occluders, Opaque, Blended, Opaque2D, Blended2D}

  datatype Containers = Containers(
    occluders: seq<ObjId>,
    occludeesOpaque: seq<ObjId>,
    occludeesBlended: seq<ObjId>,
    occludees2dOpaque: seq<ObjId>,
    occludees2dBlended: seq<ObjId>)

  const Empty: Containers := Containers([], [], [], [], [])

  function Get(c: Containers, s: Slot): seq<ObjId>
  {
    match s
    case Occluders => c.occluders
    case Opaque => c.occludeesOpaque
    case Blended => c.occludeesBlended
    case Opaque2D => c.occludees2dOpaque
    case Blended2D => c.occludees2dBlended
  }

  function Put(c: Containers, s: Slot, q: seq<ObjId>): (r: Containers)
    ensures Get(r, s) == q
    ensures forall t :: t != s ==> Get(r, t) == Get(c, t)
  {
    match s
    case Occluders => c.(occluders := q)
    case Opaque => c.(occludeesOpaque := q)
    case Blended => c.(occludeesBlended := q)
    case Opaque2D => c.(occludees2dOpaque := q)
    case Blended2D => c.(occludees2dBlended := q)
  }

  /** The slots whose list holds `x`. */
  function SlotsOf(c: Containers, x: ObjId): (r: set<Slot>)
    ensures forall s :: s in r <==> x in Get(c, s)
  {
    (if x in c.occluders then {Occluders} else {})
    + (if x in c.occludeesOpaque then {Opaque} else {})
    + (if x in c.occludeesBlended then {Blended} else {})
    + (if x in c.occludees2dOpaque then {Opaque2D} else {})
    + (if x in c.occludees2dBlended then {Blended2D} else {})
  }

  /** `q` with every occurrence of `x` removed, order otherwise kept. */
  function Without(q: seq<ObjId>, x: ObjId): (r: seq<ObjId>)
    ensures x !in r
    ensures forall y :: y in r <==> y in q && y != x
    ensures |r| <= |q|
  {
    if |q| == 0 then []
    else if q[0] == x then Without(q[1..], x)
    else [q[0]] + Without(q[1..], x)
  }

  lemma {:induction false} WithoutConcat(a: seq<ObjId>, b: seq<ObjId>, x: ObjId)
    ensures Without(a + b, x) == Without(a, x) + Without(b, x)
    decreases |a|
  {
    if |a| == 0 {
      assert a + b == b;
    } else {
      assert (a + b)[0] == a[0];
      assert (a + b)[1..] == a[1..] + b;
      WithoutConcat(a[1..], b, x);
    }
  }

  lemma WithoutAbsent(q: seq<ObjId>, x: ObjId)
    requires x !in q
    ensures Without(q, x) == q
  {
  }

  lemma {:induction false} WithoutIdempotent(q: seq<ObjId>, x: ObjId)
    ensures Without(Without(q, x), x) == Without(q, x)
  {
    WithoutAbsent(Without(q, x), x);
  }

  /** Erasing the element at `k`, when it is `x`, does not change what survives erasing `x`. */
  lemma WithoutEraseAt(q: seq<ObjId>, k: nat, x: ObjId)
    requires k < |q| && q[k] == x
    ensures Without(q[..k] + q[k + 1..], x) == Without(q, x)
  {
    assert q == q[..k] + ([q[k]] + q[k + 1..]);
    WithoutConcat(q[..k], [q[k]] + q[k + 1..], x);
    WithoutConcat(q[..k], q[k + 1..], x);
    assert ([q[k]] + q[k + 1..])[1..] == q[k + 1..];
  }

  function IndexOf(q: seq<ObjId>, x: ObjId): (k: nat)
    requires x in q
    ensures k < |q| && q[k] == x
  {
    if q[0] == x then 0 else 1 + IndexOf(q[1..], x)
  }

  /**
   * The engine's erase loop: find the object, erase it, and search again
   * until it is no longer found.
   */
  method EraseEvery(q: seq<ObjId>, x: ObjId) returns (r: seq<ObjId>)
    ensures r == Without(q, x)
  {
    r := q;
    while x in r
      invariant Without(r, x) == Without(q, x)
      decreases |r|
    {
      var k := IndexOf(r, x);
      WithoutEraseAt(r, k, x);
      r := r[..k] + r[k + 1..];
    }
    WithoutAbsent(r, x);
  }

  /** Push `x` at the back unless it is already present. */
  function AddOnce(q: seq<ObjId>, x: ObjId): (r: seq<ObjId>)
    ensures x in r
    ensures forall y :: y != x ==> (y in r <==> y in q)
    ensures multiset(q)[x] <= 1 ==> multiset(r)[x] <= 1
  {
    if x in q then q else q + [x]
  }

  lemma WithoutAddOnce(q: seq<ObjId>, x: ObjId)
    ensures Without(AddOnce(q, x), x) == Without(q, x)
  {
    if x !in q {
      WithoutConcat(q, [x], x);
      assert Without([x], x) == [];
    }
  }

  /** The list of slot `s` after erasing `x` from the slots in `slots`. */
  function ErasedList(c: Containers, slots: set<Slot>, x: ObjId, s: Slot): seq<ObjId>
  {
    if s in slots then Without(Get(c, s), x) else Get(c, s)
  }

  /** Erase `x` from the lists of the given slots. */
  function EraseFrom(c: Containers, slots: set<Slot>, x: ObjId): (r: Containers)
    ensures forall s :: Get(r, s) == ErasedList(c, slots, x, s)
  {
    Containers(
      ErasedList(c, slots, x, Occluders),
      ErasedList(c, slots, x, Opaque),
      ErasedList(c, slots, x, Blended),
      ErasedList(c, slots, x, Opaque2D),
      ErasedList(c, slots, x, Blended2D))
  }

  /** The containers as seen by every object other than `x`. */
  function Others(c: Containers, x: ObjId): Containers
  {
    EraseFrom(c, AllSlots, x)
  }

  predicate SameForOthers(c: Containers, d: Containers, x: ObjId)
  {
    Others(c, x) == Others(d, x)
  }

  lemma SameForOthersBySlots(c: Containers, d: Containers, x: ObjId)
    requires forall s :: Without(Get(c, s), x) == Without(Get(d, s), x)
    ensures SameForOthers(c, d, x)
  {
    assert Without(Get(c, Occluders), x) == Without(Get(d, Occluders), x);
    assert Without(Get(c, Opaque), x) == Without(Get(d, Opaque), x);
    assert Without(Get(c, Blended), x) == Without(Get(d, Blended), x);
    assert Without(Get(c, Opaque2D), x) == Without(Get(d, Opaque2D), x);
    assert Without(Get(c, Blended2D), x) == Without(Get(d, Blended2D), x);
  }


  /**
   * Put `x` at the back of slot `t`'s list unless it is there already, and
   * erase it from the lists of the slots in `evict`.
   */
  function Place(c: Containers, t: Slot, evict: set<Slot>, x: ObjId): (r: Containers)
    requires t !in evict
    ensures x in Get(r, t)
    ensures forall s :: s in evict ==> x !in Get(r, s)
    ensures forall s :: s != t && s !in evict ==> Get(r, s) == Get(c, s)
    ensures SameForOthers(r, c, x)
    ensures NoDuplicates(c, x) ==> NoDuplicates(r, x)
  {
    var added := Put(c, t, AddOnce(Get(c, t), x));
    var r := EraseFrom(added, evict, x);
    forall s ensures Without(Get(r, s), x) == Without(Get(c, s), x) {
      if s == t {
        WithoutAddOnce(Get(c, t), x);
      } else if s in evict {
        WithoutIdempotent(Get(c, s), x);
      }
    }
    SameForOthersBySlots(r, c, x);
    r
  }

  /** After placing, `x` is listed in its old slots minus the evicted ones, plus the target. */
  lemma PlaceSlots(c: Containers, t: Slot, evict: set<Slot>, x: ObjId)
    requires t !in evict
    ensures SlotsOf(Place(c, t, evict, x), x) == SlotsOf(c, x) - evict + {t}
  {
    var r := Place(c, t, evict, x);
    forall s ensures s in SlotsOf(r, x) <==> s in SlotsOf(c, x) - evict + {t} {
      if s != t && s !in evict {
        assert Get(r, s) == Get(c, s);
      }
    }
  }

  /** Every slot an object is listed in is one of the five. */
  lemma SlotsOfWithinAll(c: Containers, x: ObjId)
    ensures SlotsOf(c, x) <= AllSlots
  {
  }

  /** Erase `x` from every list. */
  function EraseEverywhere(c: Containers, x: ObjId): (r: Containers)
    ensures SlotsOf(r, x) == {}
    ensures SameForOthers(r, c, x)
  {
    var r := EraseFrom(c, AllSlots, x);
    forall s ensures Without(Get(r, s), x) == Without(Get(c, s), x) {
      WithoutIdempotent(Get(c, s), x);
    }
    SameForOthersBySlots(r, c, x);
    r
  }

  /** No list holds `x` more than once. */
  predicate NoDuplicates(c: Containers, x: ObjId)
  {
    forall s :: multiset(Get(c, s))[x] <= 1
  }
}

=== FILE: glsnippets.dfy ===
/**
 * OpenGL helper routines of the renderer (PRREGLsnippets): error-code
 * texts and the saved last error, index-buffer element access for the
 * three index widths, and the translation between OpenGL blend factors
 * and the renderer's own blend-factor enumeration.
 *
 * Numeric values of the OpenGL enumerants are those of the OpenGL 1.x
 * specification (gl.h).
 */
module GLSnippets {
  import opened Bytes

  type GLenum = u32

  const GL_NO_ERROR: GLenum := 0
  const GL_INVALID_ENUM: GLenum := 0x0500
  const GL_INVALID_VALUE: GLenum := 0x0501
  const GL_INVALID_OPERATION: GLenum := 0x0502
  const GL_STACK_OVERFLOW: GLenum := 0x0503
  const GL_STACK_UNDERFLOW: GLenum := 0x0504
  const GL_OUT_OF_MEMORY: GLenum := 0x0505

  const GL_UNSIGNED_BYTE: GLenum := 0x1401
  const GL_UNSIGNED_SHORT: GLenum := 0x1403
  const GL_UNSIGNED_INT: GLenum := 0x1405

  const GL_ZERO: GLenum := 0
  const GL_ONE: GLenum := 1
  const GL_SRC_COLOR: GLenum := 0x0300
  const GL_ONE_MINUS_SRC_COLOR: GLenum := 0x0301
  const GL_SRC_ALPHA: GLenum := 0x0302
  const GL_ONE_MINUS_SRC_ALPHA: GLenum := 0x0303
  const GL_DST_ALPHA: GLenum := 0x0304
  const GL_ONE_MINUS_DST_ALPHA: GLenum := 0x0305
  const GL_DST_COLOR: GLenum := 0x0306
  const GL_ONE_MINUS_DST_COLOR: GLenum := 0x0307
  const GL_SRC_ALPHA_SATURATE: GLenum := 0x0308

  // ---------------------------------------------------------------------
  // Errors

  /** The error codes the helper has a text for. */
  predicate IsKnownError(err: GLenum)
  {
    err in {GL_NO_ERROR, GL_INVALID_ENUM, GL_INVALID_VALUE, GL_INVALID_OPERATION,
            GL_STACK_OVERFLOW, GL_STACK_UNDERFLOW, GL_OUT_OF_MEMORY}
  }

  /** getGLErrorTextFromEnum. */
  function ErrorText(err: GLenum): (r: string)
    ensures !IsKnownError(err) <==> r == "Unknown Error"
    ensures err == GL_NO_ERROR <==> r == "No Error"
  {
    if err == GL_NO_ERROR then "No Error"
    else if err == GL_INVALID_ENUM then "Invalid Enum"
    else if err == GL_INVALID_VALUE then "Invalid Value"
    else if err == GL_INVALID_OPERATION then "Invalid Operation"
    else if err == GL_STACK_OVERFLOW then "Stack Overflow"
    else if err == GL_STACK_UNDERFLOW then "Stack Underflow"
    else if err == GL_OUT_OF_MEMORY then "Out of Memory"
    else "Unknown Error"
  }

  /** Every known error code has a text of its own. */
  lemma ErrorTextDistinguishes(a: GLenum, b: GLenum)
    requires IsKnownError(a) && IsKnownError(b) && a != b
    ensures ErrorText(a) != ErrorText(b)
  {
  }

  /**
   * The context's error flags as the helper sees them: glGetError returns
   * and removes the oldest pending error, or GL_NO_ERROR when none is.
   */
  datatype GLErrors = GLErrors(pending: seq<GLenum>, errLast: GLenum)

  predicate PendingAreErrors(s: GLErrors)
  {
    forall i :: 0 <= i < |s.pending| ==> s.pending[i] != GL_NO_ERROR
  }

  /** The saved error starts out as "no error". */
  function InitialErrors(pending: seq<GLenum>): (s: GLErrors)
    ensures s.errLast == GL_NO_ERROR && s.pending == pending
  {
    GLErrors(pending, GL_NO_ERROR)
  }

  function GetError(s: GLErrors): (r: (GLenum, GLErrors))
    ensures |s.pending| == 0 ==> r.0 == GL_NO_ERROR && r.1 == s
    ensures |s.pending| > 0 ==> r.0 == s.pending[0] && r.1.pending == s.pending[1..]
    ensures r.1.errLast == s.errLast
  {
    if |s.pending| == 0 then (GL_NO_ERROR, s) else (s.pending[0], s.(pending := s.pending[1..]))
  }

  /**
   * isGLErrorPresent: fetches one error, saves it as the last error and
   * reports whether it was a real one.
   */
  function IsGLErrorPresent(s: GLErrors): (r: (bool, GLErrors))
    requires PendingAreErrors(s)
    ensures r.0 <==> |s.pending| > 0
    ensures r.1.errLast == GetError(s).0
    ensures r.1.pending == GetError(s).1.pending
    ensures PendingAreErrors(r.1)
  {
    var (err, after) := GetError(s);
    (err != GL_NO_ERROR, after.(errLast := err))
  }

  /** getLastSavedGLError. */
  function LastSavedGLError(s: GLErrors): (r: GLenum)
    ensures r == s.errLast
  {
    s.errLast
  }

  /** Checking and then reading back yields the error that was fetched. */
  lemma PresentThenSaved(s: GLErrors)
    requires PendingAreErrors(s)
    ensures var (present, t) := IsGLErrorPresent(s);
            present <==> LastSavedGLError(t) != GL_NO_ERROR
  {
  }

  /**
   * ClearGLError: fetches errors until none is left; the saved last error
   * is not touched.
   */
  method ClearGLError(s: GLErrors) returns (r: GLErrors)
    requires PendingAreErrors(s)
    ensures r.pending == []
    ensures r.errLast == s.errLast
  {
    r := s;
    var err := GL_INVALID_ENUM;
    while err != GL_NO_ERROR
      invariant PendingAreErrors(r)
      invariant r.errLast == s.errLast
      invariant err == GL_NO_ERROR ==> r.pending == []
      decreases |r.pending|, if err == GL_NO_ERROR then 0 else 1
    {
      var fetched := GetError(r);
      err := fetched.0;
      r := fetched.1;
    }
  }

  // ---------------------------------------------------------------------
  // Index buffers

  /** getSizeofIndexType: anything but byte or short is taken as 32-bit. */
  function SizeofIndexType(t: GLenum): (r: nat)
    ensures r in {1, 2, 4}
    ensures r == 1 <==> t == GL_UNSIGNED_BYTE
    ensures r == 2 <==> t == GL_UNSIGNED_SHORT
  {
    if t == GL_UNSIGNED_BYTE then 1 else if t == GL_UNSIGNED_SHORT then 2 else 4
  }

  /** The largest index an element of type `t` can hold. */
  function MaxIndex(t: GLenum): nat
  {
    Pow256(SizeofIndexType(t)) - 1
  }

  predicate InArray(arr: seq<u8>, index: nat, t: GLenum)
  {
    (index + 1) * SizeofIndexType(t) <= |arr|
  }

  /** getVertexIndex: element `index` of an array of `t`-typed elements. */
  function GetVertexIndex(arr: seq<u8>, index: nat, t: GLenum): (r: nat)
    requires InArray(arr, index, t)
    ensures r <= MaxIndex(t)
  {
    var size := SizeofIndexType(t);
    DecodeLE(arr[index * size..(index + 1) * size])
  }

  /**
   * setVertexIndex: a value too large for a byte or short element is
   * refused and the array left alone; otherwise element `index` is set.
   */
  function SetVertexIndex(arr: seq<u8>, index: nat, value: u32, t: GLenum): (r: (bool, seq<u8>))
    requires InArray(arr, index, t)
    ensures r.0 <==> value <= MaxIndex(t)
    ensures |r.1| == |arr|
    ensures !r.0 ==> r.1 == arr
    ensures r.0 ==> GetVertexIndex(r.1, index, t) == value
    ensures forall i :: 0 <= i < |arr| && !(index * SizeofIndexType(t) <= i < (index + 1) * SizeofIndexType(t))
              ==> r.1[i] == arr[i]
  {
    var size := SizeofIndexType(t);
    assert Pow256(4) == U32Modulus;
    if value > MaxIndex(t) then (false, arr)
    else
      var enc := EncodeLE(value, size);
      DecodeEncode(value, size);
      var out := Overwrite(arr, index * size, enc);
      assert out[index * size..(index + 1) * size] == enc;
      (true, out)
  }

  /** Setting one element leaves every other element's value as it was. */
  lemma SetVertexIndexKeepsOthers(arr: seq<u8>, index: nat, value: u32, t: GLenum, j: nat)
    requires InArray(arr, index, t) && InArray(arr, j, t) && j != index
    ensures InArray(SetVertexIndex(arr, index, value, t).1, j, t)
    ensures GetVertexIndex(SetVertexIndex(arr, index, value, t).1, j, t) == GetVertexIndex(arr, j, t)
  {
    var size := SizeofIndexType(t);
    var out := SetVertexIndex(arr, index, value, t).1;
    assert j < index || j > index;
    if j < index {
      assert (j + 1) * size <= index * size;
    } else {
      assert (index + 1) * size <= j * size;
    }
    assert out[j * size..(j + 1) * size] == arr[j * size..(j + 1) * size];
  }

  // ---------------------------------------------------------------------
  // Blend factors

  /** The renderer's blend factors (TPRRE_BLENDFACTOR). */
  datatype BlendFactor =
    | Zero | One
    | SrcColor | OneMinusSrcColor | DstColor | OneMinusDstColor
    | SrcAlpha | OneMinusSrcAlpha | DstAlpha | OneMinusDstAlpha
    | SrcAlphaSaturate
    | ConstantColor | OneMinusConstantColor | ConstantAlpha

  /** The factors that have an OpenGL 1.1 counterpart. */
  predicate HasGLCounterpart(b: BlendFactor)
  {
    !(b.ConstantColor? || b.OneMinusConstantColor? || b.ConstantAlpha?)
  }

  /** The OpenGL blend enumerants the helper translates. */
  predicate IsGLBlend(g: GLenum)
  {
    g == GL_ZERO || g == GL_ONE || GL_SRC_COLOR <= g <= GL_SRC_ALPHA_SATURATE
  }

  /** getPRREBlendFromGLBlend: anything unknown becomes Zero. */
  function BlendFromGL(g: GLenum): (r: BlendFactor)
    ensures HasGLCounterpart(r)
    ensures !IsGLBlend(g) ==> r == Zero
  {
    if g == GL_ZERO then Zero
    else if g == GL_ONE then One
    else if g == GL_SRC_COLOR then SrcColor
    else if g == GL_ONE_MINUS_SRC_COLOR then OneMinusSrcColor
    else if g == GL_DST_COLOR then DstColor
    else if g == GL_ONE_MINUS_DST_COLOR then OneMinusDstColor
    else if g == GL_SRC_ALPHA then SrcAlpha
    else if g == GL_ONE_MINUS_SRC_ALPHA then OneMinusSrcAlpha
    else if g == GL_DST_ALPHA then DstAlpha
    else if g == GL_ONE_MINUS_DST_ALPHA then OneMinusDstAlpha
    else if g == GL_SRC_ALPHA_SATURATE then SrcAlphaSaturate
    else Zero
  }

  /** getGLBlendFromPRREBlend: factors OpenGL 1.1 lacks become GL_ZERO. */
  function GLFromBlend(b: BlendFactor): (r: GLenum)
    ensures IsGLBlend(r)
    ensures !HasGLCounterpart(b) ==> r == GL_ZERO
  {
    match b
    case Zero => GL_ZERO
    case One => GL_ONE
    case SrcColor => GL_SRC_COLOR
    case OneMinusSrcColor => GL_ONE_MINUS_SRC_COLOR
    case DstColor => GL_DST_COLOR
    case OneMinusDstColor => GL_ONE_MINUS_DST_COLOR
    case SrcAlpha => GL_SRC_ALPHA
    case OneMinusSrcAlpha => GL_ONE_MINUS_SRC_ALPHA
    case DstAlpha => GL_DST_ALPHA
    case OneMinusDstAlpha => GL_ONE_MINUS_DST_ALPHA
    case SrcAlphaSaturate => GL_SRC_ALPHA_SATURATE
    case _ => GL_ZERO
  }

  /** Renderer factor -> OpenGL -> renderer factor is the identity where a counterpart exists. */
  lemma BlendRoundTrip(b: BlendFactor)
    ensures BlendFromGL(GLFromBlend(b)) == b <==> HasGLCounterpart(b)
  {
  }

  /** OpenGL -> renderer factor -> OpenGL is the identity exactly on the known enumerants. */
  lemma GLBlendRoundTrip(g: GLenum)
    ensures GLFromBlend(BlendFromGL(g)) == g <==> IsGLBlend(g)
  {
  }
}

=== FILE: object3d.dfy ===
/**
 * The render-related state of a level-1 3D object (PureObject3DImpl): its
 * property flags, its occluder role and the occluder/occludee list it is
 * kept in, and the bookkeeping of its hardware occlusion query.
 *
 * The material's "really blending" test and the query results the GPU
 * hands back are inputs. The list of objects referring to a cloned object
 * and the bounding-box geometry are not modelled.
 */
module PureObject {
  import opened Bytes
  import opened Containers

  /** Frames an async query start is deferred for a visible object. */
  const MaxFramesWithoutStartWhenVisible: u32 := 5
  /** Frames an async query start is deferred for an occluded object. */
  const MaxFramesWithoutStartWhenOccluded: u32 := 0
  const UIntMax: u32 := 0xFFFF_FFFF

  datatype RotationOrder = XYZ | XZY | YXZ | YZX | ZXY | ZYX

  datatype Vec3 = Vec3(x: real, y: real, z: real)

  /** The per-object render properties. */
  datatype Props = Props(
    visible: bool,
    lit: bool,
    doubleSided: bool,
    wireframe: bool,
    wireframeCulled: bool,
    affectZBuffer: bool,
    zTesting: bool,
    sticked: bool)

  /**
   * The occlusion query of an object: its name (0 when the object is not
   * tested), whether it is running, the last result, and frame counters.
   */
  datatype Query = Query(
    name: u32,
    started: bool,
    occluded: bool,
    framesWithoutTest: u32,
    framesWaited: u32,
    framesWaitedMin: u32,
    framesWaitedMax: u32)

  datatype Object3D = Object3D(
    id: ObjId,
    level1: bool,
    hasManager: bool,
    props: Props,
    occluder: bool,
    oq: Query,
    rotation: RotationOrder,
    scaling: Vec3)

  /**
   * What the GPU says about a query when asked: whether the result is
   * available, and if so whether no sample passed (boolean queries report
   * "no sample", counting queries a count of zero).
   */
  datatype QueryAnswer = QueryAnswer(available: bool, noSamples: bool)

  /** An object together with the shared occluder/occludee lists. */
  datatype Placed = Placed(obj: Object3D, cont: Containers)

  /** A freshly constructed object. */
  function NewObject(id: ObjId, level1: bool, hasManager: bool): (o: Object3D)
    ensures o.id == id && o.level1 == level1 && o.hasManager == hasManager
    ensures o.props.visible && o.props.lit && o.props.affectZBuffer && o.props.zTesting
    ensures !o.props.doubleSided && !o.props.wireframe && !o.props.wireframeCulled && !o.props.sticked
    ensures !o.occluder && !o.oq.occluded
    ensures o.scaling == Vec3(1.0, 1.0, 1.0) && o.rotation == YXZ
    ensures o.oq.name == 0 && !o.oq.started
    ensures o.oq.framesWithoutTest == MaxFramesWithoutStartWhenVisible
    ensures o.oq.framesWaited == 0 && o.oq.framesWaitedMin == UIntMax && o.oq.framesWaitedMax == 0
  {
    Object3D(id, level1, hasManager,
      Props(true, true, false, false, false, true, true, false),
      false,
      Query(0, false, false, MaxFramesWithoutStartWhenVisible, 0, UIntMax, 0),
      YXZ, Vec3(1.0, 1.0, 1.0))
  }

  // ---------------------------------------------------------------------
  // Plain property setters: ignored on level-2 objects

  function SetLit(o: Object3D, v: bool): (r: Object3D)
    ensures r.props.lit == (if o.level1 then v else o.props.lit)
    ensures r == o.(props := o.props.(lit := r.props.lit))
  {
    if o.level1 then o.(props := o.props.(lit := v)) else o
  }

  function SetDoubleSided(o: Object3D, v: bool): (r: Object3D)
    ensures r.props.doubleSided == (if o.level1 then v else o.props.doubleSided)
    ensures r == o.(props := o.props.(doubleSided := r.props.doubleSided))
  {
    if o.level1 then o.(props := o.props.(doubleSided := v)) else o
  }

  function SetWireframedCulled(o: Object3D, v: bool): (r: Object3D)
    ensures r.props.wireframeCulled == (if o.level1 then v else o.props.wireframeCulled)
    ensures r == o.(props := o.props.(wireframeCulled := r.props.wireframeCulled))
  {
    if o.level1 then o.(props := o.props.(wireframeCulled := v)) else o
  }

  function SetTestingAgainstZBuffer(o: Object3D, v: bool): (r: Object3D)
    ensures r.props.zTesting == (if o.level1 then v else o.props.zTesting)
    ensures r == o.(props := o.props.(zTesting := r.props.zTesting))
  {
    if o.level1 then o.(props := o.props.(zTesting := v)) else o
  }

  function SetRotationOrder(o: Object3D, v: RotationOrder): (r: Object3D)
    ensures r.rotation == (if o.level1 then v else o.rotation)
    ensures r == o.(rotation := r.rotation)
  {
    if o.level1 then o.(rotation := v) else o
  }

  function SetScaling(o: Object3D, v: Vec3): (r: Object3D)
    ensures r.scaling == (if o.level1 then v else o.scaling)
    ensures r == o.(scaling := r.scaling)
  {
    if o.level1 then o.(scaling := v) else o
  }

  function Mul(a: Vec3, b: Vec3): Vec3
  {
    Vec3(a.x * b.x, a.y * b.y, a.z * b.z)
  }

  /** Scale: multiplies the current scaling component-wise. */
  function Scale(o: Object3D, v: Vec3): (r: Object3D)
    ensures !o.level1 ==> r == o
    ensures o.level1 ==> r.scaling.x == o.scaling.x * v.x && r.scaling.y == o.scaling.y * v.y
                         && r.scaling.z == o.scaling.z * v.z
    ensures r == o.(scaling := r.scaling)
  {
    if o.level1 then o.(scaling := Mul(o.scaling, v)) else o
  }

  /** Scaling twice is scaling once by the product (exact arithmetic). */
  lemma ScaleTwice(o: Object3D, a: Vec3, b: Vec3)
    ensures Scale(Scale(o, a), b) == Scale(o, Mul(a, b))
  {
  }

  /** A freshly constructed object scaled by `v` has scaling `v`. */
  lemma ScaleNewObject(id: ObjId, hasManager: bool, v: Vec3)
    ensures Scale(NewObject(id, true, hasManager), v).scaling == v
  {
  }

  // ---------------------------------------------------------------------
  // Occlusion query completion

  /**
   * ForceFinishOcclusionTest: a started query of a level-1 object is waited
   * for and its result taken as the occluded state.
   */
  function ForceFinishOcclusionTest(level1: bool, q: Query, a: QueryAnswer): (r: Query)
    ensures !r.started || r == q
    ensures level1 && q.started && q.name != 0 ==> !r.started && r.occluded == a.noSamples
    ensures r == q.(started := r.started, occluded := r.occluded)
    ensures !(level1 && q.started && q.name != 0) ==> r == q
  {
    if !level1 || !q.started || q.name == 0 then q
    else q.(started := false, occluded := a.noSamples)
  }

  /**
   * The public ForceFinishOcclusionTest a renderer calls: the internal
   * finish above, then the occluded state is reset, for every object,
   * tested or not, level-1 or not.
   */
  function ForceFinishAndReset(level1: bool, q: Query, a: QueryAnswer): (r: Query)
    ensures !r.occluded
    ensures level1 && q.started && q.name != 0 ==> !r.started
    ensures !(level1 && q.started && q.name != 0) ==> r == q.(occluded := false)
    ensures r == q.(started := r.started, occluded := false)
  {
    ForceFinishOcclusionTest(level1, q, a).(occluded := false)
  }

  /**
   * After the public forced finish a level-1 object is drawn: the next
   * finish, in either mode, reports "not occluded" and leaves no query
   * running that was not started again.
   */
  lemma ForceFinishAndResetThenFinish(q: Query, forced: QueryAnswer, later: QueryAnswer, async: bool, renderIfPending: bool)
    ensures var f := QueryFinish(ForceFinishAndReset(true, q, forced), async, renderIfPending, later);
            !f.0 && !f.1.occluded && (q.name != 0 ==> !f.1.started)
  {
  }

  // ---------------------------------------------------------------------
  // Occluder role

  /** The properties that forbid an object from becoming an occluder. */
  predicate OccluderConflict(o: Object3D, blended: bool)
  {
    !o.props.visible || o.props.sticked || !o.props.affectZBuffer || o.props.wireframe || blended
  }

  /** Whether SetOccluder(value) does anything at all. */
  predicate OccluderApplies(o: Object3D, value: bool, blended: bool)
  {
    o.level1 && o.hasManager && !(value && OccluderConflict(o, blended))
  }

  /** The list SetOccluder(value) puts the object in. */
  function Target(value: bool, blended: bool, sticked: bool): Slot
  {
    if value then Occluders
    else if blended then (if sticked then Blended2D else Blended)
    else (if sticked then Opaque2D else Opaque)
  }

  /** The lists SetOccluder(value) erases the object from. */
  function Evicted(value: bool, blended: bool, sticked: bool): (r: set<Slot>)
    ensures Target(value, blended, sticked) !in r
  {
    if value then {Opaque, Blended} else AllSlots - {Target(false, blended, sticked)}
  }

  /**
   * SetOccluder: refused on level-2 objects, on objects without a manager,
   * and, when turning the role on, on objects with a conflicting property.
   * Otherwise the object is filed in the list its new role, blending and
   * stickiness call for, erased from that branch's other lists, and no
   * other object's entries move. Turning the role on first finishes a
   * running query.
   */
  function SetOccluder(p: Placed, value: bool, blended: bool, a: QueryAnswer): (r: Placed)
    ensures !OccluderApplies(p.obj, value, blended) ==> r == p
    ensures OccluderApplies(p.obj, value, blended) ==>
              && r.obj.occluder == value
              && p.obj.id in Get(r.cont, Target(value, blended, p.obj.props.sticked))
              && (forall s :: s in Evicted(value, blended, p.obj.props.sticked) ==> p.obj.id !in Get(r.cont, s))
              && (forall s :: s != Target(value, blended, p.obj.props.sticked)
                               && s !in Evicted(value, blended, p.obj.props.sticked)
                    ==> Get(r.cont, s) == Get(p.cont, s))
              && SameForOthers(r.cont, p.cont, p.obj.id)
              && (NoDuplicates(p.cont, p.obj.id) ==> NoDuplicates(r.cont, p.obj.id))
              && r.obj.oq == (if value then ForceFinishOcclusionTest(true, p.obj.oq, a) else p.obj.oq)
    ensures r.obj == p.obj.(occluder := r.obj.occluder, oq := r.obj.oq)
  {
    var o := p.obj;
    if !OccluderApplies(o, value, blended) then p
    else
      var q := if value then ForceFinishOcclusionTest(true, o.oq, a) else o.oq;
      Placed(o.(occluder := value, oq := q),
             Place(p.cont, Target(value, blended, o.props.sticked), Evicted(value, blended, o.props.sticked), o.id))
  }

  /** Turning the occluder role off never waits for a query, so the answer is irrelevant. */
  const NoAnswer: QueryAnswer := QueryAnswer(false, false)

  function SetOccluderOff(p: Placed, blended: bool): (r: Placed)
    ensures p.obj.level1 && p.obj.hasManager ==> !r.obj.occluder
    ensures p.obj.level1 && p.obj.hasManager ==> SlotsOf(r.cont, p.obj.id) == {Target(false, blended, p.obj.props.sticked)}
    ensures r.obj == p.obj.(occluder := r.obj.occluder)
    ensures !p.obj.occluder ==> !r.obj.occluder
    ensures SameForOthers(r.cont, p.cont, p.obj.id)
    ensures NoDuplicates(p.cont, p.obj.id) ==> NoDuplicates(r.cont, p.obj.id)
  {
    var r := SetOccluder(p, false, blended, NoAnswer);
    OffSlots(p, blended, r);
    r
  }

  /** When SetOccluder applies, its containers are those of placing the object in its target. */
  lemma SetOccluderPlaces(p: Placed, value: bool, blended: bool, a: QueryAnswer)
    requires OccluderApplies(p.obj, value, blended)
    ensures SetOccluder(p, value, blended, a).cont
            == Place(p.cont, Target(value, blended, p.obj.props.sticked), Evicted(value, blended, p.obj.props.sticked), p.obj.id)
  {
  }

  lemma OffSlots(p: Placed, blended: bool, r: Placed)
    requires r == SetOccluder(p, false, blended, NoAnswer)
    ensures p.obj.level1 && p.obj.hasManager ==> SlotsOf(r.cont, p.obj.id) == {Target(false, blended, p.obj.props.sticked)}
  {
    if p.obj.level1 && p.obj.hasManager {
      var t := Target(false, blended, p.obj.props.sticked);
      SetOccluderPlaces(p, false, blended, NoAnswer);
      PlaceSlots(p.cont, t, AllSlots - {t}, p.obj.id);
      SlotsOfWithinAll(p.cont, p.obj.id);
    }
  }

  /** SetRenderingAllowed (Show/Hide): hiding an occluder first drops the role. */
  function SetRenderingAllowed(p: Placed, state: bool, blended: bool): (r: Placed)
    ensures r.obj.props.visible == state
    ensures !state && p.obj.level1 && p.obj.hasManager ==> !r.obj.occluder
    ensures state || !p.obj.occluder ==> r.cont == p.cont && r.obj.occluder == p.obj.occluder
    ensures r.obj == p.obj.(occluder := r.obj.occluder, props := p.obj.props.(visible := state))
    ensures SameForOthers(r.cont, p.cont, p.obj.id)
  {
    var q := if p.obj.occluder && !state then SetOccluderOff(p, blended) else p;
    Placed(q.obj.(props := q.obj.props.(visible := state)), q.cont)
  }

  /** SetWireframed: turning wireframe on drops the occluder role. */
  function SetWireframed(p: Placed, v: bool, blended: bool): (r: Placed)
    ensures !p.obj.level1 ==> r == p
    ensures p.obj.level1 ==> r.obj.props.wireframe == v
    ensures p.obj.level1 && v && p.obj.hasManager ==> !r.obj.occluder
    ensures !v || !p.obj.occluder ==> r.cont == p.cont && r.obj.occluder == p.obj.occluder
    ensures r.obj == p.obj.(occluder := r.obj.occluder, props := p.obj.props.(wireframe := r.obj.props.wireframe))
    ensures SameForOthers(r.cont, p.cont, p.obj.id)
  {
    if !p.obj.level1 then p
    else
      var q := if v && p.obj.occluder then SetOccluderOff(p, blended) else p;
      Placed(q.obj.(props := q.obj.props.(wireframe := v)), q.cont)
  }

  /** SetAffectingZBuffer: turning depth writes off drops the occluder role. */
  function SetAffectingZBuffer(p: Placed, v: bool, blended: bool): (r: Placed)
    ensures !p.obj.level1 ==> r == p
    ensures p.obj.level1 ==> r.obj.props.affectZBuffer == v
    ensures p.obj.level1 && !v && p.obj.hasManager ==> !r.obj.occluder
    ensures v || !p.obj.occluder ==> r.cont == p.cont && r.obj.occluder == p.obj.occluder
    ensures r.obj == p.obj.(occluder := r.obj.occluder, props := p.obj.props.(affectZBuffer := r.obj.props.affectZBuffer))
    ensures SameForOthers(r.cont, p.cont, p.obj.id)
  {
    if !p.obj.level1 then p
    else
      var q := if !v && p.obj.occluder then SetOccluderOff(p, blended) else p;
      Placed(q.obj.(props := q.obj.props.(affectZBuffer := v)), q.cont)
  }

  /**
   * SetStickedToScreen: whichever way it goes, the role is reset to
   * occludee (filed by the new stickiness) and the object becomes
   * double-sided, unlit and not depth-tested.
   */
  function SetStickedToScreen(p: Placed, v: bool, blended: bool): (r: Placed)
    ensures !p.obj.level1 ==> r == p
    ensures p.obj.level1 ==> r.obj.props.sticked == v && r.obj.props.doubleSided && !r.obj.props.lit && !r.obj.props.zTesting
    ensures p.obj.level1 && p.obj.hasManager ==>
              !r.obj.occluder && SlotsOf(r.cont, p.obj.id) == {Target(false, blended, v)}
    ensures SameForOthers(r.cont, p.cont, p.obj.id)
  {
    if !p.obj.level1 then p
    else
      var q := SetOccluderOff(Placed(p.obj.(props := p.obj.props.(sticked := v)), p.cont), blended);
      Placed(SetTestingAgainstZBuffer(SetLit(SetDoubleSided(q.obj, true), false), false), q.cont)
  }

  /** The destructor erases the object from all five lists. */
  function Destroy(p: Placed): (r: Containers)
    ensures SlotsOf(r, p.obj.id) == {}
    ensures SameForOthers(r, p.cont, p.obj.id)
  {
    EraseEverywhere(p.cont, p.obj.id)
  }

  // ---------------------------------------------------------------------
  // Occlusion query bookkeeping

  predicate IsOcclusionTested(o: Object3D)
  {
    o.oq.name > 0
  }

  /**
   * SetOcclusionTested: without query support nothing happens. Turning
   * testing on throws (None) without a manager, is ignored for level-2
   * objects, and otherwise takes the query name the driver generated (0
   * when generation failed). Turning it off drops the query and forgets
   * the occluded state.
   */
  function SetOcclusionTested(o: Object3D, state: bool, supported: bool, generated: u32): (r: Option<Object3D>)
    ensures !supported ==> r == Some(o)
    ensures supported && state ==> (r.None? <==> !o.hasManager)
    ensures supported && state && r.Some? && o.level1 ==>
              (IsOcclusionTested(r.value) <==> generated != 0) && r.value == o.(oq := o.oq.(name := generated))
    ensures supported && state && r.Some? && !o.level1 ==> r == Some(o)
    ensures supported && !state ==>
              r.Some? && !IsOcclusionTested(r.value) && !r.value.oq.occluded && !r.value.oq.started
              && r.value == o.(oq := r.value.oq)
  {
    if !supported then Some(o)
    else if state then
      if !o.hasManager then None
      else if !o.level1 then Some(o)
      else Some(o.(oq := o.oq.(name := generated)))
    else Some(o.(oq := o.oq.(name := 0, occluded := false, started := false)))
  }

  /** How many frames an async start may still be deferred for. */
  function FramesLimit(q: Query): u32
  {
    if q.occluded then MaxFramesWithoutStartWhenOccluded else MaxFramesWithoutStartWhenVisible
  }

  /** Whether a start attempt actually starts the query. */
  predicate StartsNow(q: Query, async: bool)
  {
    q.name != 0 && !q.started && (!async || q.framesWithoutTest >= FramesLimit(q))
  }

  /**
   * draw_OcclusionQuery_Start: returns the number of bounding-box vertices
   * sent (`boxVertices` when the query starts, otherwise 0). An untested
   * object or one whose query is already running does nothing; an async
   * start is deferred, counting frames, until the frame limit is reached.
   */
  function QueryStart(q: Query, async: bool, boxVertices: nat): (r: (nat, Query))
    ensures q.name == 0 || q.started ==> r == (0, q)
    ensures r.1.started <==> q.started || StartsNow(q, async)
    ensures StartsNow(q, async) ==> r.0 == boxVertices && r.1.framesWaited == 0
    ensures !StartsNow(q, async) ==> r.0 == 0
    ensures !StartsNow(q, async) && q.name != 0 && !q.started ==>
              r.1 == q.(framesWithoutTest := q.framesWithoutTest + 1)
    ensures r.1.occluded == q.occluded && r.1.name == q.name
  {
    if q.name == 0 || q.started then (0, q)
    else if async && q.framesWithoutTest < FramesLimit(q) then
      (0, q.(framesWithoutTest := q.framesWithoutTest + 1))
    else (boxVertices, q.(started := true, framesWaited := 0))
  }

  /** `n` consecutive async start attempts. */
  function StartAttempts(q: Query, n: nat, boxVertices: nat): Query
    decreases n
  {
    if n == 0 then q else StartAttempts(QueryStart(q, true, boxVertices).1, n - 1, boxVertices)
  }

  /**
   * A tested, idle query that last found the object visible is started
   * once the deferral frames run out: after the remaining deferrals the
   * next async attempt starts it.
   */
  lemma {:induction false} AsyncStartWithinLimit(q: Query, boxVertices: nat)
    requires q.name != 0 && !q.started && !q.occluded
    requires q.framesWithoutTest <= MaxFramesWithoutStartWhenVisible
    ensures StartsNow(StartAttempts(q, MaxFramesWithoutStartWhenVisible - q.framesWithoutTest, boxVertices), true)
    decreases MaxFramesWithoutStartWhenVisible - q.framesWithoutTest
  {
    if q.framesWithoutTest < MaxFramesWithoutStartWhenVisible {
      var q1 := QueryStart(q, true, boxVertices).1;
      assert q1 == q.(framesWithoutTest := q.framesWithoutTest + 1);
      AsyncStartWithinLimit(q1, boxVertices);
    }
  }

  /** A new object given a query starts it on the very first frame, even in async mode. */
  lemma NewObjectStartsAtOnce(id: ObjId, hasManager: bool, generated: u32, boxVertices: nat)
    requires generated != 0
    ensures var o := SetOcclusionTested(NewObject(id, true, hasManager), true, true, generated);
            o.Some? ==> QueryStart(o.value.oq, true, boxVertices).1.started
  {
  }

  function MinU32(a: u32, b: u32): u32 { if a < b then a else b }
  function MaxU32(a: u32, b: u32): u32 { if a > b then a else b }

  /**
   * draw_OcclusionQuery_Finish: true means "occluded, skip drawing".
   * Without a query the object is drawn. A query that was never started
   * reports the last result in async mode and "draw" in sync mode. A sync
   * query is waited for; an async query whose result is not available yet
   * counts one more waited frame and reports "draw" when pending objects
   * are to be rendered, the last result otherwise. An available result
   * ends the query and becomes the occluded state.
   */
  function QueryFinish(q: Query, async: bool, renderIfPending: bool, a: QueryAnswer): (r: (bool, Query))
    ensures q.name == 0 ==> r == (false, q)
    ensures q.name != 0 && !q.started ==> r == (async && q.occluded, q)
    ensures q.name != 0 && q.started && async && !a.available ==>
              r.0 == (!renderIfPending && q.occluded) && r.1 == q.(framesWaited := IncU32(q.framesWaited))
    ensures q.name != 0 && q.started && async && a.available ==>
              r.1.framesWaited == 0
              && r.1.framesWaitedMin == MinU32(q.framesWaitedMin, q.framesWaited)
              && r.1.framesWaitedMax == MaxU32(q.framesWaitedMax, q.framesWaited)
    ensures q.name != 0 && q.started && (!async || a.available) ==>
              r.0 == a.noSamples && !r.1.started && r.1.occluded == a.noSamples
    ensures async && q.name != 0 && q.started && a.available ==> r.1.framesWithoutTest == 0
    ensures r.1.started ==> q.started
    ensures r.1.name == q.name
  {
    if q.name == 0 then (false, q)
    else if !q.started then (if async then q.occluded else false, q)
    else if async && !a.available then
      (if renderIfPending then false else q.occluded, q.(framesWaited := IncU32(q.framesWaited)))
    else
      var q1 := q.(started := false, occluded := a.noSamples);
      if async then
        (a.noSamples, q1.(framesWaitedMin := MinU32(q.framesWaitedMin, q.framesWaited),
                          framesWaitedMax := MaxU32(q.framesWaitedMax, q.framesWaited),
                          framesWaited := 0, framesWithoutTest := 0))
      else (a.noSamples, q1)
  }

  /** A sync start followed by a finish reports the GPU's answer and leaves no query running. */
  lemma SyncStartThenFinish(q: Query, boxVertices: nat, renderIfPending: bool, a: QueryAnswer)
    requires q.name != 0 && !q.started
    ensures var started := QueryStart(q, false, boxVertices).1;
            started.started
            && QueryFinish(started, false, renderIfPending, a).0 == a.noSamples
            && !QueryFinish(started, false, renderIfPending, a).1.started
  {
  }

  /**
   * Forcing a running query to finish makes the next async finish report
   * the forced result without asking the GPU again.
   */
  lemma ForceFinishThenFinish(q: Query, forced: QueryAnswer, later: QueryAnswer, renderIfPending: bool)
    requires q.name != 0 && q.started
    ensures QueryFinish(ForceFinishOcclusionTest(true, q, forced), true, renderIfPending, later).0 == forced.noSamples
  {
  }

  /** An object no longer tested is never reported occluded and sends no bounding box. */
  lemma UntestedIsDrawn(o: Object3D, async: bool, renderIfPending: bool, a: QueryAnswer, boxVertices: nat)
    ensures var u := SetOcclusionTested(o, false, true, 0).value;
            !QueryFinish(u.oq, async, renderIfPending, a).0 && QueryStart(u.oq, async, boxVertices).0 == 0
  {
  }

  // ---------------------------------------------------------------------
  // The consistency the occluder lists keep

  /**
   * The object sits in at most one list, at most once; only level-1
   * objects with a manager are listed; it is an occluder exactly when it
   * is in the occluder list, and then it is visible, solid, depth-writing
   * and not sticked; occludee lists match its stickiness.
   */
  predicate Consistent(p: Placed)
  {
    var o := p.obj;
    var at := SlotsOf(p.cont, o.id);
    && |at| <= 1
    && NoDuplicates(p.cont, o.id)
    && (!(o.level1 && o.hasManager) ==> at == {})
    && (o.occluder <==> Occluders in at)
    && (o.occluder ==> o.props.visible && !o.props.wireframe && o.props.affectZBuffer && !o.props.sticked)
    && (Opaque in at || Blended in at ==> !o.props.sticked)
    && (Opaque2D in at || Blended2D in at ==> o.props.sticked)
  }

  lemma NewObjectConsistent(id: ObjId, level1: bool, hasManager: bool, c: Containers)
    requires SlotsOf(c, id) == {}
    ensures Consistent(Placed(NewObject(id, level1, hasManager), c))
  {
    forall s ensures multiset(Get(c, s))[id] <= 1 {
      assert id !in Get(c, s);
    }
  }

  lemma SetOccluderOffConsistent(p: Placed, blended: bool)
    requires Consistent(p)
    ensures Consistent(SetOccluderOff(p, blended))
  {
    var r := SetOccluderOff(p, blended);
    if p.obj.level1 && p.obj.hasManager {
      assert |SlotsOf(r.cont, p.obj.id)| == 1;
    }
  }

  lemma SetOccluderConsistent(p: Placed, value: bool, blended: bool, a: QueryAnswer)
    requires Consistent(p)
    ensures Consistent(SetOccluder(p, value, blended, a))
  {
    var o := p.obj;
    if !value {
      SetOccluderOffConsistent(p, blended);
    } else if OccluderApplies(o, value, blended) {
      var r := SetOccluder(p, value, blended, a);
      SetOccluderPlaces(p, value, blended, a);
      PlaceSlots(p.cont, Occluders, {Opaque, Blended}, o.id);
      var at := SlotsOf(p.cont, o.id);
      assert Opaque2D !in at && Blended2D !in at;
      assert at - {Opaque, Blended} <= {Occluders};
      assert SlotsOf(r.cont, o.id) == {Occluders};
      assert r.obj.props == o.props && r.obj.occluder && r.obj.id == o.id;
      assert NoDuplicates(r.cont, o.id);
      ListedOccluderConsistent(r);
    }
  }

  /** A solid, visible, depth-writing, non-sticked occluder listed once among the occluders only is consistent. */
  lemma ListedOccluderConsistent(q: Placed)
    requires q.obj.level1 && q.obj.hasManager && q.obj.occluder
    requires SlotsOf(q.cont, q.obj.id) == {Occluders} && NoDuplicates(q.cont, q.obj.id)
    requires q.obj.props.visible && !q.obj.props.wireframe && q.obj.props.affectZBuffer && !q.obj.props.sticked
    ensures Consistent(q)
  {
  }

  lemma SetRenderingAllowedConsistent(p: Placed, state: bool, blended: bool)
    requires Consistent(p)
    ensures Consistent(SetRenderingAllowed(p, state, blended))
  {
    if p.obj.occluder && !state {
      SetOccluderOffConsistent(p, blended);
    }
  }

  lemma SetWireframedConsistent(p: Placed, v: bool, blended: bool)
    requires Consistent(p)
    ensures Consistent(SetWireframed(p, v, blended))
  {
    if p.obj.level1 && v && p.obj.occluder {
      SetOccluderOffConsistent(p, blended);
    }
  }

  lemma SetAffectingZBufferConsistent(p: Placed, v: bool, blended: bool)
    requires Consistent(p)
    ensures Consistent(SetAffectingZBuffer(p, v, blended))
  {
    if p.obj.level1 && !v && p.obj.occluder {
      SetOccluderOffConsistent(p, blended);
    }
  }

  lemma SetStickedToScreenConsistent(p: Placed, v: bool, blended: bool)
    requires Consistent(p)
    ensures Consistent(SetStickedToScreen(p, v, blended))
  {
    if p.obj.level1 {
      var q := Placed(p.obj.(props := p.obj.props.(sticked := v)), p.cont);
      if !p.obj.hasManager {
        assert SlotsOf(p.cont, p.obj.id) == {};
      }
      var r := SetOccluderOff(q, blended);
      if p.obj.hasManager {
        assert |SlotsOf(r.cont, p.obj.id)| == 1;
      }
    }
  }
}

=== FILE: packet.dfy ===
/**
 * The network packet of the engine (pge_network::PgePacket) at byte level:
 * a 32-bit packet kind, the server-side connection handle, and a union body
 * that is either a "user connected" notice, an empty "user disconnected"
 * notice, or an area of packed application messages.
 *
 * Layout, in native little-endian order:
 *   kind (4 bytes) | handle (4 bytes) | body (257 bytes) | padding (3 bytes)
 * The body is the largest union member, the message area: a message count
 * byte, an area-length byte and the 255-byte area `cData`.  An application
 * message (MsgApp) in memory is its 32-bit id, one size byte and 240 data
 * bytes; only the first 5 + size bytes of it are ever copied.
 */
module Packet {
  import opened Bytes

  type ConnHandle = u32

  /** The connection handle that denotes the server itself. */
  const ServerConnHandle: ConnHandle := 0

  const IpAddressMaxLength: nat := 48
  const MaxMessageLength: nat := 240
  /** offsetof(MsgApp, cMsgData): the 4-byte id and the size byte. */
  const MsgAppHeaderSize: nat := 5
  const MessagesAreaLength: nat := 255
  /** The union body: count byte, length byte and the message area. */
  const BodySize: nat := 2 + MessagesAreaLength
  /** Byte offset of the message area inside the packet. */
  const AppAreaOffset: nat := 4 + 4 + 2
  /** sizeof(PgePacket): 4 + 4 + 257 bytes rounded up to 4-byte alignment. */
  const PacketSize: nat := 268

  datatype PktId = UserConnectedServerSelf | UserDisconnectedFromServer | Application

  /** The value a packet kind has in the packet's first four bytes. */
  function PktIdCode(k: PktId): (r: u32)
    ensures r < 3
    ensures PktIdOfCode(r) == Some(k)
  {
    match k
    case UserConnectedServerSelf => 0
    case UserDisconnectedFromServer => 1
    case Application => 2
  }

  /** The packet kind a stored 32-bit value denotes, if any. */
  function PktIdOfCode(code: u32): (r: Option<PktId>)
    ensures r.Some? <==> code < 3
  {
    if code == 0 then Some(UserConnectedServerSelf)
    else if code == 1 then Some(UserDisconnectedFromServer)
    else if code == 2 then Some(Application)
    else None
  }

  /** Distinct packet kinds are stored as distinct values. */
  lemma PktIdCodeInjective(a: PktId, b: PktId)
    requires PktIdCode(a) == PktIdCode(b)
    ensures a == b
  {
    assert PktIdOfCode(PktIdCode(a)) == Some(a);
  }

  datatype RawPacket = RawPacket(kind: u32, connHandleServerSide: ConnHandle, body: seq<u8>)

  /** A packet is its two header words and exactly one union body. */
  type PgePacket = p: RawPacket | |p.body| == BodySize
    witness RawPacket(0, 0, seq(BodySize, _ => 0))

  datatype AutoFill = NoFill | ZeroFill

  /** Result of an operation that may refuse and leave the packet alone. */
  datatype PktOutcome = PktOutcome(ok: bool, pkt: PgePacket)

  // ---------------------------------------------------------------------
  // Views of the union body

  function AppCount(p: PgePacket): u8 { p.body[0] }

  function AppLength(p: PgePacket): u8 { p.body[1] }

  function AppArea(p: PgePacket): (r: seq<u8>)
    ensures |r| == MessagesAreaLength
  {
    p.body[2..]
  }

  /** The same packet with the message-area view replaced. */
  function WithApp(p: PgePacket, count: u8, length: u8, area: seq<u8>): (r: PgePacket)
    requires |area| == MessagesAreaLength
    ensures r.kind == p.kind && r.connHandleServerSide == p.connHandleServerSide
    ensures AppCount(r) == count && AppLength(r) == length && AppArea(r) == area
  {
    RawPacket(p.kind, p.connHandleServerSide, [count, length] + area)
  }

  function IsCurrentClient(p: PgePacket): bool { p.body[0] != 0 }

  function IpAddressBytes(p: PgePacket): (r: seq<u8>)
    ensures |r| == IpAddressMaxLength
  {
    p.body[1..1 + IpAddressMaxLength]
  }

  /** The C string held by a character buffer: everything before the first NUL. */
  function CString(s: seq<u8>): (r: seq<u8>)
    ensures |r| <= |s| && r == s[..|r|]
    ensures forall i :: 0 <= i < |r| ==> r[i] != 0
    ensures |r| < |s| ==> s[|r|] == 0
  {
    if |s| == 0 || s[0] == 0 then [] else [s[0]] + CString(s[1..])
  }

  function Zeros(n: nat): (r: seq<u8>)
    ensures |r| == n && forall i :: 0 <= i < n ==> r[i] == 0
  {
    seq(n, _ => 0)
  }

  // ---------------------------------------------------------------------
  // Packet initialisation (PgePacket.cpp)

  /**
   * Sets kind and handle; ZeroFill first clears the whole packet, NoFill
   * keeps whatever the body held.
   */
  function InitPktBasic(p: PgePacket, id: PktId, handle: ConnHandle, fill: AutoFill): (r: PgePacket)
    ensures r.kind == PktIdCode(id) && r.connHandleServerSide == handle
    ensures fill == ZeroFill ==> forall i :: 0 <= i < BodySize ==> r.body[i] == 0
    ensures fill == NoFill ==> r.body == p.body
  {
    match fill
    case ZeroFill => RawPacket(PktIdCode(id), handle, Zeros(BodySize))
    case NoFill => RawPacket(PktIdCode(id), handle, p.body)
  }

  /**
   * A "user connected" notice. Refused, with the packet untouched, when the
   * address would not leave room for its terminating NUL in the 48-byte
   * buffer; otherwise the packet is cleared and the address copied up to
   * its first NUL (the secure copy terminates it and always succeeds here).
   */
  function InitPktUserConnected(p: PgePacket, handle: ConnHandle, currentClient: bool, ip: seq<u8>): (r: PktOutcome)
    ensures r.ok <==> |ip| < IpAddressMaxLength
    ensures !r.ok ==> r.pkt == p
    ensures r.ok ==> PktIdOfCode(r.pkt.kind) == Some(UserConnectedServerSelf)
    ensures r.ok ==> r.pkt.connHandleServerSide == handle
    ensures r.ok ==> IsCurrentClient(r.pkt) == currentClient
    ensures r.ok ==> CString(IpAddressBytes(r.pkt)) == CString(ip)
    ensures r.ok && (forall i :: 0 <= i < |ip| ==> ip[i] != 0) ==> CString(IpAddressBytes(r.pkt)) == ip
    ensures r.ok ==> r.pkt.body[0] == (if currentClient then 1 else 0)
    ensures r.ok ==> forall i :: 1 + |CString(ip)| <= i < BodySize ==> r.pkt.body[i] == 0
  {
    if |ip| >= IpAddressMaxLength then PktOutcome(false, p)
    else
      var cleared := InitPktBasic(p, UserConnectedServerSelf, handle, ZeroFill);
      var text := CString(ip);
      var flag: u8 := if currentClient then 1 else 0;
      var body := [flag] + text + Zeros(BodySize - 1 - |text|);
      var r := RawPacket(cleared.kind, handle, body);
      assert IpAddressBytes(r) == text + Zeros(IpAddressMaxLength - |text|);
      CStringOfTerminated(text, Zeros(IpAddressMaxLength - |text|));
      CStringOfNulFree(ip);
      PktOutcome(true, r)
  }

  lemma {:induction false} CStringOfTerminated(text: seq<u8>, rest: seq<u8>)
    requires forall i :: 0 <= i < |text| ==> text[i] != 0
    requires |rest| > 0 && rest[0] == 0
    ensures CString(text + rest) == text
    decreases |text|
  {
    if |text| > 0 {
      assert (text + rest)[1..] == text[1..] + rest;
      CStringOfTerminated(text[1..], rest);
    } else {
      assert text + rest == rest;
    }
  }

  lemma {:induction false} CStringOfNulFree(s: seq<u8>)
    ensures (forall i :: 0 <= i < |s| ==> s[i] != 0) ==> CString(s) == s
    decreases |s|
  {
    if |s| > 0 {
      CStringOfNulFree(s[1..]);
      if forall i :: 0 <= i < |s| ==> s[i] != 0 {
        assert forall i :: 0 <= i < |s| - 1 ==> s[1..][i] == s[i + 1];
        assert [s[0]] + s[1..] == s;
      }
    }
  }

  /** A "user disconnected" notice: a cleared packet of that kind. */
  function InitPktUserDisconnected(p: PgePacket, handle: ConnHandle): (r: PgePacket)
    ensures PktIdOfCode(r.kind) == Some(UserDisconnectedFromServer)
    ensures r.connHandleServerSide == handle
    ensures forall i :: 0 <= i < BodySize ==> r.body[i] == 0
  {
    InitPktBasic(p, UserDisconnectedFromServer, handle, ZeroFill)
  }

  /**
   * A "user disconnected" notice is determined by its handle alone: what the
   * packet held before is gone, and distinct handles give distinct notices.
   */
  lemma UserDisconnectedDeterminedByHandle(p: PgePacket, q: PgePacket, h1: ConnHandle, h2: ConnHandle)
    ensures InitPktUserDisconnected(p, h1) == InitPktUserDisconnected(q, h2) <==> h1 == h2
  {
    var a := InitPktUserDisconnected(p, h1);
    var b := InitPktUserDisconnected(q, h2);
    assert a.kind == b.kind by {
      assert PktIdOfCode(a.kind) == PktIdOfCode(b.kind);
    }
    assert a.body == b.body;
  }

  /**
   * An empty application packet: count and length are zeroed even when
   * NoFill leaves the rest of the message area as it was.
   */
  function InitPktMsgApp(p: PgePacket, handle: ConnHandle, fill: AutoFill): (r: PgePacket)
    ensures PktIdOfCode(r.kind) == Some(Application)
    ensures r.connHandleServerSide == handle
    ensures AppCount(r) == 0 && AppLength(r) == 0
    ensures fill == NoFill ==> AppArea(r) == AppArea(p)
    ensures fill == ZeroFill ==> AppArea(r) == Zeros(MessagesAreaLength)
  {
    var basic := InitPktBasic(p, Application, handle, fill);
    WithApp(basic, 0, 0, AppArea(basic))
  }

  /** Whether the message area has no byte left. */
  function IsMessageAppAreaFull(p: PgePacket): bool
  {
    AppLength(p) == MessagesAreaLength
  }

  // ---------------------------------------------------------------------
  // Application messages

  datatype RawMsgApp = MsgApp(msgId: u32, size: u8, data: seq<u8>)

  /** The MsgApp struct: id, declared size and the full 240-byte data buffer. */
  type MsgApp = m: RawMsgApp | |m.data| == MaxMessageLength
    witness MsgApp(0, 0, seq(MaxMessageLength, _ => 0))

  /** The in-memory bytes of a MsgApp struct. */
  function MsgAppBytes(m: MsgApp): (r: seq<u8>)
    ensures |r| == MsgAppHeaderSize + MaxMessageLength
  {
    U32Bytes(m.msgId) + [m.size] + m.data
  }

  /** One application message as it travels: its id and its payload. */
  datatype RawAppMessage = AppMessage(id: u32, payload: seq<u8>)

  type AppMessage = m: RawAppMessage | |m.payload| <= MaxMessageLength
    witness AppMessage(0, [])

  /** The message a MsgApp with a valid declared size carries. */
  function MessageOf(m: MsgApp): (r: AppMessage)
    requires m.size <= MaxMessageLength
    ensures r.id == m.msgId && |r.payload| == m.size
  {
    AppMessage(m.msgId, m.data[..m.size])
  }

  /** The packed form of one message: id, size byte, payload. */
  function MessageBytes(m: AppMessage): (r: seq<u8>)
    ensures |r| == MsgAppHeaderSize + |m.payload|
  {
    U32Bytes(m.id) + [|m.payload|] + m.payload
  }

  /** The packed bytes of a MsgApp are those of the message it carries. */
  lemma MsgAppBytesPrefix(m: MsgApp)
    requires m.size <= MaxMessageLength
    ensures MsgAppBytes(m)[..MsgAppHeaderSize + m.size] == MessageBytes(MessageOf(m))
  {
    var b := MsgAppBytes(m);
    assert b[..4] == U32Bytes(m.msgId);
    assert b[4] == m.size;
    assert b[5..5 + m.size] == m.data[..m.size];
  }

  /**
   * fillMsgApp: refuses a size above the data buffer's capacity and changes
   * nothing then; otherwise stores id and size and copies `n` bytes of
   * `data`, leaving the rest of the buffer as it was.
   */
  function FillMsgApp(m: MsgApp, id: u32, data: seq<u8>, n: u8): (r: (bool, MsgApp))
    requires n <= MaxMessageLength ==> n <= |data|
    ensures r.0 <==> n <= MaxMessageLength
    ensures !r.0 ==> r.1 == m
    ensures r.0 ==> r.1.size == n && MessageOf(r.1) == AppMessage(id, data[..n])
    ensures r.0 ==> r.1.data[n..] == m.data[n..]
  {
    if n > MaxMessageLength then (false, m)
    else
      var filled := MsgApp(id, n, Overwrite(m.data, 0, data[..n]));
      (true, filled)
  }

  /**
   * getMsgAppTotalActualSize: header plus declared size, returned as a byte,
   * so a corrupt size above 250 wraps around.
   */
  function MsgAppTotalActualSize(m: MsgApp): (r: u8)
    ensures m.size <= MessagesAreaLength - MsgAppHeaderSize ==> r == MsgAppHeaderSize + m.size
    ensures m.size <= MaxMessageLength ==> r == |MessageBytes(MessageOf(m))|
    ensures m.size > MessagesAreaLength - MsgAppHeaderSize ==> r == m.size + MsgAppHeaderSize - 0x100
  {
    AddU8(MsgAppHeaderSize, m.size)
  }

  /**
   * The checks addPktMsgApp and preparePktMsgAppFill share: an application
   * packet, a size within the data buffer, room in the area, and fewer than
   * 255 messages so far. (The source's extra "total above 255" check can
   * never fire once the size is within 240.)
   */
  predicate Admissible(p: PgePacket, size: nat)
  {
    PktIdOfCode(p.kind) == Some(Application)
    && size <= MaxMessageLength
    && AppLength(p) + MsgAppHeaderSize + size <= MessagesAreaLength
    && AppCount(p) < 0xFF
  }

  /** Once the area is full, no message of any size is admissible. */
  lemma FullAreaAdmitsNothing(p: PgePacket, size: nat)
    requires IsMessageAppAreaFull(p)
    ensures !Admissible(p, size)
  {
  }

  /**
   * addPktMsgApp, as written: after the checks it copies the message's
   * 5 + size bytes to the START of the area, whatever the area already
   * holds, then bumps the count and the length.
   */
  function AddPktMsgApp(p: PgePacket, m: MsgApp): (r: PktOutcome)
    ensures r.ok <==> Admissible(p, m.size)
    ensures !r.ok ==> r.pkt == p
    ensures r.ok ==> r.pkt.kind == p.kind && r.pkt.connHandleServerSide == p.connHandleServerSide
    ensures r.ok ==> AppCount(r.pkt) == AppCount(p) + 1
    ensures r.ok ==> AppLength(r.pkt) == AppLength(p) + MsgAppHeaderSize + m.size
    ensures r.ok ==> ReadMsgAt(AppArea(r.pkt), 0) == Some(MessageOf(m))
    ensures r.ok ==> AppArea(r.pkt)[MsgAppHeaderSize + m.size..] == AppArea(p)[MsgAppHeaderSize + m.size..]
  {
    if PktIdOfCode(p.kind) != Some(Application) then PktOutcome(false, p)
    else if m.size > MaxMessageLength then PktOutcome(false, p)
    else
      var total := MsgAppHeaderSize + m.size;
      if total > 0xFF then PktOutcome(false, p)
      else if AppLength(p) + total > MessagesAreaLength then PktOutcome(false, p)
      else if AppCount(p) == 0xFF then PktOutcome(false, p)
      else
        MsgAppBytesPrefix(m);
        var area := Overwrite(AppArea(p), 0, MsgAppBytes(m)[..total]);
        ReadMessageBytes(area, 0, MessageOf(m));
        PktOutcome(true, WithApp(p, AddU8(AppCount(p), 1), AddU8(AppLength(p), total), area))
  }

  /**
   * preparePktMsgAppFill, as written: after the same checks it sets the
   * count to 1, grows the length, writes id and size at the START of the
   * area and returns the area offset where the caller is to write the
   * payload (None stands for the null pointer).
   */
  function PreparePktMsgAppFill(p: PgePacket, id: u32, n: u8): (r: (Option<nat>, PgePacket))
    ensures r.0.Some? <==> Admissible(p, n)
    ensures r.0.None? ==> r.1 == p
    ensures r.0.Some? ==> r.0.value == MsgAppHeaderSize
    ensures r.0.Some? ==> r.1.kind == p.kind && r.1.connHandleServerSide == p.connHandleServerSide
    ensures r.0.Some? ==> AppCount(r.1) == 1
    ensures r.0.Some? ==> AppLength(r.1) == AppLength(p) + MsgAppHeaderSize + n
    ensures r.0.Some? ==> AppArea(r.1)[..MsgAppHeaderSize] == U32Bytes(id) + [n]
    ensures r.0.Some? ==> AppArea(r.1)[MsgAppHeaderSize..] == AppArea(p)[MsgAppHeaderSize..]
  {
    if PktIdOfCode(p.kind) != Some(Application) then (None, p)
    else if n > MaxMessageLength then (None, p)
    else
      var total := MsgAppHeaderSize + n;
      if total > 0xFF then (None, p)
      else if AppLength(p) + total > MessagesAreaLength then (None, p)
      else if AppCount(p) == 0xFF then (None, p)
      else
        var area := Overwrite(AppArea(p), 0, U32Bytes(id) + [n]);
        (Some(MsgAppHeaderSize), WithApp(p, 1, AddU8(AppLength(p), total), area))
  }

  /** The caller's write of `data` through the pointer a prepare returned. */
  function WriteAtSlot(p: PgePacket, slot: nat, data: seq<u8>): (r: PgePacket)
    requires slot + |data| <= MessagesAreaLength
    ensures AppCount(r) == AppCount(p) && AppLength(r) == AppLength(p)
    ensures AppArea(r) == Overwrite(AppArea(p), slot, data)
  {
    WithApp(p, AppCount(p), AppLength(p), Overwrite(AppArea(p), slot, data))
  }

  /**
   * The two ways of putting the first message into an empty application
   * packet agree: prepare-then-write builds the packet add builds.
   */
  lemma PrepareThenWriteMatchesAdd(p: PgePacket, m: MsgApp)
    requires AppCount(p) == 0
    requires Admissible(p, m.size)
    ensures PreparePktMsgAppFill(p, m.msgId, m.size).0 == Some(MsgAppHeaderSize)
    ensures WriteAtSlot(PreparePktMsgAppFill(p, m.msgId, m.size).1, MsgAppHeaderSize, m.data[..m.size])
            == AddPktMsgApp(p, m).pkt
  {
    var prep := PreparePktMsgAppFill(p, m.msgId, m.size).1;
    var written := WriteAtSlot(prep, MsgAppHeaderSize, m.data[..m.size]);
    var added := AddPktMsgApp(p, m).pkt;
    MsgAppBytesPrefix(m);
    assert AppArea(written) == AppArea(added);
    assert written.body == added.body;
  }

  // ---------------------------------------------------------------------
  // Reading the message area back

  /** The well-formed message stored at `off` in an area, if any. */
  function ReadMsgAt(area: seq<u8>, off: nat): (r: Option<AppMessage>)
    ensures r.Some? ==> off + MsgAppHeaderSize + |r.value.payload| <= |area|
    ensures r.Some? ==> area[off + 4] == |r.value.payload|
  {
    if off + MsgAppHeaderSize > |area| then None
    else
      var size := area[off + 4];
      if size > MaxMessageLength || off + MsgAppHeaderSize + size > |area| then None
      else Some(AppMessage(U32Of(area[off..off + 4]), area[off + 5..off + 5 + size]))
  }

  /** A message read from an area is exactly what its packed bytes say. */
  lemma ReadMsgAtBytes(area: seq<u8>, off: nat)
    requires ReadMsgAt(area, off).Some?
    ensures var m := ReadMsgAt(area, off).value;
            off + |MessageBytes(m)| <= |area| && area[off..off + |MessageBytes(m)|] == MessageBytes(m)
  {
    var m := ReadMsgAt(area, off).value;
    var e := off + MsgAppHeaderSize + |m.payload|;
    var hdr := area[off..off + 4];
    U32RoundTrip(hdr, 0);
    assert U32Bytes(m.id) == hdr;
    assert m.payload == area[off + 5..e];
    assert area[off..e] == hdr + [area[off + 4]] + area[off + 5..e];
  }

  /** A message's packed bytes read back as that message. */
  lemma ReadMessageBytes(area: seq<u8>, off: nat, m: AppMessage)
    requires off + |MessageBytes(m)| <= |area|
    requires area[off..off + |MessageBytes(m)|] == MessageBytes(m)
    ensures ReadMsgAt(area, off) == Some(m)
  {
    var b := MessageBytes(m);
    assert area[off + 4] == b[4] == |m.payload|;
    assert area[off..off + 4] == b[..4] == U32Bytes(m.id);
    U32RoundTrip(area[off..off + 4], m.id);
    assert area[off + 5..off + 5 + |m.payload|] == b[5..] == m.payload;
  }

  /** The first `k` messages stored back to back from offset `off`. */
  function DecodeFrom(area: seq<u8>, off: nat, k: nat): Option<seq<AppMessage>>
    decreases k
  {
    if k == 0 then Some([])
    else
      var head := ReadMsgAt(area, off);
      if head.None? then None
      else
        var rest := DecodeFrom(area, off + MsgAppHeaderSize + |head.value.payload|, k - 1);
        if rest.None? then None else Some([head.value] + rest.value)
  }

  /** The messages an application packet claims to hold. */
  function Messages(p: PgePacket): Option<seq<AppMessage>>
  {
    DecodeFrom(AppArea(p), 0, AppCount(p))
  }

  /** Messages packed back to back. */
  function EncodeAll(ms: seq<AppMessage>): (r: seq<u8>)
    ensures |r| == TotalSize(ms)
  {
    if |ms| == 0 then [] else MessageBytes(ms[0]) + EncodeAll(ms[1..])
  }

  /** The number of area bytes a list of messages occupies. */
  function TotalSize(ms: seq<AppMessage>): nat
  {
    if |ms| == 0 then 0 else MsgAppHeaderSize + |ms[0].payload| + TotalSize(ms[1..])
  }

  lemma {:induction false} EncodeAllAppend(ms: seq<AppMessage>, m: AppMessage)
    ensures EncodeAll(ms + [m]) == EncodeAll(ms) + MessageBytes(m)
    decreases |ms|
  {
    if |ms| == 0 {
      assert ms + [m] == [m];
    } else {
      assert (ms + [m])[1..] == ms[1..] + [m];
      EncodeAllAppend(ms[1..], m);
    }
  }

  /** Packed messages decode back to the same list: the area's round trip. */
  lemma {:induction false} DecodeEncodeAll(area: seq<u8>, off: nat, ms: seq<AppMessage>)
    requires off + TotalSize(ms) <= |area|
    requires area[off..off + TotalSize(ms)] == EncodeAll(ms)
    ensures DecodeFrom(area, off, |ms|) == Some(ms)
    decreases |ms|
  {
    if |ms| > 0 {
      var n := |MessageBytes(ms[0])|;
      SplitEncoded(area, off, ms);
      ReadMessageBytes(area, off, ms[0]);
      DecodeEncodeAll(area, off + n, ms[1..]);
      DecodeFromCons(area, off, |ms|, ms[0], ms[1..]);
      assert [ms[0]] + ms[1..] == ms;
    }
  }

  /** The packed list splits into its head's bytes and the tail's bytes. */
  lemma SplitEncoded(area: seq<u8>, off: nat, ms: seq<AppMessage>)
    requires |ms| > 0
    requires off + TotalSize(ms) <= |area|
    requires area[off..off + TotalSize(ms)] == EncodeAll(ms)
    ensures off + |MessageBytes(ms[0])| + TotalSize(ms[1..]) == off + TotalSize(ms)
    ensures area[off..off + |MessageBytes(ms[0])|] == MessageBytes(ms[0])
    ensures area[off + |MessageBytes(ms[0])|..off + TotalSize(ms)] == EncodeAll(ms[1..])
  {
    var n := |MessageBytes(ms[0])|;
    var e := EncodeAll(ms);
    assert e == MessageBytes(ms[0]) + EncodeAll(ms[1..]);
    assert area[off..off + n] == e[..n];
    assert area[off + n..off + TotalSize(ms)] == e[n..];
  }

  /** One step of the decoder over a readable head message. */
  lemma DecodeFromCons(area: seq<u8>, off: nat, k: nat, m: AppMessage, rest: seq<AppMessage>)
    requires k > 0
    requires ReadMsgAt(area, off) == Some(m)
    requires DecodeFrom(area, off + |MessageBytes(m)|, k - 1) == Some(rest)
    ensures DecodeFrom(area, off, k) == Some([m] + rest)
  {
  }

  /**
   * The size walk of sendToServer: from `off`, step over `k` messages by
   * their stored size bytes. None when a size byte lies outside the area
   * (the source would read past it).
   */
  function WalkSize(area: seq<u8>, off: nat, k: nat): (r: Option<nat>)
    ensures r.Some? ==> r.value >= off
    decreases k
  {
    if k == 0 then Some(off)
    else if off + 4 >= |area| then None
    else WalkSize(area, off + MsgAppHeaderSize + area[off + 4], k - 1)
  }

  /** A readable message's size byte is its payload length. */
  lemma ReadMsgAtSizeByte(area: seq<u8>, off: nat)
    requires ReadMsgAt(area, off).Some?
    ensures off + 4 < |area|
    ensures area[off + 4] == |ReadMsgAt(area, off).value.payload|
  {
  }

  /** One step of a successful decode: a readable head and a decodable rest. */
  lemma DecodeFromStep(area: seq<u8>, off: nat, k: nat, ms: seq<AppMessage>)
    requires k > 0 && DecodeFrom(area, off, k) == Some(ms)
    ensures |ms| > 0 && off + 4 < |area| && area[off + 4] == |ms[0].payload|
    ensures DecodeFrom(area, off + MsgAppHeaderSize + |ms[0].payload|, k - 1) == Some(ms[1..])
  {
    ReadMsgAtSizeByte(area, off);
  }

  /** One step of the size walk. */
  lemma WalkSizeStep(area: seq<u8>, off: nat, k: nat)
    requires k > 0 && off + 4 < |area|
    ensures WalkSize(area, off, k) == WalkSize(area, off + MsgAppHeaderSize + area[off + 4], k - 1)
  {
  }

  /** Over well-formed messages, the walk ends right after the last one. */
  lemma {:induction false} WalkSizeOfDecoded(area: seq<u8>, off: nat, k: nat, ms: seq<AppMessage>)
    requires DecodeFrom(area, off, k) == Some(ms)
    ensures |ms| == k
    ensures WalkSize(area, off, k) == Some(off + TotalSize(ms))
    decreases k
  {
    if k > 0 {
      DecodeFromStep(area, off, k, ms);
      var next := off + MsgAppHeaderSize + |ms[0].payload|;
      WalkSizeStep(area, off, k);
      WalkSizeOfDecoded(area, next, k - 1, ms[1..]);
      assert TotalSize(ms) == MsgAppHeaderSize + |ms[0].payload| + TotalSize(ms[1..]);
    }
  }
}

=== FILE: packing.dfy ===
/**
 * Packing several application messages into one packet.
 *
 * The engine's addPktMsgApp and preparePktMsgAppFill (module Packet) always
 * place the message at the start of the area, and the latter resets the
 * count to 1; the surrounding comments mark locating the next free slot as
 * unfinished. This module states what a packet holding a list of messages
 * means (Holds), shows two inputs on which the functions as written break
 * it, and gives appending versions that keep it, with the round trip
 * proved: what was appended is what the area decodes to.
 */
module Packing {
  import opened Bytes
  import opened Packet

  /** `p` is an application packet whose area holds exactly `ms`, packed. */
  predicate Holds(p: PgePacket, ms: seq<AppMessage>)
  {
    PktIdOfCode(p.kind) == Some(Application)
    && AppCount(p) == |ms|
    && AppLength(p) == TotalSize(ms)
    && AppArea(p)[..TotalSize(ms)] == EncodeAll(ms)
  }

  /** A packet that holds a list decodes to it, and the send-size walk ends at its length. */
  lemma HoldsDecodes(p: PgePacket, ms: seq<AppMessage>)
    requires Holds(p, ms)
    ensures Messages(p) == Some(ms)
    ensures WalkSize(AppArea(p), 0, AppCount(p)) == Some(AppLength(p))
  {
    DecodeEncodeAll(AppArea(p), 0, ms);
    WalkSizeOfDecoded(AppArea(p), 0, AppCount(p), ms);
  }

  /** A freshly initialised application packet holds no messages. */
  lemma InitHoldsNothing(p: PgePacket, handle: ConnHandle, fill: AutoFill)
    ensures Holds(InitPktMsgApp(p, handle, fill), [])
  {
  }

  /**
   * Corrected addPktMsgApp: the same checks, but the message goes to the
   * first free byte of the area (offset = current length).
   */
  function AppendPktMsgApp(p: PgePacket, m: MsgApp): (r: PktOutcome)
    ensures r.ok <==> Admissible(p, m.size)
    ensures !r.ok ==> r.pkt == p
    ensures r.ok ==> r.pkt.kind == p.kind && r.pkt.connHandleServerSide == p.connHandleServerSide
    ensures r.ok ==> AppCount(r.pkt) == AppCount(p) + 1
    ensures r.ok ==> AppLength(r.pkt) == AppLength(p) + MsgAppHeaderSize + m.size
    ensures r.ok ==> AppArea(r.pkt)[..AppLength(p)] == AppArea(p)[..AppLength(p)]
    ensures r.ok ==> ReadMsgAt(AppArea(r.pkt), AppLength(p)) == Some(MessageOf(m))
  {
    if !Admissible(p, m.size) then PktOutcome(false, p)
    else
      var total := MsgAppHeaderSize + m.size;
      MsgAppBytesPrefix(m);
      var area := Overwrite(AppArea(p), AppLength(p), MsgAppBytes(m)[..total]);
      ReadMessageBytes(area, AppLength(p), MessageOf(m));
      PktOutcome(true, WithApp(p, AddU8(AppCount(p), 1), AddU8(AppLength(p), total), area))
  }

  /** Appending keeps every earlier message and adds the new one last. */
  lemma AppendKeepsMessages(p: PgePacket, ms: seq<AppMessage>, m: MsgApp)
    requires Holds(p, ms)
    requires Admissible(p, m.size)
    ensures Holds(AppendPktMsgApp(p, m).pkt, ms + [MessageOf(m)])
    ensures Messages(AppendPktMsgApp(p, m).pkt) == Some(ms + [MessageOf(m)])
  {
    var r := AppendPktMsgApp(p, m).pkt;
    var x := MessageOf(m);
    var len := TotalSize(ms);
    EncodeAllAppend(ms, x);
    assert |EncodeAll(ms + [x])| == len + |MessageBytes(x)|;
    MsgAppBytesPrefix(m);
    assert AppArea(r)[..len] == EncodeAll(ms);
    assert AppArea(r)[len..len + |MessageBytes(x)|] == MessageBytes(x);
    assert AppArea(r)[..len + |MessageBytes(x)|] == EncodeAll(ms) + MessageBytes(x);
    HoldsDecodes(r, ms + [x]);
  }

  /**
   * Corrected preparePktMsgAppFill: reserves the next free slot, counts the
   * message, and returns the offset of its payload.
   */
  function PreparePktMsgAppAppend(p: PgePacket, id: u32, n: u8): (r: (Option<nat>, PgePacket))
    ensures r.0.Some? <==> Admissible(p, n)
    ensures r.0.None? ==> r.1 == p
    ensures r.0.Some? ==> r.0.value == AppLength(p) + MsgAppHeaderSize
    ensures r.0.Some? ==> r.0.value + n <= MessagesAreaLength
    ensures r.0.Some? ==> AppCount(r.1) == AppCount(p) + 1
    ensures r.0.Some? ==> AppLength(r.1) == AppLength(p) + MsgAppHeaderSize + n
    ensures r.0.Some? ==> AppArea(r.1)[..AppLength(p)] == AppArea(p)[..AppLength(p)]
  {
    if !Admissible(p, n) then (None, p)
    else
      var area := Overwrite(AppArea(p), AppLength(p), U32Bytes(id) + [n]);
      (Some(AppLength(p) + MsgAppHeaderSize),
       WithApp(p, AddU8(AppCount(p), 1), AddU8(AppLength(p), MsgAppHeaderSize + n), area))
  }

  /** Corrected prepare followed by the caller's write is the corrected add. */
  lemma PrepareAppendThenWrite(p: PgePacket, m: MsgApp)
    requires Admissible(p, m.size)
    ensures var (slot, q) := PreparePktMsgAppAppend(p, m.msgId, m.size);
            slot.Some? && WriteAtSlot(q, slot.value, m.data[..m.size]) == AppendPktMsgApp(p, m).pkt
  {
    var (slot, q) := PreparePktMsgAppAppend(p, m.msgId, m.size);
    var written := WriteAtSlot(q, slot.value, m.data[..m.size]);
    var appended := AppendPktMsgApp(p, m).pkt;
    MsgAppBytesPrefix(m);
    assert AppArea(written) == AppArea(appended);
    assert written.body == appended.body;
  }

  // ---------------------------------------------------------------------
  // Counterexamples for the functions as written

  function Blank(): PgePacket { RawPacket(0, 0, Zeros(BodySize)) }

  function OneByteMsg(id: u32, b: u8): MsgApp { MsgApp(id, 1, [b] + Zeros(MaxMessageLength - 1)) }

  /** Two adds, as written: the second message overwrites the first. */
  lemma AddTwiceLosesFirstMessage()
    ensures var p0 := InitPktMsgApp(Blank(), ServerConnHandle, ZeroFill);
            var a := OneByteMsg(1, 7);
            var b := OneByteMsg(2, 9);
            var p1 := AddPktMsgApp(p0, a);
            var p2 := AddPktMsgApp(p1.pkt, b);
            p1.ok && p2.ok && AppCount(p2.pkt) == 2
            && (Messages(p2.pkt).Some? ==> Messages(p2.pkt).value[0] == MessageOf(b))
            && Messages(p2.pkt) != Some([MessageOf(a), MessageOf(b)])
  {
    var p0 := InitPktMsgApp(Blank(), ServerConnHandle, ZeroFill);
    var a := OneByteMsg(1, 7);
    var b := OneByteMsg(2, 9);
    var p1 := AddPktMsgApp(p0, a);
    var p2 := AddPktMsgApp(p1.pkt, b);
    assert ReadMsgAt(AppArea(p2.pkt), 0) == Some(MessageOf(b));
    assert MessageOf(a).id != MessageOf(b).id;
  }

  /** Any two messages that fit, appended with the corrected add, both survive. */
  lemma AppendTwiceKeepsBoth(p: PgePacket, handle: ConnHandle, fill: AutoFill, a: MsgApp, b: MsgApp)
    requires a.size <= MaxMessageLength && b.size <= MaxMessageLength
    requires 2 * MsgAppHeaderSize + a.size + b.size <= MessagesAreaLength
    ensures var p0 := InitPktMsgApp(p, handle, fill);
            var p1 := AppendPktMsgApp(p0, a);
            var p2 := AppendPktMsgApp(p1.pkt, b);
            p1.ok && p2.ok && Messages(p2.pkt) == Some([MessageOf(a), MessageOf(b)])
  {
    var p0 := InitPktMsgApp(p, handle, fill);
    InitHoldsNothing(p, handle, fill);
    AppendKeepsMessages(p0, [], a);
    var p1 := AppendPktMsgApp(p0, a);
    assert [] + [MessageOf(a)] == [MessageOf(a)];
    assert p1.ok && Holds(p1.pkt, [MessageOf(a)]);
    AppendKeepsMessages(p1.pkt, [MessageOf(a)], b);
    var p2 := AppendPktMsgApp(p1.pkt, b);
    assert Messages(p2.pkt) == Some([MessageOf(a)] + [MessageOf(b)]);
    assert [MessageOf(a)] + [MessageOf(b)] == [MessageOf(a), MessageOf(b)];
  }

  /**
   * Two prepares, as written: two slots are reserved in the length but the
   * count says one, so no list of messages describes the packet.
   */
  lemma PrepareTwiceCountsOne()
    ensures var p0 := InitPktMsgApp(Blank(), ServerConnHandle, ZeroFill);
            var r1 := PreparePktMsgAppFill(p0, 1, 0);
            var r2 := PreparePktMsgAppFill(r1.1, 2, 0);
            r1.0.Some? && r2.0.Some?
            && AppCount(r2.1) == 1 && AppLength(r2.1) == 2 * MsgAppHeaderSize
            && forall ms: seq<AppMessage> :: !Holds(r2.1, ms)
  {
    var p0 := InitPktMsgApp(Blank(), ServerConnHandle, ZeroFill);
    var r1 := PreparePktMsgAppFill(p0, 1, 0);
    var r2 := PreparePktMsgAppFill(r1.1, 2, 0);
    assert AppArea(r2.1)[4] == 0;
  }

  /** The same two reservations with the corrected prepare are both counted. */
  lemma PrepareAppendTwiceCountsTwo()
    ensures var p0 := InitPktMsgApp(Blank(), ServerConnHandle, ZeroFill);
            var r1 := PreparePktMsgAppAppend(p0, 1, 0);
            var r2 := PreparePktMsgAppAppend(r1.1, 2, 0);
            r1.0.Some? && r2.0.Some?
            && Holds(r2.1, [AppMessage(1, []), AppMessage(2, [])])
  {
    var p0 := InitPktMsgApp(Blank(), ServerConnHandle, ZeroFill);
    var m1 := MsgApp(1, 0, Zeros(MaxMessageLength));
    var m2 := MsgApp(2, 0, Zeros(MaxMessageLength));
    InitHoldsNothing(Blank(), ServerConnHandle, ZeroFill);
    PrepareAppendThenWrite(p0, m1);
    AppendKeepsMessages(p0, [], m1);
    var r1 := PreparePktMsgAppAppend(p0, 1, 0);
    assert WriteAtSlot(r1.1, r1.0.value, []) == r1.1;
    PrepareAppendThenWrite(r1.1, m2);
    AppendKeepsMessages(r1.1, [MessageOf(m1)], m2);
    var r2 := PreparePktMsgAppAppend(r1.1, 2, 0);
    assert WriteAtSlot(r2.1, r2.0.value, []) == r2.1;
    assert MessageOf(m1) == AppMessage(1, []) && MessageOf(m2) == AppMessage(2, []);
  }
}

=== FILE: registry.dfy ===
/**
 * The server's client registry: an ordered map from connection handle to
 * the client's nick, kept as a list of entries in strictly increasing
 * handle order, which is also the order the server iterates it in.
 */
module Registry {
  import opened Bytes
  import opened Transport

  datatype Entry = Entry(conn: ConnHandle, nick: string)

  predicate Ordered(reg: seq<Entry>)
  {
    forall i, j :: 0 <= i < j < |reg| ==> reg[i].conn < reg[j].conn
  }

  type Registry = reg: seq<Entry> | Ordered(reg) witness []

  function Keys(reg: seq<Entry>): set<ConnHandle>
  {
    if |reg| == 0 then {} else {reg[0].conn} + Keys(reg[1..])
  }

  function Nicks(reg: seq<Entry>): set<string>
  {
    if |reg| == 0 then {} else {reg[0].nick} + Nicks(reg[1..])
  }

  lemma {:induction false} KeysIndex(reg: seq<Entry>, k: ConnHandle)
    ensures k in Keys(reg) <==> exists i :: 0 <= i < |reg| && reg[i].conn == k
    decreases |reg|
  {
    if |reg| > 0 {
      KeysIndex(reg[1..], k);
      if exists i :: 0 <= i < |reg| && reg[i].conn == k {
        var i :| 0 <= i < |reg| && reg[i].conn == k;
        if i > 0 { assert reg[1..][i - 1].conn == k; }
      }
      if exists i :: 0 <= i < |reg[1..]| && reg[1..][i].conn == k {
        var i :| 0 <= i < |reg[1..]| && reg[1..][i].conn == k;
        assert reg[i + 1].conn == k;
      }
    }
  }

  lemma {:induction false} NicksIndex(reg: seq<Entry>, n: string)
    ensures n in Nicks(reg) <==> exists i :: 0 <= i < |reg| && reg[i].nick == n
    decreases |reg|
  {
    if |reg| > 0 {
      NicksIndex(reg[1..], n);
      if exists i :: 0 <= i < |reg| && reg[i].nick == n {
        var i :| 0 <= i < |reg| && reg[i].nick == n;
        if i > 0 { assert reg[1..][i - 1].nick == n; }
      }
      if exists i :: 0 <= i < |reg[1..]| && reg[1..][i].nick == n {
        var i :| 0 <= i < |reg[1..]| && reg[1..][i].nick == n;
        assert reg[i + 1].nick == n;
      }
    }
  }

  /** The tail of an ordered registry is ordered and lies above its head. */
  lemma OrderedTail(reg: seq<Entry>)
    requires Ordered(reg) && |reg| > 0
    ensures Ordered(reg[1..])
    ensures forall k :: k in Keys(reg[1..]) ==> reg[0].conn < k
  {
    forall k | k in Keys(reg[1..]) ensures reg[0].conn < k {
      KeysIndex(reg[1..], k);
      var i :| 0 <= i < |reg[1..]| && reg[1..][i].conn == k;
      assert reg[i + 1].conn == k;
    }
  }

  /** An entry below every key of an ordered registry can go in front. */
  lemma OrderedCons(e: Entry, tail: seq<Entry>)
    requires Ordered(tail)
    requires forall k :: k in Keys(tail) ==> e.conn < k
    ensures Ordered([e] + tail)
  {
    var r := [e] + tail;
    forall i, j | 0 <= i < j < |r| ensures r[i].conn < r[j].conn {
      if i == 0 {
        assert r[j] == tail[j - 1];
        KeysIndex(tail, tail[j - 1].conn);
      } else {
        assert r[i] == tail[i - 1] && r[j] == tail[j - 1];
      }
    }
  }

  /** The nick registered for a handle, if the handle is registered. */
  function Lookup(reg: seq<Entry>, h: ConnHandle): (r: Option<string>)
    ensures r.Some? <==> h in Keys(reg)
    ensures r.Some? ==> r.value in Nicks(reg)
  {
    if |reg| == 0 then None
    else if reg[0].conn == h then Some(reg[0].nick)
    else Lookup(reg[1..], h)
  }

  /**
   * `m_mapClients[h].m_sNick = nick`: creates the entry if absent,
   * otherwise replaces its nick; every other entry stays.
   */
  function Assign(reg: Registry, h: ConnHandle, nick: string): (r: Registry)
    ensures Keys(r) == Keys(reg) + {h}
    ensures Lookup(r, h) == Some(nick)
    ensures forall k :: k != h ==> Lookup(r, k) == Lookup(reg, k)
    ensures |r| == if h in Keys(reg) then |reg| else |reg| + 1
    decreases |reg|
  {
    if |reg| == 0 then [Entry(h, nick)]
    else if reg[0].conn == h then
      OrderedTail(reg);
      OrderedCons(Entry(h, nick), reg[1..]);
      [Entry(h, nick)] + reg[1..]
    else if h < reg[0].conn then
      OrderedTail(reg);
      OrderedCons(Entry(h, nick), reg);
      [Entry(h, nick)] + reg
    else
      OrderedTail(reg);
      var tail := Assign(reg[1..], h, nick);
      OrderedCons(reg[0], tail);
      [reg[0]] + tail
  }

  /** `m_mapClients.erase(h)`: the entry for `h`, if any, goes; nothing else changes. */
  function Erase(reg: Registry, h: ConnHandle): (r: Registry)
    ensures Keys(r) == Keys(reg) - {h}
    ensures Lookup(r, h).None?
    ensures forall k :: k != h ==> Lookup(r, k) == Lookup(reg, k)
    ensures Nicks(r) <= Nicks(reg)
    ensures |r| == if h in Keys(reg) then |reg| - 1 else |reg|
    decreases |reg|
  {
    if |reg| == 0 then []
    else if reg[0].conn == h then
      OrderedTail(reg);
      reg[1..]
    else
      OrderedTail(reg);
      var tail := Erase(reg[1..], h);
      OrderedCons(reg[0], tail);
      [reg[0]] + tail
  }

  /** Registering a new handle and then erasing it gives back the same registry. */
  lemma {:induction false} EraseAssignNew(reg: Registry, h: ConnHandle, nick: string)
    requires h !in Keys(reg)
    ensures Erase(Assign(reg, h, nick), h) == reg
    decreases |reg|
  {
    if |reg| > 0 {
      OrderedTail(reg);
      if h < reg[0].conn {
        assert ([Entry(h, nick)] + reg)[1..] == reg;
      } else {
        var tail := Assign(reg[1..], h, nick);
        var a := [reg[0]] + tail;
        assert Assign(reg, h, nick) == a;
        assert a[1..] == tail;
        EraseAssignNew(reg[1..], h, nick);
        assert Erase(a, h) == [reg[0]] + Erase(tail, h);
        assert [reg[0]] + reg[1..] == reg;
      }
    }
  }

  /**
   * SendPacketToAllClients' loop: the handles a broadcast goes to, in
   * registry order: every registered handle except `except`.
   */
  function Recipients(reg: Registry, except: ConnHandle): (r: seq<ConnHandle>)
    ensures forall k :: k in r <==> k in Keys(reg) && k != except
    ensures forall i, j :: 0 <= i < j < |r| ==> r[i] < r[j]
    decreases |reg|
  {
    if |reg| == 0 then []
    else
      OrderedTail(reg);
      var tail := Recipients(reg[1..], except);
      if reg[0].conn == except then tail
      else
        var r := [reg[0].conn] + tail;
        assert forall j :: 0 < j < |r| ==> r[j] == tail[j - 1] && r[j] in tail;
        r
  }

  /** A broadcast reaches each registered handle other than `except` exactly once. */
  lemma RecipientsExactlyOnce(reg: Registry, except: ConnHandle, k: ConnHandle)
    ensures |set i | 0 <= i < |Recipients(reg, except)| && Recipients(reg, except)[i] == k|
            == if k in Keys(reg) && k != except then 1 else 0
  {
    var r := Recipients(reg, except);
    var hits := set i | 0 <= i < |r| && r[i] == k;
    if k in Keys(reg) && k != except {
      var i0 :| 0 <= i0 < |r| && r[i0] == k;
      assert hits == {i0};
    } else {
      assert hits == {};
    }
  }

  /** All registered clients go by different nicks. */
  predicate UniqueNicks(reg: seq<Entry>)
  {
    forall i, j :: 0 <= i < j < |reg| ==> reg[i].nick != reg[j].nick
  }

  lemma UniqueTail(reg: seq<Entry>)
    requires |reg| > 0 && UniqueNicks(reg)
    ensures UniqueNicks(reg[1..])
    ensures reg[0].nick !in Nicks(reg[1..])
  {
    NicksIndex(reg[1..], reg[0].nick);
    forall i | 0 <= i < |reg[1..]| ensures reg[1..][i].nick != reg[0].nick {
      assert reg[1..][i] == reg[i + 1];
    }
  }

  lemma UniqueCons(e: Entry, tail: seq<Entry>)
    requires UniqueNicks(tail) && e.nick !in Nicks(tail)
    ensures UniqueNicks([e] + tail)
  {
    var r := [e] + tail;
    forall i, j | 0 <= i < j < |r| ensures r[i].nick != r[j].nick {
      if i == 0 {
        assert r[j] == tail[j - 1];
        NicksIndex(tail, e.nick);
      } else {
        assert r[i] == tail[i - 1] && r[j] == tail[j - 1];
      }
    }
  }

  /** Registering a handle under a nick nobody has keeps all nicks distinct. */
  lemma {:induction false} AssignFreshKeepsNicksUnique(reg: Registry, h: ConnHandle, nick: string)
    requires UniqueNicks(reg) && nick !in Nicks(reg)
    ensures UniqueNicks(Assign(reg, h, nick))
    ensures Nicks(Assign(reg, h, nick)) <= Nicks(reg) + {nick}
    decreases |reg|
  {
    if |reg| > 0 {
      UniqueTail(reg);
      OrderedTail(reg);
      if reg[0].conn == h {
        UniqueCons(Entry(h, nick), reg[1..]);
      } else if h < reg[0].conn {
        UniqueCons(Entry(h, nick), reg);
      } else {
        var tail := Assign(reg[1..], h, nick);
        AssignFreshKeepsNicksUnique(reg[1..], h, nick);
        UniqueCons(reg[0], tail);
      }
    }
  }

  /** Erasing never makes two nicks equal. */
  lemma {:induction false} EraseKeepsNicksUnique(reg: Registry, h: ConnHandle)
    requires UniqueNicks(reg)
    ensures UniqueNicks(Erase(reg, h))
    decreases |reg|
  {
    if |reg| > 0 {
      UniqueTail(reg);
      OrderedTail(reg);
      if reg[0].conn != h {
        var tail := Erase(reg[1..], h);
        EraseKeepsNicksUnique(reg[1..], h);
        UniqueCons(reg[0], tail);
      }
    }
  }
}

=== FILE: renderer.dfy ===
/**
 * Scheduling of the fixed-pipeline hardware renderer
 * (PRRERendererHWfixedPipe): initialisation guards, which objects each
 * pass hands to drawing and in what order, the frame counters that pace
 * occluder updates and statistics, the statistics pass, and the
 * render-hint switch that force-finishes pending occlusion queries.
 *
 * Drawing itself is recorded as a trace of draw calls; OpenGL state,
 * projection set-up and the UI manager are not modelled. The objects of
 * the object manager are a list of optional entries (the manager may hold
 * null slots), each with its material's "really blending" verdict.
 */
module Renderer {
  import opened Bytes
  import opened Containers
  import opened PureObject

  const RenderPathLegacy: nat := 0
  const RenderPathDistanceOrdered: nat := 1
  const RenderPathOcclusionCulled: nat := 2
  const OQMethodSync: nat := 0
  const OQMethodAsync: nat := 1

  /** Occluder states are re-evaluated every this many frames. */
  const OccluderUpdatePeriod: nat := 100
  /** The occlusion-culled path recounts statistics and restarts its counter every this many frames. */
  const StatsPeriod: nat := 1000

  /** The render hints, already split into their bit fields. */
  datatype Hints = Hints(
    renderPath: nat,
    oqMethod: nat,
    drawBoundingBoxes: bool,
    drawIfQueryPending: bool,
    orderByDistance: bool)

  datatype Pass = ZOnly | StartOcclusionQuery | Normal | BoundingBoxDebug

  datatype DrawCall = DrawCall(id: ObjId, pass: Pass)

  /** An entry of the object manager: the object and whether its material really blends. */
  datatype Managed = Managed(obj: Object3D, blended: bool)

  type Slots = seq<Option<Managed>>

  datatype Stats = Stats(total: nat, visible: nat, occluders: nat, tested: nat, occluded: nat, nonOccluded: nat)

  datatype Renderer = Renderer(
    initialized: bool,
    hints: Hints,
    stencilBits: nat,
    orderedFrames: u32,
    oqFrames: u32,
    stats: Stats)

  // ---------------------------------------------------------------------
  // Initialisation

  /** What one round of window, display and OpenGL set-up reports. */
  datatype Attempt = Attempt(ok: bool, advancedFormats: bool)

  /**
   * initialize: an initialised renderer answers 1 and stays as it is.
   * Otherwise a non-zero stencil request becomes 8 bits, and set-up runs
   * once, or twice when multisampling is requested and advanced pixel
   * formats turn out to be available. Any failed round shuts down and
   * answers 1; success answers 0.
   */
  method Initialize(r: Renderer, stencil: int, samples: int, attempts: seq<Attempt>)
    returns (code: nat, r2: Renderer, rounds: nat)
    requires |attempts| >= 2
    ensures r.initialized ==> code == 1 && r2 == r && rounds == 0
    ensures !r.initialized ==> 1 <= rounds <= 2
    ensures !r.initialized ==> (code == 0 <==> r2.initialized)
    ensures !r.initialized ==> (code == 0 <==> forall i :: 0 <= i < rounds ==> attempts[i].ok)
    ensures code == 1 || code == 0
    ensures rounds == 2 ==> samples > 0 && attempts[0].ok && attempts[0].advancedFormats
    ensures !r.initialized && code == 0 && rounds == 1 ==> !(samples > 0 && attempts[0].advancedFormats)
    ensures r2.initialized && !r.initialized ==> r2.stencilBits == (if stencil != 0 then 8 else 0)
    ensures r2.hints == r.hints
  {
    if r.initialized {
      return 1, r, 0;
    }
    var st := if stencil != 0 then 8 else 0;
    rounds := 0;
    var requested := false;
    var more := true;
    while more
      invariant rounds <= 2
      invariant more ==> rounds <= 1 && (requested <==> rounds == 1)
      invariant !more ==> 1 <= rounds
      invariant forall i :: 0 <= i < rounds ==> attempts[i].ok
      invariant rounds >= 1 ==> (requested <==> samples > 0 && attempts[0].advancedFormats)
      invariant rounds == 2 ==> requested && !more
      invariant !more && rounds == 1 ==> !requested
      decreases 2 - rounds
    {
      var a := attempts[rounds];
      rounds := rounds + 1;
      if !a.ok {
        return 1, r.(initialized := false), rounds;
      }
      if a.advancedFormats && samples > 0 && !requested {
        requested := true;
      } else {
        more := false;
      }
    }
    return 0, r.(initialized := true, stencilBits := st), rounds;
  }

  /**
   * Initialising twice: once the first call succeeds, the second answers 1,
   * runs no set-up round and leaves the renderer as the first call left it.
   */
  method InitializeTwice(r: Renderer, stencil: int, samples: int, attempts: seq<Attempt>, again: seq<Attempt>)
    returns (first: nat, second: nat, r3: Renderer)
    requires |attempts| >= 2 && |again| >= 2
    ensures first == 0 ==> second == 1 && r3.initialized
    ensures first == 0 && !r.initialized ==> r3.stencilBits == (if stencil != 0 then 8 else 0)
    ensures r3.hints == r.hints
  {
    var r2, rounds, rounds2;
    first, r2, rounds := Initialize(r, stencil, samples, attempts);
    second, r3, rounds2 := Initialize(r2, stencil, samples, again);
  }

  // ---------------------------------------------------------------------
  // Selecting objects from the manager

  /** The ids of the non-null entries satisfying `keep`, in manager order. */
  function Pick(objs: Slots, keep: Managed -> bool): seq<ObjId>
  {
    if |objs| == 0 then []
    else (if objs[0].Some? && keep(objs[0].value) then [objs[0].value.obj.id] else [])
         + Pick(objs[1..], keep)
  }

  lemma {:induction false} PickAppend(objs: Slots, e: Option<Managed>, keep: Managed -> bool)
    ensures Pick(objs + [e], keep) == Pick(objs, keep) + (if e.Some? && keep(e.value) then [e.value.obj.id] else [])
    decreases |objs|
  {
    if |objs| == 0 {
      assert [e][1..] == [];
    } else {
      assert (objs + [e])[1..] == objs[1..] + [e];
      PickAppend(objs[1..], e, keep);
    }
  }

  /** Every manager entry's object has an id of its own. */
  predicate UniqueIds(objs: Slots)
  {
    forall i, j :: 0 <= i < j < |objs| && objs[i].Some? && objs[j].Some?
      ==> objs[i].value.obj.id != objs[j].value.obj.id
  }

  /** With unique ids, a picked list names an entry once if it is kept and never otherwise. */
  lemma {:induction false} PickCount(objs: Slots, keep: Managed -> bool, i: nat)
    requires UniqueIds(objs) && i < |objs| && objs[i].Some?
    ensures multiset(Pick(objs, keep))[objs[i].value.obj.id] == if keep(objs[i].value) then 1 else 0
    decreases |objs|
  {
    var id := objs[i].value.obj.id;
    if i == 0 {
      PickAbsent(objs[1..], keep, id);
    } else {
      assert objs[1..][i - 1] == objs[i];
      PickCount(objs[1..], keep, i - 1);
      assert objs[0].Some? ==> objs[0].value.obj.id != id;
    }
  }

  lemma {:induction false} PickAbsent(objs: Slots, keep: Managed -> bool, id: ObjId)
    requires forall j :: 0 <= j < |objs| && objs[j].Some? ==> objs[j].value.obj.id != id
    ensures multiset(Pick(objs, keep))[id] == 0
    decreases |objs|
  {
    if |objs| > 0 {
      assert forall j :: 0 <= j < |objs[1..]| ==> objs[1..][j] == objs[j + 1];
      PickAbsent(objs[1..], keep, id);
    }
  }

  function Calls(ids: seq<ObjId>, pass: Pass): (r: seq<DrawCall>)
    ensures |r| == |ids|
    ensures forall k :: 0 <= k < |ids| ==> r[k] == DrawCall(ids[k], pass)
  {
    if |ids| == 0 then [] else [DrawCall(ids[0], pass)] + Calls(ids[1..], pass)
  }

  lemma CallsCount(ids: seq<ObjId>, pass: Pass, id: ObjId)
    ensures multiset(Calls(ids, pass))[DrawCall(id, pass)] == multiset(ids)[id]
  {
    if |ids| > 0 {
      assert ids == [ids[0]] + ids[1..];
      CallsCount(ids[1..], pass, id);
    }
  }

  lemma CallsAppend(a: seq<ObjId>, b: seq<ObjId>, pass: Pass)
    ensures Calls(a + b, pass) == Calls(a, pass) + Calls(b, pass)
  {
  }

  // ---------------------------------------------------------------------
  // The passes

  /** The legacy 3D pass takes visible, non-sticked objects of the given blending. */
  function Legacy3D(blended: bool): Managed -> bool
  {
    (m: Managed) => m.obj.props.visible && !m.obj.props.sticked && m.blended == blended
  }

  /** The 2D pass takes the visible sticked objects. */
  function Sticked2D(): Managed -> bool
  {
    (m: Managed) => m.obj.props.visible && m.obj.props.sticked
  }

  /** One sweep of the legacy pass: the visible, non-sticked objects of one blending, in manager order. */
  method LegacySweep(objs: Slots, blended: bool) returns (calls: seq<DrawCall>)
    ensures calls == Calls(Pick(objs, Legacy3D(blended)), Normal)
  {
    calls := [];
    var i := 0;
    while i < |objs|
      invariant 0 <= i <= |objs|
      invariant calls == Calls(Pick(objs[..i], Legacy3D(blended)), Normal)
    {
      assert objs[..i + 1] == objs[..i] + [objs[i]];
      PickAppend(objs[..i], objs[i], Legacy3D(blended));
      CallsAppend(Pick(objs[..i], Legacy3D(blended)),
                  if objs[i].Some? && Legacy3D(blended)(objs[i].value) then [objs[i].value.obj.id] else [], Normal);
      if objs[i].Some? && objs[i].value.obj.props.visible && !objs[i].value.obj.props.sticked
         && objs[i].value.blended == blended {
        calls := calls + [DrawCall(objs[i].value.obj.id, Normal)];
      }
      i := i + 1;
    }
    assert objs[..|objs|] == objs;
  }

  /**
   * Draw3DObjects_Legacy: two sweeps over the manager, the non-blended
   * objects first and the blended ones second.
   */
  method Draw3DLegacy(objs: Slots) returns (calls: seq<DrawCall>)
    ensures calls == Calls(Pick(objs, Legacy3D(false)) + Pick(objs, Legacy3D(true)), Normal)
  {
    var first := LegacySweep(objs, false);
    var second := LegacySweep(objs, true);
    CallsAppend(Pick(objs, Legacy3D(false)), Pick(objs, Legacy3D(true)), Normal);
    calls := first + second;
  }

  /**
   * The legacy pass draws each visible, non-sticked object exactly once
   * and nothing else.
   */
  lemma LegacyDrawsEachOnce(objs: Slots, i: nat)
    requires UniqueIds(objs) && i < |objs| && objs[i].Some?
    ensures var m := objs[i].value;
            multiset(Calls(Pick(objs, Legacy3D(false)) + Pick(objs, Legacy3D(true)), Normal))[DrawCall(m.obj.id, Normal)]
            == if m.obj.props.visible && !m.obj.props.sticked then 1 else 0
  {
    var m := objs[i].value;
    PickCount(objs, Legacy3D(false), i);
    PickCount(objs, Legacy3D(true), i);
    CallsCount(Pick(objs, Legacy3D(false)) + Pick(objs, Legacy3D(true)), Normal, m.obj.id);
  }

  /** In the legacy pass no blended object is drawn before a non-blended one. */
  lemma LegacyOpaqueFirst(objs: Slots, j: nat, k: nat)
    requires UniqueIds(objs) && j < |objs| && k < |objs| && objs[j].Some? && objs[k].Some?
    requires !objs[j].value.blended && objs[k].value.blended
    ensures var a := Pick(objs, Legacy3D(false));
            var b := Pick(objs, Legacy3D(true));
            objs[j].value.obj.id !in b && objs[k].value.obj.id !in a
  {
    PickCount(objs, Legacy3D(true), j);
    PickCount(objs, Legacy3D(false), k);
  }

  /** Draw2DObjects: one sweep over the manager taking the visible sticked objects. */
  method Draw2D(objs: Slots) returns (calls: seq<DrawCall>)
    ensures calls == Calls(Pick(objs, Sticked2D()), Normal)
  {
    calls := [];
    var i := 0;
    while i < |objs|
      invariant 0 <= i <= |objs|
      invariant calls == Calls(Pick(objs[..i], Sticked2D()), Normal)
    {
      assert objs[..i + 1] == objs[..i] + [objs[i]];
      PickAppend(objs[..i], objs[i], Sticked2D());
      CallsAppend(Pick(objs[..i], Sticked2D()),
                  if objs[i].Some? && Sticked2D()(objs[i].value) then [objs[i].value.obj.id] else [], Normal);
      if objs[i].Some? && objs[i].value.obj.props.visible && objs[i].value.obj.props.sticked {
        calls := calls + [DrawCall(objs[i].value.obj.id, Normal)];
      }
      i := i + 1;
    }
    assert objs[..|objs|] == objs;
  }

  /** The 2D pass draws each visible sticked object exactly once and nothing else. */
  lemma Draw2DEachOnce(objs: Slots, i: nat)
    requires UniqueIds(objs) && i < |objs| && objs[i].Some?
    ensures var m := objs[i].value;
            multiset(Calls(Pick(objs, Sticked2D()), Normal))[DrawCall(m.obj.id, Normal)]
            == if m.obj.props.visible && m.obj.props.sticked then 1 else 0
  {
    PickCount(objs, Sticked2D(), i);
    CallsCount(Pick(objs, Sticked2D()), Normal, objs[i].value.obj.id);
  }

  /** The 3D occludees: opaque ones, then blended ones. */
  function Occludees3D(c: Containers): seq<ObjId>
  {
    c.occludeesOpaque + c.occludeesBlended
  }

  /**
   * Draw3DObjects_Ordered_Containers: occluders, then opaque occludees,
   * then blended occludees, each list in its (possibly distance-sorted)
   * order.
   */
  function OrderedPass(c: Containers): (calls: seq<DrawCall>)
    ensures |calls| == |c.occluders| + |Occludees3D(c)|
    ensures forall k :: 0 <= k < |c.occluders| ==> calls[k] == DrawCall(c.occluders[k], Normal)
    ensures forall k :: 0 <= k < |Occludees3D(c)| ==>
              calls[|c.occluders| + k] == DrawCall(Occludees3D(c)[k], Normal)
  {
    Calls(c.occluders + Occludees3D(c), Normal)
  }

  /** A list without duplicates of `x` counts it once exactly when it holds it. */
  lemma CountInList(q: seq<ObjId>, x: ObjId)
    requires multiset(q)[x] <= 1
    ensures multiset(q)[x] == if x in q then 1 else 0
  {
  }

  /**
   * Under the membership invariant, the distance-ordered pass draws an
   * object exactly once when it is an occluder or a 3D occludee, and not
   * at all otherwise (2D occludees are left to the 2D pass).
   */
  lemma OrderedPassDrawsEachOnce(p: Placed)
    requires Consistent(p)
    ensures var c := p.cont;
            var x := p.obj.id;
            multiset(OrderedPass(c))[DrawCall(x, Normal)]
            == if p.obj.occluder || x in c.occludeesOpaque || x in c.occludeesBlended then 1 else 0
  {
    assert Occluders in SlotsOf(p.cont, p.obj.id) <==> p.obj.id in p.cont.occluders;
    OrderedPassCount(p.cont, p.obj.id);
  }

  /** The count behind OrderedPassDrawsEachOnce, for an id filed in at most one list, once. */
  lemma OrderedPassCount(c: Containers, x: ObjId)
    requires NoDuplicates(c, x) && |SlotsOf(c, x)| <= 1
    ensures multiset(OrderedPass(c))[DrawCall(x, Normal)]
            == if x in c.occluders || x in c.occludeesOpaque || x in c.occludeesBlended then 1 else 0
  {
    CallsCount(c.occluders + Occludees3D(c), Normal, x);
    assert multiset(c.occluders + Occludees3D(c))[x]
           == multiset(c.occluders)[x] + multiset(c.occludeesOpaque)[x] + multiset(c.occludeesBlended)[x];
    assert multiset(Get(c, Occluders))[x] <= 1;
    assert multiset(Get(c, Opaque))[x] <= 1;
    assert multiset(Get(c, Blended))[x] <= 1;
    CountInList(c.occluders, x);
    CountInList(c.occludeesOpaque, x);
    CountInList(c.occludeesBlended, x);
    InTwoSlots(c, x, Occluders, Opaque);
    InTwoSlots(c, x, Occluders, Blended);
    InTwoSlots(c, x, Opaque, Blended);
  }

  /** An object in two distinct lists is filed in at least two slots. */
  lemma InTwoSlots(c: Containers, x: ObjId, s: Slot, t: Slot)
    requires s != t
    ensures x in Get(c, s) && x in Get(c, t) ==> |SlotsOf(c, x)| >= 2
  {
    if x in Get(c, s) && x in Get(c, t) {
      var at := SlotsOf(c, x);
      var rest := at - {s, t};
      assert at == {s, t} + rest;
      assert {s, t} * rest == {};
      assert |{s, t}| == 2;
    }
  }

  /**
   * Draw3DObjects_OcclusionQuery: occluders drawn normally, then every 3D
   * occludee gets its query started, then every 3D occludee is drawn
   * normally (drawing consults the query), then optionally all bounding
   * boxes.
   */
  function OcclusionPass(c: Containers, drawBoxes: bool): (calls: seq<DrawCall>)
    ensures var n := |c.occluders|;
            var e := Occludees3D(c);
            && |calls| == n + 2 * |e| + (if drawBoxes then n + |e| else 0)
            && (forall k :: 0 <= k < n ==> calls[k] == DrawCall(c.occluders[k], Normal))
            && (forall k :: 0 <= k < |e| ==> calls[n + k] == DrawCall(e[k], StartOcclusionQuery))
            && (forall k :: 0 <= k < |e| ==> calls[n + |e| + k] == DrawCall(e[k], Normal))
  {
    Calls(c.occluders, Normal)
    + Calls(Occludees3D(c), StartOcclusionQuery)
    + Calls(Occludees3D(c), Normal)
    + (if drawBoxes then Calls(c.occluders + Occludees3D(c), BoundingBoxDebug) else [])
  }

  /**
   * In the occlusion-culled pass every occludee's query is started before
   * it is drawn: the k-th occludee's start call sits at |occluders| + k and
   * its normal draw exactly one occludee list later.
   */
  lemma QueryStartedBeforeDrawn(c: Containers, drawBoxes: bool, k: nat)
    requires k < |Occludees3D(c)|
    ensures var calls := OcclusionPass(c, drawBoxes);
            var s := |c.occluders| + k;
            var d := |c.occluders| + |Occludees3D(c)| + k;
            && s < d < |calls|
            && calls[s] == DrawCall(Occludees3D(c)[k], StartOcclusionQuery)
            && calls[d] == DrawCall(Occludees3D(c)[k], Normal)
  {
  }

  // ---------------------------------------------------------------------
  // Frame counters

  /** The distance-ordered path's counter: a wrapping 32-bit increment. */
  function OrderedFrame(cnt: u32): (r: (u32, bool))
    ensures r.0 == IncU32(cnt)
    ensures r.1 <==> r.0 % OccluderUpdatePeriod == 0
  {
    var n := IncU32(cnt);
    (n, n % OccluderUpdatePeriod == 0)
  }

  /**
   * The occlusion-culled path's counter: incremented, occluders updated
   * on multiples of 100, and at 1000 the statistics are recounted and the
   * counter restarts from 0.
   */
  function OQFrame(cnt: u32): (r: (u32, bool, bool))
    requires cnt < StatsPeriod
    ensures r.0 < StatsPeriod
    ensures r.0 == (cnt + 1) % StatsPeriod
    ensures r.1 <==> (cnt + 1) % OccluderUpdatePeriod == 0
    ensures r.2 <==> cnt + 1 == StatsPeriod
  {
    var n := IncU32(cnt);
    var update := n % OccluderUpdatePeriod == 0;
    if n % StatsPeriod == 0 then (0, update, true) else (n, update, false)
  }

  /** `k` frames of the occlusion-culled path: final counter and number of occluder updates. */
  function OQFrames(cnt: u32, k: nat): (u32, nat)
    requires cnt < StatsPeriod
  {
    if k == 0 then (cnt, 0)
    else
      var (c1, u1) := OQFrames(cnt, k - 1);
      var (c2, upd, _) := OQFrame(c1);
      (c2, u1 + if upd then 1 else 0)
  }

  lemma OQFramesBounded(cnt: u32, k: nat)
    requires cnt < StatsPeriod
    ensures OQFrames(cnt, k).0 < StatsPeriod
  {
  }

  lemma StepCount(x: nat)
    ensures (x + 1) / 100 == x / 100 + (if (x + 1) % 100 == 0 then 1 else 0)
  {
  }

  /** Euclidean division by 1000 and by 100 is determined by any quotient-remainder split. */
  lemma DivMod1000(a: int, q: int, r: int)
    requires a == 1000 * q + r && 0 <= r < 1000
    ensures a % 1000 == r && a / 1000 == q
  {
  }

  lemma DivMod100(a: int, q: int, r: int)
    requires a == 100 * q + r && 0 <= r < 100
    ensures a % 100 == r && a / 100 == q
  {
  }

  /** Stepping a counter kept modulo 1000 agrees with stepping the unbounded count. */
  lemma ModStep(x: nat)
    ensures (x % 1000 + 1) % 1000 == (x + 1) % 1000
    ensures (x % 1000 + 1) % 100 == (x + 1) % 100
  {
    var q := x / 1000;
    var r := x % 1000;
    DivMod1000(x, q, r);
    if r + 1 < 1000 {
      DivMod1000(x + 1, q, r + 1);
      DivMod1000(r + 1, 0, r + 1);
    } else {
      DivMod1000(x + 1, q + 1, 0);
      DivMod1000(r + 1, 1, 0);
    }
    var t := (r + 1) / 100;
    var u := (r + 1) % 100;
    DivMod100(r + 1, t, u);
    DivMod100(x + 1, 10 * q + t, u);
  }

  /**
   * Starting from counter `cnt`, `k` frames of the occlusion-culled path
   * update the occluder states once per multiple of 100 passed, however
   * many times the counter restarts at 1000.
   */
  lemma {:induction false} OQFramesUpdates(cnt: u32, k: nat)
    requires cnt < StatsPeriod
    ensures OQFrames(cnt, k).0 == (cnt + k) % StatsPeriod
    ensures OQFrames(cnt, k).1 == (cnt + k) / OccluderUpdatePeriod - cnt / OccluderUpdatePeriod
  {
    if k > 0 {
      OQFramesUpdates(cnt, k - 1);
      ModStep(cnt + k - 1);
      StepCount(cnt + k - 1);
    }
  }

  /** From a fresh counter, `k` frames give exactly k / 100 occluder updates. */
  lemma OQUpdatesFromZero(k: nat)
    ensures OQFrames(0, k).1 == k / OccluderUpdatePeriod
  {
    OQFramesUpdates(0, k);
  }

  /** `k` frames of the distance-ordered path. */
  function OrderedFrames(cnt: u32, k: nat): (u32, nat)
  {
    if k == 0 then (cnt, 0)
    else
      var (c1, u1) := OrderedFrames(cnt, k - 1);
      var (c2, upd) := OrderedFrame(c1);
      (c2, u1 + if upd then 1 else 0)
  }

  /**
   * As long as the 32-bit counter does not wrap, `k` frames of the
   * distance-ordered path update the occluder states once per multiple of
   * 100 passed.
   */
  lemma {:induction false} OrderedFramesUpdates(cnt: u32, k: nat)
    requires cnt + k < U32Modulus
    ensures OrderedFrames(cnt, k).0 == cnt + k
    ensures OrderedFrames(cnt, k).1 == (cnt + k) / OccluderUpdatePeriod - cnt / OccluderUpdatePeriod
  {
    if k > 0 {
      OrderedFramesUpdates(cnt, k - 1);
      StepCount(cnt + k - 1);
    }
  }

  // ---------------------------------------------------------------------
  // Statistics

  function CountIf(objs: Slots, keep: Managed -> bool): nat
  {
    if |objs| == 0 then 0
    else (if objs[0].Some? && keep(objs[0].value) then 1 else 0) + CountIf(objs[1..], keep)
  }

  lemma {:induction false} CountIfAppend(objs: Slots, e: Option<Managed>, keep: Managed -> bool)
    ensures CountIf(objs + [e], keep) == CountIf(objs, keep) + (if e.Some? && keep(e.value) then 1 else 0)
    decreases |objs|
  {
    if |objs| == 0 {
      assert [e][1..] == [];
    } else {
      assert (objs + [e])[1..] == objs[1..] + [e];
      CountIfAppend(objs[1..], e, keep);
    }
  }

  function Any(): Managed -> bool { (m: Managed) => true }
  function Visible(): Managed -> bool { (m: Managed) => m.obj.props.visible }
  function VisibleOccluder(): Managed -> bool { (m: Managed) => m.obj.props.visible && m.obj.occluder }
  function VisibleTested(): Managed -> bool { (m: Managed) => m.obj.props.visible && IsOcclusionTested(m.obj) }
  function VisibleOccluded(): Managed -> bool
  {
    (m: Managed) => m.obj.props.visible && IsOcclusionTested(m.obj) && m.obj.oq.occluded
  }
  function VisibleNotOccluded(): Managed -> bool
  {
    (m: Managed) => m.obj.props.visible && IsOcclusionTested(m.obj) && !m.obj.oq.occluded
  }

  /**
   * The statistics sweep: counts non-null objects, the visible ones among
   * them, and among those the occluders, the occlusion-tested ones, and
   * of these the occluded and the not occluded ones.
   */
  method CountStats(objs: Slots) returns (s: Stats)
    ensures s.total == CountIf(objs, Any())
    ensures s.visible == CountIf(objs, Visible())
    ensures s.occluders == CountIf(objs, VisibleOccluder())
    ensures s.tested == CountIf(objs, VisibleTested())
    ensures s.occluded == CountIf(objs, VisibleOccluded())
    ensures s.nonOccluded == CountIf(objs, VisibleNotOccluded())
    ensures s.occluded + s.nonOccluded == s.tested <= s.visible <= s.total <= |objs|
    ensures s.occluders <= s.visible
  {
    s := Stats(0, 0, 0, 0, 0, 0);
    var i := 0;
    while i < |objs|
      invariant 0 <= i <= |objs|
      invariant s.total == CountIf(objs[..i], Any())
      invariant s.visible == CountIf(objs[..i], Visible())
      invariant s.occluders == CountIf(objs[..i], VisibleOccluder())
      invariant s.tested == CountIf(objs[..i], VisibleTested())
      invariant s.occluded == CountIf(objs[..i], VisibleOccluded())
      invariant s.nonOccluded == CountIf(objs[..i], VisibleNotOccluded())
      invariant s.occluded + s.nonOccluded == s.tested <= s.visible <= s.total <= i
      invariant s.occluders <= s.visible
    {
      var e := objs[i];
      assert objs[..i + 1] == objs[..i] + [e];
      CountIfAppend(objs[..i], e, Any());
      CountIfAppend(objs[..i], e, Visible());
      CountIfAppend(objs[..i], e, VisibleOccluder());
      CountIfAppend(objs[..i], e, VisibleTested());
      CountIfAppend(objs[..i], e, VisibleOccluded());
      CountIfAppend(objs[..i], e, VisibleNotOccluded());
      if e.Some? {
        var o := e.value.obj;
        s := s.(total := s.total + 1);
        if o.props.visible {
          s := s.(visible := s.visible + 1);
          if o.occluder {
            s := s.(occluders := s.occluders + 1);
          }
          if o.oq.name > 0 {
            s := s.(tested := s.tested + 1);
            if o.oq.occluded {
              s := s.(occluded := s.occluded + 1);
            } else {
              s := s.(nonOccluded := s.nonOccluded + 1);
            }
          }
        }
      }
      i := i + 1;
    }
    assert objs[..|objs|] == objs;
  }

  // ---------------------------------------------------------------------
  // A frame

  /** Hints naming a render path (and, for occlusion culling, a query method) the renderer implements. */
  predicate KnownPath(h: Hints)
  {
    h.renderPath in {RenderPathLegacy, RenderPathDistanceOrdered}
    || (h.renderPath == RenderPathOcclusionCulled && h.oqMethod in {OQMethodSync, OQMethodAsync})
  }

  /** What one frame asks of the object manager besides drawing. */
  datatype Frame = Frame(calls: seq<DrawCall>, updateOccluders: bool)

  /**
   * RenderScene: nothing at all before initialisation. Otherwise the 3D
   * pass of the selected render path, then the 2D pass. Render-path or
   * query-method codes the renderer does not know draw no 3D objects.
   */
  method RenderScene(r: Renderer, objs: Slots, c: Containers) returns (f: Frame, r2: Renderer)
    requires r.oqFrames < StatsPeriod
    ensures !r.initialized ==> f == Frame([], false) && r2 == r
    ensures r2.oqFrames < StatsPeriod
    ensures r.initialized ==> exists pass3D :: f.calls == pass3D + Calls(Pick(objs, Sticked2D()), Normal)
    ensures r.initialized && r.hints.renderPath == RenderPathLegacy ==>
              f.calls == Calls(Pick(objs, Legacy3D(false)) + Pick(objs, Legacy3D(true)), Normal)
                         + Calls(Pick(objs, Sticked2D()), Normal)
              && !f.updateOccluders && r2 == r
    ensures r.initialized && r.hints.renderPath == RenderPathDistanceOrdered ==>
              f.calls == OrderedPass(c) + Calls(Pick(objs, Sticked2D()), Normal)
              && r2 == r.(orderedFrames := IncU32(r.orderedFrames))
              && (f.updateOccluders <==> r2.orderedFrames % OccluderUpdatePeriod == 0)
    ensures r.initialized && r.hints.renderPath == RenderPathOcclusionCulled
              && r.hints.oqMethod in {OQMethodSync, OQMethodAsync} ==>
              f.calls == OcclusionPass(c, r.hints.drawBoundingBoxes) + Calls(Pick(objs, Sticked2D()), Normal)
              && r2.oqFrames == (r.oqFrames + 1) % StatsPeriod
              && (f.updateOccluders <==> (r.oqFrames + 1) % OccluderUpdatePeriod == 0)
              && (r.oqFrames + 1 == StatsPeriod ==>
                    r2.stats.occluded + r2.stats.nonOccluded == r2.stats.tested <= r2.stats.visible <= r2.stats.total)
              && (r.oqFrames + 1 == StatsPeriod ==>
                    r2.stats == Stats(CountIf(objs, Any()), CountIf(objs, Visible()), CountIf(objs, VisibleOccluder()),
                                      CountIf(objs, VisibleTested()), CountIf(objs, VisibleOccluded()),
                                      CountIf(objs, VisibleNotOccluded())))
              && (r.oqFrames + 1 != StatsPeriod ==> r2.stats == r.stats)
    ensures r.initialized && !KnownPath(r.hints) ==>
              f.calls == Calls(Pick(objs, Sticked2D()), Normal) && !f.updateOccluders && r2 == r
    ensures r2.initialized == r.initialized && r2.hints == r.hints
  {
    if !r.initialized {
      return Frame([], false), r;
    }
    var pass3D: seq<DrawCall> := [];
    var update := false;
    r2 := r;
    if r.hints.renderPath == RenderPathLegacy {
      pass3D := Draw3DLegacy(objs);
    } else if r.hints.renderPath == RenderPathDistanceOrdered {
      pass3D := OrderedPass(c);
      var (n, upd) := OrderedFrame(r.orderedFrames);
      r2 := r.(orderedFrames := n);
      update := upd;
    } else if r.hints.renderPath == RenderPathOcclusionCulled && r.hints.oqMethod in {OQMethodSync, OQMethodAsync} {
      pass3D := OcclusionPass(c, r.hints.drawBoundingBoxes);
      var (n, upd, recount) := OQFrame(r.oqFrames);
      r2 := r.(oqFrames := n);
      update := upd;
      if recount {
        var s := CountStats(objs);
        r2 := r2.(stats := s);
      }
    }
    var pass2D := Draw2D(objs);
    f := Frame(pass3D + pass2D, update);
  }

  /**
   * A legacy-path frame draws every visible object exactly once, in the
   * 3D pass or in the 2D pass, and no hidden object at all.
   */
  method LegacyFrame(r: Renderer, objs: Slots, c: Containers, i: nat) returns (f: Frame)
    requires r.oqFrames < StatsPeriod && r.initialized && r.hints.renderPath == RenderPathLegacy
    requires UniqueIds(objs) && i < |objs| && objs[i].Some?
    ensures multiset(f.calls)[DrawCall(objs[i].value.obj.id, Normal)] == if objs[i].value.obj.props.visible then 1 else 0
  {
    var r2;
    f, r2 := RenderScene(r, objs, c);
    LegacyDrawsEachOnce(objs, i);
    Draw2DEachOnce(objs, i);
  }

  // ---------------------------------------------------------------------
  // Render hints

  /** Leaving the occlusion-culled path, or leaving async queries, needs pending queries finished. */
  predicate ForcesFinish(prev: Hints, next: Hints)
  {
    (prev.renderPath == RenderPathOcclusionCulled && next.renderPath != RenderPathOcclusionCulled)
    || (prev.oqMethod == OQMethodAsync && next.oqMethod != OQMethodAsync)
  }

  function FinishEntry(e: Option<Managed>, a: QueryAnswer): Option<Managed>
  {
    if e.None? then e
    else Some(e.value.(obj := e.value.obj.(oq := ForceFinishAndReset(e.value.obj.level1, e.value.obj.oq, a))))
  }

  /**
   * SetRenderHints: when the change leaves the occlusion-culled path or
   * async queries, every object's running query is finished first (with
   * `answers[i]` the result the GPU gives object i); then the new hints are
   * stored.
   */
  method SetRenderHints(r: Renderer, hints: Hints, objs: Slots, answers: seq<QueryAnswer>)
    returns (r2: Renderer, objs2: Slots)
    requires |answers| == |objs|
    ensures r2 == r.(hints := hints)
    ensures |objs2| == |objs|
    ensures !ForcesFinish(r.hints, hints) ==> objs2 == objs
    ensures ForcesFinish(r.hints, hints) ==>
              forall i :: 0 <= i < |objs| ==> objs2[i] == FinishEntry(objs[i], answers[i])
    ensures ForcesFinish(r.hints, hints) ==>
              forall i :: 0 <= i < |objs2| && objs2[i].Some? && objs2[i].value.obj.level1 ==>
                !objs2[i].value.obj.oq.started || objs2[i].value.obj.oq.name == 0
    ensures ForcesFinish(r.hints, hints) ==>
              forall i :: 0 <= i < |objs2| && objs2[i].Some? ==> !objs2[i].value.obj.oq.occluded
  {
    objs2 := objs;
    if ForcesFinish(r.hints, hints) {
      var i := 0;
      while i < |objs|
        invariant 0 <= i <= |objs|
        invariant |objs2| == |objs|
        invariant forall j :: 0 <= j < i ==> objs2[j] == FinishEntry(objs[j], answers[j])
        invariant forall j :: i <= j < |objs| ==> objs2[j] == objs[j]
      {
        objs2 := objs2[i := FinishEntry(objs[i], answers[i])];
        i := i + 1;
      }
    }
    r2 := r.(hints := hints);
  }

  /**
   * Applying the same hints again finishes no query: the second call leaves
   * every object as the first call left it.
   */
  method SetRenderHintsTwice(r: Renderer, hints: Hints, objs: Slots, answers: seq<QueryAnswer>, again: seq<QueryAnswer>)
    returns (r3: Renderer, objs3: Slots)
    requires |answers| == |objs| && |again| == |objs|
    ensures r3 == r.(hints := hints)
    ensures |objs3| == |objs|
    ensures !ForcesFinish(r.hints, hints) ==> objs3 == objs
    ensures ForcesFinish(r.hints, hints) ==>
              forall i :: 0 <= i < |objs| ==> objs3[i] == FinishEntry(objs[i], answers[i])
  {
    var r2, objs2 := SetRenderHints(r, hints, objs, answers);
    r3, objs3 := SetRenderHints(r2, hints, objs2, again);
  }
}

=== FILE: server.dfy ===
/**
 * The server facade (PgeServerImpl): routing a packet either back into the
 * server's own queue (injection) or out to client connections.
 *
 * The facade only forwards to the transport-level server object, which is
 * not part of this model; its calls are returned as a list. To say who
 * ends up receiving a packet, a broadcast is expanded with the registry
 * iteration of the engine's network subsystem (Registry.Recipients).
 */
module Server {
  import opened Bytes
  import opened Transport
  import opened Registry
  import Packet

  datatype Call =
    | Inject(pkt: Packet.PgePacket)
    | SendToClient(conn: ConnHandle, pkt: Packet.PgePacket)
    | SendToAllClientsExcept(pkt: Packet.PgePacket, except: ConnHandle)
    | PollIncomingMessages
    | PollConnectionStateChanges

  datatype ServerImpl = ServerImpl(allowListedPgeMessages: set<Packet.PktId>)

  /** Construction allow-lists application packets on top of what the transport allows. */
  function NewServerImpl(transportAllowed: set<Packet.PktId>): (s: ServerImpl)
    ensures Packet.Application in s.allowListedPgeMessages
    ensures transportAllowed <= s.allowListedPgeMessages
    ensures s.allowListedPgeMessages - transportAllowed <= {Packet.Application}
  {
    ServerImpl(transportAllowed + {Packet.Application})
  }

  /** One frame's update: first drain incoming messages, then state changes. */
  function Update(): (r: seq<Call>)
    ensures |r| == 2 && r[0].PollIncomingMessages? && r[1].PollConnectionStateChanges?
  {
    [PollIncomingMessages, PollConnectionStateChanges]
  }

  /**
   * send: the server's own handle means injection into its own queue; any
   * other handle goes to that client only.
   */
  function Send(pkt: Packet.PgePacket, conn: ConnHandle): (r: seq<Call>)
    ensures |r| == 1
    ensures r[0].Inject? <==> conn == Packet.ServerConnHandle
    ensures r[0].Inject? ==> r[0].pkt == pkt
    ensures !r[0].Inject? ==> r[0] == SendToClient(conn, pkt)
  {
    if conn == Packet.ServerConnHandle then [Inject(pkt)] else [SendToClient(conn, pkt)]
  }

  /** sendToAllClientsExcept: forwarded unchanged. */
  function SendToAllClientsExceptCall(pkt: Packet.PgePacket, except: ConnHandle): (r: seq<Call>)
    ensures |r| == 1 && r[0].SendToAllClientsExcept? && r[0].except == except && r[0].pkt == pkt
  {
    [SendToAllClientsExcept(pkt, except)]
  }

  /**
   * sendToAll: `send` with its default handle (the server itself), then a
   * broadcast with the default exception, handle 0.
   */
  function SendToAll(pkt: Packet.PgePacket): (r: seq<Call>)
    ensures r == [Inject(pkt), SendToAllClientsExcept(pkt, Packet.ServerConnHandle)]
  {
    Send(pkt, Packet.ServerConnHandle) + SendToAllClientsExceptCall(pkt, Packet.ServerConnHandle)
  }

  // ---------------------------------------------------------------------
  // Who receives what

  datatype Delivery = ToSelf(pkt: Packet.PgePacket) | ToClient(conn: ConnHandle, pkt: Packet.PgePacket)

  function ToEach(hs: seq<ConnHandle>, pkt: Packet.PgePacket): (r: seq<Delivery>)
    ensures |r| == |hs|
    ensures forall i :: 0 <= i < |hs| ==> r[i] == ToClient(hs[i], pkt)
  {
    if |hs| == 0 then [] else [ToClient(hs[0], pkt)] + ToEach(hs[1..], pkt)
  }

  /** The deliveries a list of calls makes, given the registered clients. */
  function Deliveries(calls: seq<Call>, reg: Registry): seq<Delivery>
  {
    if |calls| == 0 then []
    else
      var first :=
        match calls[0]
        case Inject(p) => [ToSelf(p)]
        case SendToClient(c, p) => [ToClient(c, p)]
        case SendToAllClientsExcept(p, e) => ToEach(Recipients(reg, e), p)
        case _ => [];
      first + Deliveries(calls[1..], reg)
  }

  function Count(ds: seq<Delivery>, d: Delivery): nat
  {
    if |ds| == 0 then 0 else (if ds[0] == d then 1 else 0) + Count(ds[1..], d)
  }

  lemma {:induction false} CountAppend(a: seq<Delivery>, b: seq<Delivery>, d: Delivery)
    ensures Count(a + b, d) == Count(a, d) + Count(b, d)
    decreases |a|
  {
    if |a| > 0 {
      assert (a + b)[1..] == a[1..] + b;
      CountAppend(a[1..], b, d);
    } else {
      assert a + b == b;
    }
  }

  /** Sending to a strictly increasing handle list reaches each listed handle once. */
  lemma {:induction false} CountToEach(hs: seq<ConnHandle>, pkt: Packet.PgePacket, d: Delivery)
    requires forall i, j :: 0 <= i < j < |hs| ==> hs[i] < hs[j]
    ensures Count(ToEach(hs, pkt), d) == if d.ToClient? && d.pkt == pkt && d.conn in hs then 1 else 0
    decreases |hs|
  {
    if |hs| > 0 {
      var r := ToEach(hs, pkt);
      assert r[1..] == ToEach(hs[1..], pkt);
      CountToEach(hs[1..], pkt, d);
      assert forall k :: k in hs[1..] ==> hs[0] < k;
      assert d.ToClient? ==> (d.conn in hs <==> d.conn == hs[0] || d.conn in hs[1..]);
    }
  }

  /**
   * sendToAll delivers the packet to the server itself exactly once and to
   * every registered client exactly once, and nowhere else. The registry's
   * entry for handle 0 is the server's own nick; as the broadcast's
   * exception it is skipped.
   */
  lemma SendToAllReachesEachOnce(pkt: Packet.PgePacket, reg: Registry, d: Delivery)
    ensures Count(Deliveries(SendToAll(pkt), reg), d)
            == if d == ToSelf(pkt)
                  || (d.ToClient? && d.pkt == pkt && d.conn in Keys(reg) && d.conn != Packet.ServerConnHandle)
               then 1 else 0
  {
    var rs := Recipients(reg, Packet.ServerConnHandle);
    var calls := SendToAll(pkt);
    assert calls[1..] == [SendToAllClientsExcept(pkt, Packet.ServerConnHandle)];
    assert calls[1..][1..] == [];
    assert Deliveries(calls[1..], reg) == ToEach(rs, pkt) + [];
    assert ToEach(rs, pkt) + [] == ToEach(rs, pkt);
    assert Deliveries(calls, reg) == [ToSelf(pkt)] + ToEach(rs, pkt);
    CountAppend([ToSelf(pkt)], ToEach(rs, pkt), d);
    CountToEach(rs, pkt, d);
  }

  /** A packet for a client handle is never injected and reaches that client only. */
  lemma SendToClientOnly(pkt: Packet.PgePacket, conn: ConnHandle, reg: Registry, d: Delivery)
    requires conn != Packet.ServerConnHandle
    ensures Count(Deliveries(Send(pkt, conn), reg), d) == if d == ToClient(conn, pkt) then 1 else 0
  {
    assert Send(pkt, conn)[1..] == [];
  }

  /** A broadcast with an exception never reaches the excepted client or the server itself. */
  lemma BroadcastSkipsException(pkt: Packet.PgePacket, except: ConnHandle, reg: Registry, d: Delivery)
    ensures Count(Deliveries(SendToAllClientsExceptCall(pkt, except), reg), d)
            == if d.ToClient? && d.pkt == pkt && d.conn in Keys(reg) && d.conn != except then 1 else 0
  {
    var calls := SendToAllClientsExceptCall(pkt, except);
    assert calls[1..] == [];
    assert Deliveries(calls, reg) == ToEach(Recipients(reg, except), pkt) + [];
    assert ToEach(Recipients(reg, except), pkt) + [] == ToEach(Recipients(reg, except), pkt);
    CountToEach(Recipients(reg, except), pkt, d);
  }
}

=== FILE: syscfg.dfy ===
/**
 * Profile selection and configuration variables (PGESysCFG).
 *
 * The profile list is the list of user names found by the last directory
 * scan; the scan itself and every file operation are parameters: the list
 * a rescan finds, whether a directory or file could be created or
 * removed, and what loading a profile's file leaves in the variable map.
 */
module SysCfg {
  import opened Bytes

  /** A configuration variable; its text is all the model keeps. */
  datatype CVar = CVar(text: string)

  /** A default-constructed variable: what a missing lookup and a newly created entry hold. */
  const EmptyCVar: CVar := CVar("")

  datatype Cfg = Cfg(profiles: seq<string>, active: int, vars: map<string, CVar>)

  /** The active index is -1 (no profile) or names a listed profile. */
  predicate Valid(c: Cfg)
  {
    -1 <= c.active < |c.profiles|
  }

  /** The constructor: no active profile, no variables, the scanned profile list. */
  function NewCfg(scan: seq<string>): (r: Cfg)
    ensures Valid(r) && r.active == -1 && r.vars == map[] && r.profiles == scan
  {
    Cfg(scan, -1, map[])
  }

  // ---------------------------------------------------------------------
  // Profile list

  /** The last index holding `x`, or -1. */
  function LastIndex(s: seq<string>, x: string): (r: int)
    ensures -1 <= r < |s|
    ensures r == -1 <==> x !in s
    ensures r >= 0 ==> s[r] == x && x !in s[r + 1..]
  {
    if |s| == 0 then -1
    else if s[|s| - 1] == x then |s| - 1
    else
      var r := LastIndex(s[..|s| - 1], x);
      assert s == s[..|s| - 1] + [s[|s| - 1]];
      assert r >= 0 ==> s[r + 1..] == s[..|s| - 1][r + 1..] + [s[|s| - 1]];
      r
  }

  /** The first index holding `x`, or -1. */
  function FirstIndex(s: seq<string>, x: string): (r: int)
    ensures -1 <= r < |s|
    ensures r == -1 <==> x !in s
    ensures r >= 0 ==> s[r] == x && x !in s[..r]
  {
    if |s| == 0 then -1
    else if s[0] == x then 0
    else
      var r := FirstIndex(s[1..], x);
      assert s == [s[0]] + s[1..];
      assert r >= 0 ==> s[..r + 1] == [s[0]] + s[1..][..r];
      if r == -1 then -1 else r + 1
  }

  /** The user of the active profile, if there is one. */
  function ActiveUser(c: Cfg): Option<string>
    requires Valid(c)
  {
    if c.active == -1 then None else Some(c.profiles[c.active])
  }

  /**
   * LoadProfilesList: the list becomes `scan`, and an active profile is
   * followed to the (last) index where its user turns up again. When the
   * active user is not among the scanned ones the index is left as it was,
   * which may no longer be a valid index.
   */
  function LoadProfiles(c: Cfg, scan: seq<string>): (r: Cfg)
    requires Valid(c)
    ensures r.profiles == scan && r.vars == c.vars
    ensures c.active == -1 ==> r.active == -1
    ensures c.active != -1 && c.profiles[c.active] in scan ==>
              0 <= r.active < |scan| && scan[r.active] == c.profiles[c.active]
    ensures c.active != -1 && c.profiles[c.active] !in scan ==> r.active == c.active
    ensures (c.active == -1 || c.profiles[c.active] in scan) ==> Valid(r) && ActiveUser(r) == ActiveUser(c)
  {
    if c.active == -1 then Cfg(scan, -1, c.vars)
    else
      var i := LastIndex(scan, c.profiles[c.active]);
      Cfg(scan, if i == -1 then c.active else i, c.vars)
  }

  // ---------------------------------------------------------------------
  // Selecting a profile

  /** What loading a profile's file reports, and what it leaves in the (cleared) variable map. */
  datatype LoadOutcome = LoadOutcome(ok: bool, vars: map<string, CVar>)

  /**
   * SetProfile: indices past the list, the current index and indices
   * below -1 change nothing. -1 deselects and drops every variable. Any
   * other index becomes active and its file is loaded; if loading fails
   * the active index falls back to -1.
   */
  function SetProfile(c: Cfg, index: int, load: LoadOutcome): (r: Cfg)
    ensures r.profiles == c.profiles
    ensures index >= |c.profiles| || index == c.active || index < -1 ==> r == c
    ensures index == -1 && c.active != -1 ==> r.active == -1 && r.vars == map[]
    ensures 0 <= index < |c.profiles| && index != c.active ==>
              (r.active == index <==> load.ok) && (r.active == index || r.active == -1) && r.vars == load.vars
    ensures Valid(c) ==> Valid(r)
  {
    if index >= |c.profiles| || index == c.active || index < -1 then c
    else if index == -1 then Cfg(c.profiles, -1, map[])
    else Cfg(c.profiles, if load.ok then index else -1, load.vars)
  }

  /** Once a profile is selected, selecting it again is a no-op whatever the file would say. */
  lemma SetProfileSettles(c: Cfg, index: int, load: LoadOutcome, again: LoadOutcome)
    requires SetProfile(c, index, load).active == index
    ensures SetProfile(SetProfile(c, index, load), index, again) == SetProfile(c, index, load)
  {
  }

  /** Deselecting leaves no variable visible. */
  lemma DeselectHidesVars(c: Cfg, load: LoadOutcome, name: string)
    requires Valid(c)
    ensures GetVarConst(SetProfile(c, -1, load), name) == EmptyCVar
  {
  }

  // ---------------------------------------------------------------------
  // Variables

  /** Where the mutable getVar's reference points: the shared fallback or a map entry. */
  datatype VarRef = WrongVar | Entry(name: string)

  /**
   * The mutable getVar: with an active profile the named entry, created
   * empty if missing; without one the shared fallback variable.
   */
  function GetVar(c: Cfg, name: string): (r: (VarRef, Cfg))
    ensures c.active > -1 ==>
              && r.0 == Entry(name)
              && r.1 == c.(vars := r.1.vars)
              && r.1.vars.Keys == c.vars.Keys + {name}
              && (name in c.vars ==> r.1.vars == c.vars)
              && (name !in c.vars ==> r.1.vars[name] == EmptyCVar)
              && (forall n :: n in c.vars ==> r.1.vars[n] == c.vars[n])
    ensures c.active <= -1 ==> r == (WrongVar, c)
  {
    if c.active > -1 then
      (Entry(name), c.(vars := if name in c.vars then c.vars else c.vars[name := EmptyCVar]))
    else (WrongVar, c)
  }

  /** The variable a reference denotes in a configuration. */
  function Deref(c: Cfg, v: VarRef): CVar
  {
    if v.Entry? && v.name in c.vars then c.vars[v.name] else EmptyCVar
  }

  /** The const getVar: the named entry if a profile is active and it exists, otherwise the fallback; never creates. */
  function GetVarConst(c: Cfg, name: string): (r: CVar)
    ensures c.active == -1 ==> r == EmptyCVar
    ensures r != EmptyCVar ==> name in c.vars && c.vars[name] == r
    ensures c.active != -1 && name in c.vars ==> r == c.vars[name]
  {
    if name !in c.vars || c.active == -1 then EmptyCVar else c.vars[name]
  }

  /**
   * The two getters agree: after the mutable getter, the const getter
   * sees the very variable it returned, and every other name reads as
   * before.
   */
  lemma GettersAgree(c: Cfg, name: string, other: string)
    requires Valid(c)
    ensures var (v, c2) := GetVar(c, name);
            && GetVarConst(c2, name) == Deref(c2, v)
            && (other != name ==> GetVarConst(c2, other) == GetVarConst(c, other))
            && (c.active != -1 ==> GetVarConst(c2, name) == if name in c.vars then c.vars[name] else EmptyCVar)
  {
  }

  /**
   * DeleteVar: no-op for a null name, without an active profile, or for
   * the variable holding the player's name; otherwise that one name is
   * erased.
   */
  function DeleteVar(c: Cfg, name: Option<string>, playerNameVar: string): (r: Cfg)
    ensures r == c.(vars := r.vars)
    ensures name.None? || c.active == -1 || name.value == playerNameVar ==> r == c
    ensures name.Some? && c.active != -1 && name.value != playerNameVar ==>
              r.vars.Keys == c.vars.Keys - {name.value}
    ensures forall n :: n in r.vars ==> n in c.vars && r.vars[n] == c.vars[n]
  {
    if name.None? || c.active == -1 then c
    else if name.value == playerNameVar then c
    else c.(vars := c.vars - {name.value})
  }

  /** After a deletion the name reads as the fallback, other names as before, and the player name survives. */
  lemma DeleteVarEffect(c: Cfg, name: string, other: string, playerNameVar: string)
    requires name != playerNameVar
    ensures GetVarConst(DeleteVar(c, Some(name), playerNameVar), name) == EmptyCVar
    ensures other != name ==> GetVarConst(DeleteVar(c, Some(name), playerNameVar), other) == GetVarConst(c, other)
    ensures GetVarConst(DeleteVar(c, Some(playerNameVar), playerNameVar), playerNameVar) == GetVarConst(c, playerNameVar)
  {
  }

  /** Asking the mutable getter for a deleted name brings it back empty. */
  lemma DeleteThenGetIsEmpty(c: Cfg, name: string, playerNameVar: string)
    requires Valid(c) && c.active != -1 && name != playerNameVar
    ensures var c2 := DeleteVar(c, Some(name), playerNameVar);
            GetVarConst(GetVar(c2, name).1, name) == EmptyCVar
  {
  }

  // ---------------------------------------------------------------------
  // Adding and deleting profiles

  /**
   * addProfile: -2 for a null user or nick, -1 if the user already has a
   * profile, -2 if its directory or file cannot be created; otherwise the
   * list is rescanned and the answer is the new user's index there, or -2
   * if the rescan does not find it. The active profile and the variables
   * are left alone.
   */
  function AddProfile(c: Cfg, user: Option<string>, nick: Option<string>, mkdirOk: bool, fileOk: bool, scan: seq<string>)
    : (r: (int, Cfg))
    requires Valid(c)
    ensures r.0 >= -2
    ensures user.None? || nick.None? ==> r == (-2, c)
    ensures r.0 == -1 <==> user.Some? && nick.Some? && user.value in c.profiles
    ensures r.0 == -1 ==> r.1 == c
    ensures r.0 >= 0 <==> user.Some? && nick.Some? && user.value !in c.profiles && mkdirOk && fileOk && user.value in scan
    ensures r.0 >= 0 ==> r.0 < |r.1.profiles| && r.1.profiles[r.0] == user.value && user.value !in r.1.profiles[..r.0]
    ensures r.1.vars == c.vars
    ensures ActiveUser(c).None? || ActiveUser(c).value in r.1.profiles ==> Valid(r.1) && ActiveUser(r.1) == ActiveUser(c)
  {
    if user.None? || nick.None? then (-2, c)
    else if user.value in c.profiles then (-1, c)
    else if !mkdirOk || !fileOk then (-2, c)
    else
      var c2 := LoadProfiles(c, scan);
      var i := FirstIndex(scan, user.value);
      (if i == -1 then -2 else i, c2)
  }

  /** A user added once is refused the second time, whatever nick is given. */
  lemma AddTwiceRejected(c: Cfg, user: string, nick: string, nick2: string, mkdirOk: bool, fileOk: bool,
                         scan: seq<string>, mk2: bool, f2: bool, scan2: seq<string>)
    requires Valid(c)
    requires AddProfile(c, Some(user), Some(nick), mkdirOk, fileOk, scan).0 >= 0
    requires Valid(AddProfile(c, Some(user), Some(nick), mkdirOk, fileOk, scan).1)
    ensures AddProfile(AddProfile(c, Some(user), Some(nick), mkdirOk, fileOk, scan).1, Some(user), Some(nick2), mk2, f2, scan2).0 == -1
  {
    var r := AddProfile(c, Some(user), Some(nick), mkdirOk, fileOk, scan);
    assert r.1.profiles[r.0] == user;
  }

  /**
   * deleteProfile: -1 for an index outside the list, with nothing changed.
   * Deleting the active profile deselects it first. -2 if the profile's
   * file cannot be removed (nothing rescanned); otherwise the list is
   * rescanned and the answer is 0, or -3 when only the directory stayed.
   */
  function DeleteProfile(c: Cfg, index: int, removeOk: bool, rmdirOk: bool, scan: seq<string>): (r: (int, Cfg))
    requires Valid(c)
    ensures r.0 in {0, -1, -2, -3}
    ensures r.0 == -1 <==> index < 0 || index >= |c.profiles|
    ensures r.0 == -1 ==> r.1 == c
    ensures 0 <= index < |c.profiles| ==>
              && (r.0 == -2 <==> !removeOk)
              && (r.0 == -3 <==> removeOk && !rmdirOk)
              && r.1.profiles == (if removeOk then scan else c.profiles)
    ensures 0 <= index < |c.profiles| && index == c.active ==> r.1.active == -1 && r.1.vars == map[] && Valid(r.1)
    ensures 0 <= index < |c.profiles| && index != c.active ==> r.1.vars == c.vars
    ensures 0 <= index < |c.profiles| && index != c.active && (!removeOk || ActiveUser(c).None? || ActiveUser(c).value in scan) ==>
              Valid(r.1) && ActiveUser(r.1) == ActiveUser(c)
  {
    if index < 0 || index >= |c.profiles| then (-1, c)
    else
      var c1 := if index == c.active then SetProfile(c, -1, LoadOutcome(false, map[])) else c;
      if !removeOk then (-2, c1)
      else (if rmdirOk then 0 else -3, LoadProfiles(c1, scan))
  }

  /**
   * Deleting the active profile leaves no variable visible; deleting
   * another one keeps every variable readable as before, as long as the
   * rescan still lists the active user.
   */
  lemma DeleteProfileVisibility(c: Cfg, index: int, removeOk: bool, rmdirOk: bool, scan: seq<string>, name: string)
    requires Valid(c) && 0 <= index < |c.profiles|
    requires !removeOk || ActiveUser(c).None? || ActiveUser(c).value in scan
    ensures index == c.active ==> GetVarConst(DeleteProfile(c, index, removeOk, rmdirOk, scan).1, name) == EmptyCVar
    ensures index != c.active ==> GetVarConst(DeleteProfile(c, index, removeOk, rmdirOk, scan).1, name) == GetVarConst(c, name)
  {
    var r := DeleteProfile(c, index, removeOk, rmdirOk, scan);
    if index != c.active && c.active != -1 {
      assert ActiveUser(r.1) == ActiveUser(c);
      assert r.1.active != -1;
    }
  }
}

=== FILE: sysnet.dfy ===
/**
 * The engine's own network subsystem (PGESysNET): the server's registry of
 * connected clients and the nick it makes up for each, its reaction to
 * connection-state callbacks, broadcasting, and polling one incoming
 * message on either side.
 *
 * The registry is an ordered map from connection handle to client record,
 * kept here as a list of entries in strictly increasing handle order, which
 * is also the order the server iterates it in.
 */
module SysNet {
  import opened Bytes
  import opened Transport
  import opened Registry

  // ---------------------------------------------------------------------
  // Made-up nicks

  function DigitChar(d: nat): char
    requires d < 10
  {
    "0123456789"[d]
  }

  /** The decimal text of a natural number, as printf's %d writes it. */
  function Decimal(n: nat): (r: string)
    ensures |r| >= 1
    decreases n
  {
    if n < 10 then [DigitChar(n)] else Decimal(n / 10) + [DigitChar(n % 10)]
  }

  /** The nick a random draw yields: "User" and a number from 10000 on. */
  function NickFor(draw: nat): string
  {
    "User" + Decimal(10000 + draw % 100000)
  }

  /**
   * The do-while loop that draws nicks until one is not taken: the position
   * of the first draw whose nick no registered client has, if any.
   */
  function FirstFreshDraw(taken: set<string>, draws: seq<nat>): (r: Option<nat>)
    ensures r.Some? ==> r.value < |draws| && NickFor(draws[r.value]) !in taken
    ensures r.Some? ==> forall j :: 0 <= j < r.value ==> NickFor(draws[j]) in taken
    ensures r.None? ==> forall j :: 0 <= j < |draws| ==> NickFor(draws[j]) in taken
    decreases |draws|
  {
    if |draws| == 0 then None
    else if NickFor(draws[0]) !in taken then Some(0)
    else
      var rest := FirstFreshDraw(taken, draws[1..]);
      if rest.None? then None else Some(rest.value + 1)
  }

  // ---------------------------------------------------------------------
  // Server side

  /** The "user connected" notice: `currentClient` is set on every copy. */
  datatype Notice = UserConnected(currentClient: bool, userName: string)

  datatype Request =
    | CloseConnection(conn: ConnHandle)
    | SetConnectionName(conn: ConnHandle, name: string)
    | SendPacket(conn: ConnHandle, notice: Notice)

  datatype Server = Server(clients: Registry, queue: seq<Notice>)

  datatype ServerStep = ServerStep(server: Server, requests: seq<Request>)

  function SendToEach(hs: seq<ConnHandle>, n: Notice): (r: seq<Request>)
    ensures |r| == |hs|
    ensures forall i :: 0 <= i < |hs| ==> r[i] == SendPacket(hs[i], n)
  {
    if |hs| == 0 then [] else [SendPacket(hs[0], n)] + SendToEach(hs[1..], n)
  }

  /**
   * The draws a connection attempt may be handled with: if it is accepted
   * and put in the poll group, the source keeps drawing until a nick is
   * free, so some draw in the trace must give one.
   */
  predicate DrawsSuffice(s: Server, state: ConnState, acceptOk: bool, pollGroupOk: bool, draws: seq<nat>)
  {
    state == Connecting && acceptOk && pollGroupOk ==> FirstFreshDraw(Nicks(s.clients), draws).Some?
  }

  /**
   * The server's connection-state callback.
   *  - closed or failed: a client that was connected leaves the registry;
   *    the connection is closed either way;
   *  - connecting: refused accept or poll-group assignment closes it;
   *    otherwise the client is registered under a fresh nick, the notice
   *    is queued for the server itself and broadcast to every registered
   *    client, the newcomer included;
   *  - every other state: nothing.
   * `acceptOk` and `pollGroupOk` are the library's answers, `draws` the
   * successive rand() results.
   */
  function OnServerStatusChanged(s: Server, conn: ConnHandle, state: ConnState, oldState: ConnState,
                                 acceptOk: bool, pollGroupOk: bool, draws: seq<nat>): (r: ServerStep)
    requires DrawsSuffice(s, state, acceptOk, pollGroupOk, draws)
    ensures IsClosing(state) ==> r.requests == [CloseConnection(conn)] && r.server.queue == s.queue
    ensures IsClosing(state) && oldState == Connected ==> r.server.clients == Erase(s.clients, conn)
    ensures IsClosing(state) && oldState != Connected ==> r.server.clients == s.clients
    ensures state == Connecting && !(acceptOk && pollGroupOk) ==>
              r.server == s && r.requests == [CloseConnection(conn)]
    ensures state == Connecting && acceptOk && pollGroupOk ==>
              var nick := NickFor(draws[FirstFreshDraw(Nicks(s.clients), draws).value]);
              nick !in Nicks(s.clients)
              && r.server.clients == Assign(s.clients, conn, nick)
              && r.server.queue == s.queue + [UserConnected(true, nick)]
              && r.requests == [SetConnectionName(conn, nick)]
                               + SendToEach(Recipients(r.server.clients, InvalidConnection), UserConnected(true, nick))
    ensures !IsClosing(state) && state != Connecting ==> r.server == s && r.requests == []
  {
    if IsClosing(state) then
      var clients := if oldState == Connected then Erase(s.clients, conn) else s.clients;
      ServerStep(s.(clients := clients), [CloseConnection(conn)])
    else if state == Connecting then
      if !acceptOk || !pollGroupOk then ServerStep(s, [CloseConnection(conn)])
      else
        var nick := NickFor(draws[FirstFreshDraw(Nicks(s.clients), draws).value]);
        var notice := UserConnected(true, nick);
        var clients := Assign(s.clients, conn, nick);
        ServerStep(Server(clients, s.queue + [notice]),
                   [SetConnectionName(conn, nick)] + SendToEach(Recipients(clients, InvalidConnection), notice))
    else ServerStep(s, [])
  }

  /**
   * The nick invariant survives every callback: the server never has two
   * clients with one nick.
   */
  lemma StatusChangeKeepsNicksUnique(s: Server, conn: ConnHandle, state: ConnState, oldState: ConnState,
                                     acceptOk: bool, pollGroupOk: bool, draws: seq<nat>)
    requires DrawsSuffice(s, state, acceptOk, pollGroupOk, draws)
    requires UniqueNicks(s.clients)
    ensures UniqueNicks(OnServerStatusChanged(s, conn, state, oldState, acceptOk, pollGroupOk, draws).server.clients)
  {
    if IsClosing(state) && oldState == Connected {
      EraseKeepsNicksUnique(s.clients, conn);
    } else if state == Connecting && acceptOk && pollGroupOk {
      var nick := NickFor(draws[FirstFreshDraw(Nicks(s.clients), draws).value]);
      AssignFreshKeepsNicksUnique(s.clients, conn, nick);
    }
  }

  /**
   * A client that connects and later drops leaves the registry as it was,
   * while the notice about it stays queued.
   */
  lemma ConnectThenDropRestoresRegistry(s: Server, conn: ConnHandle, draws: seq<nat>, closing: ConnState)
    requires conn !in Keys(s.clients) && IsClosing(closing)
    requires DrawsSuffice(s, Connecting, true, true, draws)
    ensures var up := OnServerStatusChanged(s, conn, Connecting, StateNone, true, true, draws).server;
            var down := OnServerStatusChanged(up, conn, closing, Connected, true, true, draws).server;
            down.clients == s.clients && |down.queue| == |s.queue| + 1
  {
    var nick := NickFor(draws[FirstFreshDraw(Nicks(s.clients), draws).value]);
    EraseAssignNew(s.clients, conn, nick);
  }

  // ---------------------------------------------------------------------
  // Polling one message

  datatype IncomingMsg = IncomingMsg(conn: ConnHandle, data: seq<u8>)

  datatype PollVerdict =
    | NotConnected
    | NothingWaiting
    | ReceiveError
    | UnexpectedCount
    | NullMessage
    | UnknownSender
    | Discarded
    | Delivered

  datatype Poll = Poll(ok: bool, verdict: PollVerdict, pkt: seq<u8>)

  /** The checks both sides make on what one receive call returned. */
  function ReceiveVerdict(numMsgs: int, msg: Option<IncomingMsg>): (v: Option<PollVerdict>)
    ensures v.None? <==> numMsgs == 1 && msg.Some?
  {
    if numMsgs == 0 then Some(NothingWaiting)
    else if numMsgs < 0 then Some(ReceiveError)
    else if numMsgs != 1 then Some(UnexpectedCount)
    else if msg.None? then Some(NullMessage)
    else None
  }

  /**
   * The server side of PollIncomingMessages: a message from an unknown
   * handle is refused, one from a registered client is released unread,
   * and the call reports false whatever happened, leaving `pkt` alone.
   */
  function ServerPoll(reg: Registry, numMsgs: int, msg: Option<IncomingMsg>, pkt: seq<u8>): (r: Poll)
    ensures !r.ok && r.pkt == pkt
    ensures r.verdict == Discarded <==> numMsgs == 1 && msg.Some? && msg.value.conn in Keys(reg)
    ensures r.verdict == UnknownSender <==> numMsgs == 1 && msg.Some? && msg.value.conn !in Keys(reg)
  {
    var check := ReceiveVerdict(numMsgs, msg);
    if check.Some? then Poll(false, check.value, pkt)
    else if msg.value.conn !in Keys(reg) then Poll(false, UnknownSender, pkt)
    else Poll(false, Discarded, pkt)
  }

  /**
   * The client side: without a connection nothing is read; otherwise a
   * single received message is copied over the start of `pkt` (only the
   * bytes that fit: the source asserts the sizes match) and reported.
   */
  function ClientPoll(conn: ConnHandle, numMsgs: int, msg: Option<IncomingMsg>, pkt: seq<u8>): (r: Poll)
    ensures |r.pkt| == |pkt|
    ensures r.ok <==> conn != InvalidConnection && numMsgs == 1 && msg.Some?
    ensures conn == InvalidConnection ==> r.verdict == NotConnected
    ensures !r.ok ==> r.pkt == pkt
    ensures r.ok && |msg.value.data| <= |pkt| ==>
              r.pkt[..|msg.value.data|] == msg.value.data && r.pkt[|msg.value.data|..] == pkt[|msg.value.data|..]
    ensures r.ok && |msg.value.data| == |pkt| ==> r.pkt == msg.value.data
    ensures r.ok && |msg.value.data| > |pkt| ==> r.pkt == msg.value.data[..|pkt|]
  {
    if conn == InvalidConnection then Poll(false, NotConnected, pkt)
    else
      var check := ReceiveVerdict(numMsgs, msg);
      if check.Some? then Poll(false, check.value, pkt)
      else
        var data := msg.value.data;
        var n := if |data| <= |pkt| then |data| else |pkt|;
        Poll(true, Delivered, Overwrite(pkt, 0, data[..n]))
  }

  /**
   * The server's poll follows the registry the connection callback keeps:
   * once a client is accepted its messages are released unread, and once
   * it has dropped they are refused as coming from an unknown sender.
   */
  lemma ServerPollFollowsRegistry(s: Server, conn: ConnHandle, draws: seq<nat>, closing: ConnState,
                                  data: seq<u8>, pkt: seq<u8>)
    requires DrawsSuffice(s, Connecting, true, true, draws) && IsClosing(closing)
    ensures var up := OnServerStatusChanged(s, conn, Connecting, StateNone, true, true, draws).server;
            var down := OnServerStatusChanged(up, conn, closing, Connected, true, true, draws).server;
            ServerPoll(up.clients, 1, Some(IncomingMsg(conn, data)), pkt).verdict == Discarded
            && ServerPoll(down.clients, 1, Some(IncomingMsg(conn, data)), pkt).verdict == UnknownSender
  {
  }

  /**
   * Both sides judge a receive alike: where a connected client would be
   * handed the message, the server discards or refuses it, and on every
   * failed receive the two report the same verdict.
   */
  lemma ServerPollMatchesClient(reg: Registry, conn: ConnHandle, numMsgs: int, msg: Option<IncomingMsg>, pkt: seq<u8>)
    requires conn != InvalidConnection
    ensures var sv := ServerPoll(reg, numMsgs, msg, pkt);
            var cl := ClientPoll(conn, numMsgs, msg, pkt);
            (cl.ok <==> sv.verdict in {Discarded, UnknownSender})
            && (!cl.ok ==> sv.verdict == cl.verdict)
  {
  }

  /** The client side's connection callback: closing states drop the connection. */
  function OnClientStatusChanged(current: ConnHandle, conn: ConnHandle, state: ConnState): (r: (ConnHandle, seq<Request>))
    ensures IsClosing(state) ==> r.0 == InvalidConnection && r.1 == [CloseConnection(conn)]
    ensures !IsClosing(state) ==> r.0 == current && r.1 == []
  {
    if IsClosing(state) then (InvalidConnection, [CloseConnection(conn)]) else (current, [])
  }

  /** Once the client side has seen its connection close, polling reads nothing. */
  lemma NoDeliveryAfterClose(current: ConnHandle, conn: ConnHandle, state: ConnState,
                             numMsgs: int, msg: Option<IncomingMsg>, pkt: seq<u8>)
    requires IsClosing(state)
    ensures var after := OnClientStatusChanged(current, conn, state).0;
            var r := ClientPoll(after, numMsgs, msg, pkt);
            !r.ok && r.verdict == NotConnected && r.pkt == pkt
  {
  }
}

=== FILE: transport.dfy ===
/**
 * What the engine sees of its transport library (GameNetworkingSockets):
 * connection handles, connection states and IP addresses. The library
 * itself is not part of this model; its answers become parameters.
 */
module Transport {
  import opened Bytes

  type ConnHandle = u32

  /** k_HSteamNetConnection_Invalid: the library never hands out handle 0. */
  const InvalidConnection: ConnHandle := 0

  /** The port used when an address names none. */
  const DefaultServerPort: u16 := 27020

  datatype ConnState =
    | StateNone
    | Connecting
    | Connected
    | ClosedByPeer
    | ProblemDetectedLocally
    | OtherState   // finding-route, fin-wait, linger, dead: no engine reaction

  /** A connection the remote end or the local stack has given up on. */
  predicate IsClosing(s: ConnState)
  {
    s == ClosedByPeer || s == ProblemDetectedLocally
  }

  /** An IP address with port; Clear() sets both to zero. */
  datatype IpAddr = IpAddr(host: nat, port: u16)

  const ClearedAddr := IpAddr(0, 0)
}
